=== FILE: README.md ===
# SparkRoom, modelled in Dafny

SparkRoom is a collaborative whiteboard. Clients join a room, which is a private
document. They draw elements on it: shapes, text, sticky notes and brush strokes.
To edit an element a client takes a lock on it. The coordinator relays each edit
to the other people in the room. This project models the logic at the centre of
that system as pure functions over immutable data, and proves its properties.

The coordinator.
- It is the realtime session coordinator (`handleSocket`).
- Every socket event is one `Session.Step`. A step takes the coordinator state
  and returns the new state and a list of emissions.
- The state has three parts:
  - the lock table, an insertion-ordered list of (element, owner) entries;
  - the presence lists of each room;
  - each socket's `socket.data` and the transport rooms it belongs to.
- Each emission carries an abstract audience: the sender, the room without the
  sender, or the whole room.
- `Session.Valid` is the invariant that every step preserves.
- The outcome of a database write is a boolean carried by the event.

The client and the helpers around it.
- The `update-element` and `delete-element` handlers split at their await, with the lock race they allow: `SessionAwait`.
- The client hook's mirror of the room: `RoomClient`.
- Its undo history: `UndoHistory`.
- The whiteboard's capped undo stack and board restore: `BoardHistory` and
  `BoardRestore`.
- Gestures: `Gestures`, which covers placeholders, the drag box and the brush
  box.
- Hit testing, with a stable sort by `zIndex`: `HitTest`.
- The SVG path of a stroke: `StrokePath`.
- `hexToRgba`: `Rgba`.
- The name colour and avatar initial: `Colors`, built on `Int32` for the 32-bit
  shifts.
- Element controls, defaults and style toggles: `ElementView`.
- The document routes: `Documents`.
- The AI sticky-note layout: `AiStickies`.
- The template gallery: `Templates`.

Shared data.
- `Json` holds the flat JavaScript objects the parts exchange. It also models
  truthiness, `String(v)` as a property key, and object spread.
- `Text` holds decimal and hex rendering and parsing, `trim`, ASCII case, and
  the UTF-16 code units.

`Findings` below records two behaviours that the source evidently does not intend.

## Model

| member | source | states |
|---|---|---|
| LockTable.Lookup | backend/src/services/socketHandler.js:80 | `activeLocks.get(e)` is None exactly when no entry names `e`; a result is an entry of the table |
| LockTable.LookupUnique | backend/src/services/socketHandler.js:3 | with distinct keys, a lookup of an entry's element finds that entry's owner |
| LockTable.Insert | backend/src/services/socketHandler.js:85 | `set` on an unlocked element appends one entry; lookups of every other element are unchanged; keys stay distinct |
| LockTable.Delete | backend/src/services/socketHandler.js:137 | after `delete`, the element has no entry; other lookups are unchanged; deleting an absent key changes nothing |
| LockTable.ReleaseAll | backend/src/services/socketHandler.js:6-15 | removes exactly the owner's entries and reports each of their ids once; all other lookups are unchanged; kept plus reported equals the old size |
| LockTable.ReleasedInTableOrder | backend/src/services/socketHandler.js:6-15 | the released ids come in the order of their entries in the table, which fixes the order of the `lock-released` notices |
| Session.Find | backend/src/services/socketHandler.js:29 | `list.find(u => u.id === sid)` is None exactly when no entry has that id |
| Session.Without | backend/src/services/socketHandler.js:171 | `filter` keeps exactly the entries of other sockets and keeps ids distinct |
| Session.StampAll | backend/src/services/socketHandler.js:31-33 | the `existing-users` payload is each presence record stamped with its socket id, in list order |
| Session.RoomLocks | backend/src/services/socketHandler.js:38-47 | `current-locks` holds exactly the locks whose owner is listed in the room, each with that owner's id and name |
| Session.InitialValid | backend/src/services/socketHandler.js:3-4 | the empty tables satisfy the invariant |
| Session.Join | backend/src/services/socketHandler.js:22-49 | overwrites `socket.data`; appends a presence entry and emits `existing-users` and `user-joined` only on the first join; always ends with `current-locks` to the joiner |
| Session.Cursor | backend/src/services/socketHandler.js:52-61 | changes nothing; relays the position with name to the room's others only when both room and user are truthy |
| Session.Create | backend/src/services/socketHandler.js:64-73 | emits `element-created` to the whole room exactly when joined and the write succeeded; state unchanged |
| Session.Request | backend/src/services/socketHandler.js:76-99 | unjoined: nothing. Unlocked element: the caller becomes owner and the whole room hears `lock-acquired`. Any existing entry, the caller's own included: unchanged table and `lock-failed` to the requester only |
| Session.Update | backend/src/services/socketHandler.js:102-122 | run as one step: emits `element-updated` to the others exactly when joined, not locked by another socket, and persisted; state unchanged |
| Session.Remove | backend/src/services/socketHandler.js:125-142 | run as one step: same gate as update; on success the element's lock is cleared and the others hear `element-deleted`; otherwise nothing changes |
| Session.Release | backend/src/services/socketHandler.js:145-152 | only the owner's release in a joined socket removes the entry and tells the others; any other release changes nothing |
| Session.Chat | backend/src/services/socketHandler.js:157-163 | relays the message to the whole room it names when `documentId` is truthy, and otherwise emits nothing; state unchanged |
| Session.ReleaseNotices | backend/src/services/socketHandler.js:177 | one `lock-released` to the whole room per released id, in release order |
| Session.Departure | backend/src/services/socketHandler.js:170-178 | `user-left` to the others first when announced, then a room-wide release per freed lock, only when the room is truthy |
| Session.Leave | backend/src/services/socketHandler.js:166-179 | the socket is gone; none of its locks remain and all other locks do; the presence entry goes when room and user were truthy |
| Session.Open | backend/src/services/socketHandler.js:18 | a new connection starts with no room and no user and emits nothing |
| SessionAwait.Checked | backend/src/services/socketHandler.js:102-106 | the synchronous half of update and delete: the captured room when the socket has a truthy room and no other socket holds the lock, None otherwise |
| SessionAwait.UpdateCompleted | backend/src/services/socketHandler.js:116-117 | after the awaited write, the changes go to the captured room's others exactly when the write succeeded, whatever the lock table says by then |
| SessionAwait.RemoveCompleted | backend/src/services/socketHandler.js:133-138 | after the awaited write, the element's lock is gone whoever held it, other locks are unchanged, and the captured room's others hear `element-deleted` |
| SessionAwait.RemoveCompletedCorrected | backend/src/services/socketHandler.js:128-138 | corrected: the completion clears the lock only while the deleter holds it, and otherwise leaves the table as it is |
| SessionAwait.AtomicWhenUninterrupted | backend/src/services/socketHandler.js:102-142 | with nothing run during the await, check then completion equals the one-step `Session.Update` and `Session.Remove`, for both versions of the delete |
| SessionAwait.DeleteRaceErasesLock | backend/src/services/socketHandler.js:76-138 | a lock granted to another socket during a delete's await is erased by the completion, and nobody hears `lock-released` |
| SessionAwait.CorrectedDeleteKeepsForeignLock | backend/src/services/socketHandler.js:76-138 | corrected, the same interleaving leaves the other socket's lock in place |
| SessionAwait.CorrectedRemovesOnlyOwnLock | backend/src/services/socketHandler.js:128-138 | corrected, every lock a completion removes belonged to the deleting socket |
| SessionAwait.UpdateRaceRelaysUnderForeignLock | backend/src/services/socketHandler.js:76-117 | an update that passed the check is relayed even though another socket was granted the lock during its await |
| SessionProps.JoinKeepsValid | backend/src/services/socketHandler.js:22-49 | join preserves the invariant |
| SessionProps.LeaveKeepsValid | backend/src/services/socketHandler.js:166-179 | disconnect preserves the invariant |
| SessionProps.RequestKeepsValid | backend/src/services/socketHandler.js:76-99 | a lock request preserves the invariant |
| SessionProps.StepKeepsValid | backend/src/services/socketHandler.js:17-180 | every event preserves the invariant: one owner per element, every owner a live socket, joined sockets listed, nobody listed twice in a room |
| SessionProps.Run | backend/src/services/socketHandler.js:17-180 | the invariant holds after any sequence of events |
| SessionProps.StepAddressing | backend/src/services/socketHandler.js:33-177 | every emission goes to the audience its kind calls for: the requester alone for `lock-failed`, `existing-users` and `current-locks`, the whole room for a create, a granted lock, a chat and a disconnect's releases, the room without the sender otherwise; the last never reaching the sender follows from that audience's definition |
| SessionProps.RoomAllReachesJoinedSender | backend/src/services/socketHandler.js:69-86 | a joined sender is itself among the recipients of its own whole-room emissions |
| SessionProps.ReRequestDenied | backend/src/services/socketHandler.js:84-98 | asking again for a lock one holds is refused, only the requester hears of it, and the table is unchanged |
| SessionProps.MutualExclusion | backend/src/services/socketHandler.js:80-98 | of two sockets requesting the same element in turn, at most one is granted it |
| SessionProps.ForeignLockDropsEdits | backend/src/services/socketHandler.js:106-130 | update and delete by a non-owner of a held lock change nothing and emit nothing |
| SessionProps.ReleaseByNonOwnerIsSilent | backend/src/services/socketHandler.js:148-151 | a release by a socket that does not own the lock changes nothing and emits nothing |
| SessionProps.ReleasedAreOwned | backend/src/services/socketHandler.js:6-15 | the released ids are exactly the socket's locks, one each |
| SessionProps.DisconnectReleasesAll | backend/src/services/socketHandler.js:175-178 | after a disconnect the socket owns nothing, and a joined socket's room hears one release per lock it held |
| SessionProps.SecondJoinLeavesStaleEntry | backend/src/services/socketHandler.js:24-35 | joining a second room moves `socket.data.room` but the first room still lists the socket |
| SessionProps.JoinLists | backend/src/services/socketHandler.js:29-33 | after a join, the joiner is listed in the room it joined |
| SessionProps.LeaveDelists | backend/src/services/socketHandler.js:170-173 | an announced disconnect removes the socket from its room's list |
| SessionProps.ChatIgnoresMembership | backend/src/services/socketHandler.js:157-163 | a socket that never joined can still broadcast a message to any room it names |
| SessionProps.EmptyRejoinSilencesRelease | backend/src/services/socketHandler.js:24-178 | a lock holder that rejoins with an empty id keeps its lock, and its disconnect frees the lock without telling anyone |
| RoomClient.OnElementCreated | frontend/src/hooks/useRoom.js:51 | inserts or overwrites exactly the entry keyed by the element's id; nothing else changes |
| RoomClient.OnElementUpdated | frontend/src/hooks/useRoom.js:52 | each field of the entry is the change's if present and otherwise the old element's, a missing element counting as empty; other entries untouched |
| RoomClient.OnElementDeleted | frontend/src/hooks/useRoom.js:53 | removes only that id |
| RoomClient.OnLockAcquired | frontend/src/hooks/useRoom.js:54 | sets that element's lock to the given owner and name; other locks untouched |
| RoomClient.OnLockReleased | frontend/src/hooks/useRoom.js:55 | removes only that element's lock |
| RoomClient.OnCurrentLocks | frontend/src/hooks/useRoom.js:57 | the payload replaces the lock map; a null payload empties it |
| RoomClient.UsersById | frontend/src/hooks/useRoom.js:59-60 | the keys are exactly the listed ids, and each id maps to the last record with that id |
| RoomClient.OnExistingUsers | frontend/src/hooks/useRoom.js:58-62 | rebuilds the users map with exactly the listed ids |
| RoomClient.OnUserJoined | frontend/src/hooks/useRoom.js:63 | adds or overwrites one user entry; others untouched |
| RoomClient.OnUserLeft | frontend/src/hooks/useRoom.js:64-67 | removes that id from both the users and the cursors, and nothing else |
| RoomClient.OnCursorUpdate | frontend/src/hooks/useRoom.js:68 | records that user's position and name; other cursors untouched |
| RoomClient.OnReceiveMessage | frontend/src/hooks/useRoom.js:71-73 | appends the message after all earlier ones |
| RoomClient.Apply | frontend/src/hooks/useRoom.js:51-73 | dispatches one server message; `lock-failed` changes nothing |
| RoomClient.ApplyAll | frontend/src/hooks/useRoom.js:51-73 | a run of `lock-failed` messages leaves the client as it was |
| RoomClient.AsEvent | frontend/src/hooks/useRoom.js:132-165 | each emitter's message arrives as the matching event of the sending socket, one kind for one kind: the create carries the element, the update the id and the changes, delete and both lock events the id, the chat the payload; only create, update and delete carry the write's outcome |
| RoomClient.CreateLocal | frontend/src/hooks/useRoom.js:130-133 | the element appears locally at once and the same element is sent |
| RoomClient.UpdateLocal | frontend/src/hooks/useRoom.js:135-138 | the local merge as for `element-updated`, and the changes sent unmodified |
| RoomClient.DeleteLocal | frontend/src/hooks/useRoom.js:140-143 | the id goes locally and a delete for it is sent |
| RoomClient.ChatPayload | frontend/src/hooks/useRoom.js:157-163 | the payload carries the room, the untrimmed content, the first clock reading as timestamp, an id `msg-` whose digits parse back to the second reading, and the user's name when there is one |
| RoomClient.SendChatMessage | frontend/src/hooks/useRoom.js:155-166 | sends exactly when there is a socket, a user, and content that is not blank after trimming |
| MirrorProps.ApplyAllAppend | frontend/src/hooks/useRoom.js:51-73 | applying two batches in turn is applying their concatenation |
| MirrorProps.CreateEchoHarmless | frontend/src/hooks/useRoom.js:51-133 | the creator's own copy of the echoed `element-created` leaves its board as the optimistic insert made it |
| MirrorProps.UpdateConverges | frontend/src/hooks/useRoom.js:52-138 | after an accepted update, the sender's optimistic copy and each peer's copy agree if they agreed before |
| MirrorProps.DeleteConverges | frontend/src/hooks/useRoom.js:53-143 | after an accepted delete, the element is gone from the sender and from every peer |
| MirrorProps.LockMirrored | frontend/src/hooks/useRoom.js:54 | a granted lock appears in every hearing client, with the owner the coordinator recorded |
| MirrorProps.RefusalInvisible | frontend/src/hooks/useRoom.js:56 | a refused request leaves every client's lock map as it was |
| MirrorProps.ReleaseMirrored | frontend/src/hooks/useRoom.js:55 | an owner's release clears the lock at the coordinator and at each peer |
| MirrorProps.JoinerSeesItself | frontend/src/hooks/useRoom.js:58-62 | the joiner's users map contains its own socket id, because `existing-users` lists the joiner |
| MirrorProps.ChatRouted | frontend/src/hooks/useRoom.js:155-166 | a message the hook sends reaches the whole room of the document it names |
| UndoHistory.AddAction | frontend/src/hooks/useHistory.js:9-12 | the state becomes the undo top over the old stack and redo empties; total size grows by one exactly when redo was empty |
| UndoHistory.Undo | frontend/src/hooks/useHistory.js:14-19 | None and no change on an empty stack; otherwise the undo top moves onto redo and is returned; total size kept |
| UndoHistory.Redo | frontend/src/hooks/useHistory.js:21-26 | the mirror image of undo |
| UndoHistory.UndoThenRedo | frontend/src/hooks/useHistory.js:14-26 | undo then redo restores both stacks and returns the same state twice |
| UndoHistory.RedoThenUndo | frontend/src/hooks/useHistory.js:14-26 | redo then undo restores both stacks and returns the same state twice |
| UndoHistory.UndoTimesMoves | frontend/src/hooks/useHistory.js:14-19 | k undos move the top k states to redo, most recent first |
| UndoHistory.RedoTimesMoves | frontend/src/hooks/useHistory.js:21-26 | k redos move the top k states back to undo, most recent first |
| UndoHistory.UndoRedoTimes | frontend/src/hooks/useHistory.js:14-26 | k undos followed by k redos restore the history |
| BoardHistory.PushToUndo | frontend/src/components/Whiteboard.jsx:232-238 | the snapshot is on top, the stack holds the most recent min(n+1, 50) entries in order, and redo is cleared |
| BoardHistory.PushBelowCapIsAddAction | frontend/src/components/Whiteboard.jsx:232-238 | below the cap, the push is the hook's `addAction` |
| BoardHistory.PushAtCapDropsOldest | frontend/src/components/Whiteboard.jsx:235 | at the cap, a push drops exactly the oldest snapshot |
| BoardHistory.PushesStayCapped | frontend/src/components/Whiteboard.jsx:232-238 | any number of pushes keeps the undo stack at 50 or fewer |
| BoardHistory.HandleUndo | frontend/src/components/Whiteboard.jsx:255-261 | nothing on an empty stack; otherwise pops the top to restore and pushes the current board onto redo |
| BoardHistory.HandleRedo | frontend/src/components/Whiteboard.jsx:263-269 | the mirror image of undo |
| BoardHistory.UndoThenRedoRestores | frontend/src/components/Whiteboard.jsx:255-269 | undo then redo, each restoring faithfully, gives back the board and the stacks |
| BoardHistory.UndoKeepsSize | frontend/src/components/Whiteboard.jsx:255-269 | undo and redo keep the total number of snapshots |
| BoardHistory.PerformKeepsCap | frontend/src/components/Whiteboard.jsx:232-269 | a push, undo or redo keeps the two stacks together at 50 or fewer snapshots |
| BoardHistory.StacksStayCapped | frontend/src/components/Whiteboard.jsx:232-269 | over any sequence of pushes, undos and redos the undo stack holds at most 50 snapshots, although redo appends to it untrimmed |
| BoardRestore.DeleteMissing | frontend/src/components/Whiteboard.jsx:242-246 | the first loop removes exactly the current ids the target lacks |
| BoardRestore.DeleteNotices | frontend/src/components/Whiteboard.jsx:244-246 | it sends a delete for exactly those ids |
| BoardRestore.DeleteStepIsEmitter | frontend/src/components/Whiteboard.jsx:245 | a step of the first loop is the client's `deleteElement` |
| BoardRestore.UpsertOne | frontend/src/components/Whiteboard.jsx:249-252 | an element shown at the start is merged over the board's copy; otherwise it is created as given |
| BoardRestore.UpsertStepIsEmitter | frontend/src/components/Whiteboard.jsx:250-251 | a step of the second loop is the client's `updateElement` or `createElement` |
| BoardRestore.UpsertAllFrame | frontend/src/components/Whiteboard.jsx:249-252 | the second loop adds the listed ids and leaves every other entry alone |
| BoardRestore.UpsertAllAt | frontend/src/components/Whiteboard.jsx:249-252 | an element whose id no other listed element carries ends under that id, merged over what the board held or as given |
| BoardRestore.Values | frontend/src/components/Whiteboard.jsx:249 | `Object.values` lists the target's entries in enumeration order |
| BoardRestore.Restore | frontend/src/components/Whiteboard.jsx:240-253 | a restore, of any snapshot, only touches the elements |
| BoardRestore.RestoreContents | frontend/src/components/Whiteboard.jsx:240-253 | afterwards the key set is the target's; an id only in the target comes back as saved; an id in both has the saved fields merged over the board's |
| BoardRestore.RestoreEmissions | frontend/src/components/Whiteboard.jsx:244-252 | for any snapshot: one delete per board id the target lacks, then per target element in enumeration order an update under the element's own `id` when the board showed that id and a create otherwise; for a well-keyed target that id is the key |
| BoardRestore.RestoreKeepsNewerFields | frontend/src/components/Whiteboard.jsx:250 | a field gained after the snapshot survives the restore, for any entry filed under its own id that no other entry shares |
| BoardRestore.IdlessUpdateBreaksKeying | frontend/src/hooks/useRoom.js:52 | an update for an id the board lacks, received or local (useRoom.js:135), files an element without `id`, so boards need not be well keyed |
| BoardRestore.IdlessRestoredUnderUndefined | frontend/src/components/Whiteboard.jsx:249-251 | a snapshot entry without `id` is created under "undefined" while its own key keeps the board's copy, so the board ends with a key the snapshot lacks |
| BoardRestore.RestoreExactIff | frontend/src/components/Whiteboard.jsx:240-253 | the board equals the snapshot exactly when no shared element has a field the snapshot's copy lacks |
| StrokePath.SvgPath | frontend/src/components/Whiteboard.jsx:15-20 | the path is empty exactly for no points, and otherwise starts with `M ` |
| StrokePath.PathIsTokens | frontend/src/components/Whiteboard.jsx:17-18 | the path is `M x0 y0` then ` L xi yi` for each later point, as single-spaced words |
| StrokePath.PathRoundTrip | frontend/src/components/Whiteboard.jsx:15-20 | reading a rendered path gives back the points, in order |
| Rgba.RemoveFirstHash | frontend/src/components/Whiteboard.jsx:24 | `replace("#", "")` drops a leading `#`, and a string without `#` is unchanged |
| Rgba.DoubleUnits | frontend/src/components/Whiteboard.jsx:25 | each code unit is written twice, in order |
| Rgba.ChannelsOfValue | frontend/src/components/Whiteboard.jsx:27-29 | r, g and b are bytes 2, 1 and 0 of the parsed value, each in 0..255 |
| Rgba.HexToRgba | frontend/src/components/Whiteboard.jsx:22-31 | an absent or empty hex gives `rgba(0,0,0,alpha)`; otherwise the channels of the parsed hex |
| Rgba.ChannelsRoundTrip | frontend/src/components/Whiteboard.jsx:22-31 | a `#rrggbb` colour written from three bytes reads back as those bytes |
| Rgba.SixDigitChannels | frontend/src/components/Whiteboard.jsx:26-29 | each digit pair of a six-digit colour is one channel, red first |
| Rgba.ShortFormExpands | frontend/src/components/Whiteboard.jsx:25 | a three-digit colour means the same as each digit doubled |
| HitTest.NumOr | frontend/src/components/Whiteboard.jsx:311-313 | `v \|\| d` is the default for a falsy value and the number for a number |
| HitTest.UnderCursor | frontend/src/components/Whiteboard.jsx:307-314 | the filter's test: a stroke with points is hit within `brushSize \|\| 6` of one of them, anything else inside its box with `\|\| 0` defaults, edges included (defined, no contract) |
| HitTest.Hits | frontend/src/components/Whiteboard.jsx:307-314 | the filter keeps exactly the elements under the point, each as often as it occurs |
| HitTest.HitsAppend | frontend/src/components/Whiteboard.jsx:307-314 | the hits of a concatenation are the hits of each part in turn, so the filter keeps enumeration order; with `Hits`' multiset clause this fixes its result |
| HitTest.SortBy | frontend/src/components/Whiteboard.jsx:315 | the sort is a permutation and sorted ascending by key |
| HitTest.SortIsStable | frontend/src/components/Whiteboard.jsx:315 | elements with equal keys keep their relative order |
| HitTest.ElementsUnderCursor | frontend/src/components/Whiteboard.jsx:306-316 | None, the filter throwing, exactly when some stroke has truthy `points` that are not an array; otherwise exactly the hit elements, ordered by `zIndex` ascending |
| HitTest.UnderCursorStable | frontend/src/components/Whiteboard.jsx:315 | when the query does not throw, hits with the same `zIndex` keep their enumeration order |
| HitTest.EraserTakesLowest | frontend/src/components/Whiteboard.jsx:333-416 | the eraser finds something exactly when the query does not throw and some element is hit, and what it finds has the lowest `zIndex` among the hits |
| HitTest.HitHeadsClass | frontend/src/components/Whiteboard.jsx:307-314 | a hit with no earlier hit of its `zIndex` comes first among the hits of that `zIndex` |
| HitTest.QueryHeadKey | frontend/src/components/Whiteboard.jsx:306-316 | the query's first element has the lowest `zIndex` of any hit |
| HitTest.EraserTakesFirstLowest | frontend/src/components/Whiteboard.jsx:306-333 | the eraser takes exactly the first hit, in enumeration order, among the hits with the lowest `zIndex` |
| HitTest.EraserTakesFirstHit | frontend/src/components/Whiteboard.jsx:152-416 | when every element has `zIndex` 1, as every element the app creates does (lines 152, 358 and 402), the eraser takes the first element under the point in enumeration order |
| HitTest.ThrowingStrokeHidesAll | frontend/src/components/Whiteboard.jsx:307-311 | one stroke with unreadable points makes the query throw, so even an element under the point is not found |
| HitTest.CornersHit | frontend/src/components/Whiteboard.jsx:313 | the bounds are inclusive: all four corners of a box are hits |
| HitTest.StrokePointsHit | frontend/src/components/Whiteboard.jsx:310-311 | a stroke is hit at each of its own points |
| Gestures.ElementTypeFor | frontend/src/components/Whiteboard.jsx:342-344 | only the shape, sticky-note and text tools place an element; a shape is stored under the selected shape's name |
| Gestures.Placeholder | frontend/src/components/Whiteboard.jsx:342-359 | only the three tools make a placeholder, stored under the selected shape's name or the tool's, at the press point with zero size and `zIndex` 1 |
| Gestures.PlaceholderStyle | frontend/src/components/Whiteboard.jsx:351-357 | fill "#000" for texts and sticky notes and the colour otherwise, stroke the colour, `shapeFilled` as selected, font size 16, content "Sticky Note", "Text" or empty, background "#FFF9C4" for sticky notes and transparent otherwise |
| Gestures.PlaceholderKeys | frontend/src/components/Whiteboard.jsx:344-359 | the placeholder carries exactly the thirteen fields the mouse-down sets |
| Gestures.ShapesNotResizedAsWritten | frontend/src/components/Whiteboard.jsx:344-431 | as written, no shape placeholder passes the drag branch's test |
| Gestures.RectangleNotResizedAsWritten | frontend/src/components/Whiteboard.jsx:344-431 | the rectangle tool's placeholder escapes the drag resize |
| Gestures.PlaceholdersResized | frontend/src/components/Whiteboard.jsx:342-431 | with the corrected test, every placeholder type is resized |
| Gestures.ResizedArePlaceholders | frontend/src/components/Whiteboard.jsx:342-431 | with the corrected test, the resized types are exactly the placeholder types |
| Gestures.DragBox | frontend/src/components/Whiteboard.jsx:432-435 | width and height are not negative, and start and current are opposite corners |
| Gestures.DragBoxSymmetric | frontend/src/components/Whiteboard.jsx:432-435 | the box does not depend on which way the drag went |
| Gestures.DragEndsHit | frontend/src/components/Whiteboard.jsx:432-438 | after a resize, both ends of the drag are hits on the element |
| Gestures.BrushBox | frontend/src/components/Whiteboard.jsx:445-455 | the box contains every point, is at least 1 by 1, and is tight |
| Gestures.BrushBoxOfOne | frontend/src/components/Whiteboard.jsx:445-455 | a one-point stroke has a unit box at the point |
| Gestures.BrushBoxExtends | frontend/src/components/Whiteboard.jsx:444-452 | appending a point moves the box's corner only towards it |
| Gestures.StrokePoints | frontend/src/components/Whiteboard.jsx:444 | `points \|\| []` is empty for a falsy value and the list for a list |
| Gestures.BrushChanges | frontend/src/components/Whiteboard.jsx:444-455 | a brush move sends the points with the new one appended, and their box |
| Gestures.MouseMove | frontend/src/components/Whiteboard.jsx:424-458 | as written: a drag sends the box exactly for a stored type "shape", "sticky_note" or "text"; a stroke move sends the extended stroke; anything else sends nothing |
| Gestures.StrokeMove | frontend/src/components/Whiteboard.jsx:443-455 | the stroke branch sends the extended points and their box, and nothing when `points` is truthy but not a list (see "Left out") |
| Gestures.MouseMoveCorrected | frontend/src/components/Whiteboard.jsx:424-458 | corrected: a drag sends the box for every placeholder type, shape names included; strokes as before |
| Gestures.MoveDiffersOnlyOnShapes | frontend/src/components/Whiteboard.jsx:344-431 | the handler as written and the corrected one differ exactly for a stored shape name, where the one as written sends nothing, and for a stored "shape" |
| Gestures.ShapeDragSendsNothing | frontend/src/components/Whiteboard.jsx:342-431 | as written, dragging a freshly placed shape sends no changes |
| Gestures.DragSizesEveryShape | frontend/src/components/Whiteboard.jsx:342-437 | with the corrected handler, dragging a fresh shape sends the drag box |
| Gestures.SizeOrDefault | frontend/src/components/Whiteboard.jsx:469-470 | a numeric size below 6 becomes the default; anything else stays |
| Gestures.TapDefaults | frontend/src/components/Whiteboard.jsx:467-471 | only the listed types are touched; then the width is 120 when it was a number below 6 and kept otherwise, the height likewise with 60, so both are at least 6 or not numbers |
| Gestures.LineStaysEmptyAsWritten | frontend/src/components/Whiteboard.jsx:431-467 | a line placed and dragged keeps zero size, since neither the drag nor the tap default applies |
| Gestures.TappedRectangleDefaults | frontend/src/components/Whiteboard.jsx:467-471 | a tapped rectangle gets 120 by 60 |
| ElementView.FieldOr | frontend/src/components/WhiteboardElement.jsx:35-62 | a destructuring default replaces only a missing field |
| ElementView.GeometryOf | frontend/src/components/WhiteboardElement.jsx:38-41 | missing x, y, width and height default to 0, 0, 100 and 60 |
| ElementView.BareElementGeometry | frontend/src/components/WhiteboardElement.jsx:38-41 | an element without geometry is drawn 100 by 60 at the origin |
| ElementView.HitBoxIsDrawnBox | frontend/src/components/Whiteboard.jsx:313 | where x, y, width and height are all numbers, a point hits the element exactly when it lies in the drawn box |
| ElementView.BareElementHitOnlyAtOrigin | frontend/src/components/Whiteboard.jsx:313 | an element without geometry is drawn 100 by 60 but hit only at the origin, since the hit test defaults width and height to 0 |
| ElementView.Toggled | frontend/src/components/WhiteboardElement.jsx:77-92 | each of the three toggles gives off when the value is on and on otherwise; any other property keeps its value |
| ElementView.ToggleStyle | frontend/src/components/WhiteboardElement.jsx:77-94 | the change touches only that property, and sets one of its two values |
| ElementView.ToggleFlips | frontend/src/components/WhiteboardElement.jsx:81-89 | the toggle turns the property on exactly when it was not on |
| ElementView.ToggleTwiceRestores | frontend/src/components/WhiteboardElement.jsx:81-89 | toggling twice restores a property that held one of its two values |
| ElementView.ToggleOtherIsNoOp | frontend/src/components/WhiteboardElement.jsx:90-93 | any other property is written back unchanged |
| ElementView.ControlsFor | frontend/src/components/WhiteboardElement.jsx:299-369 | drag is disabled exactly when locked and not mine; resize exactly otherwise; delete only when selected and resizable; the lock label only when frozen |
| ElementView.FrozenIffLockedByOther | frontend/src/components/Whiteboard.jsx:584-626 | on the board, an element is frozen exactly when another socket holds its lock |
| ElementView.FlagsExclusive | frontend/src/components/Whiteboard.jsx:584-625 | the two lock flags never hold together |
| ElementView.UnconnectedOwnsUnlocked | frontend/src/components/Whiteboard.jsx:584 | before the socket id is known, every unlocked element counts as locked by me |
| ElementView.LockLabel | frontend/src/components/WhiteboardElement.jsx:364 | the label names the owner's name, or its id when the name is falsy |
| ElementView.CursorStyle | frontend/src/components/WhiteboardElement.jsx:343-348 | `not-allowed` exactly when frozen; `text` exactly for unfrozen text and sticky notes |
| Documents.MatchIndex | backend/src/routes/document.routes.js:60 | the position of the first user whose e-mail (or id) is the key: every earlier user differs, and the one there matches unless none does |
| Documents.FindUser | backend/src/routes/document.routes.js:164 | None exactly when no user has that id (or e-mail); otherwise the first matching user |
| Documents.ListDocuments | backend/src/routes/document.routes.js:21-28 | a user's list holds exactly the rooms whose access list holds them (as a set) |
| Documents.RoomName | backend/src/routes/document.routes.js:42 | a falsy name gives 'Untitled Private Room'; a string stays; an array cannot be cast |
| Documents.CreateDocument | backend/src/routes/document.routes.js:33-52 | 201 exactly when the id is fresh and the name casts; the room has no elements and the owner alone on its list; otherwise 500 and no change |
| Documents.GrantAccess | backend/src/routes/document.routes.js:55-88 | 404 for an unknown address; 403 unless the room exists and the caller is first on its list; 500 exactly when an owner's grant to a new user fails to save; 200 otherwise, both for a user already listed and for a new one; the store changes only by appending the new user, and only on that 200 |
| Documents.GrantGivesAccess | backend/src/routes/document.routes.js:75-82 | after a 200 the user has access and the owner is still first |
| Documents.GrantOnlyAdds | backend/src/routes/document.routes.js:79-80 | no grant removes access or changes another room |
| Documents.GrantIdempotent | backend/src/routes/document.routes.js:75-80 | granting the same address twice changes nothing the second time |
| Documents.GetDocument | backend/src/routes/document.routes.js:148-179 | 404 when missing, 403 without access, else 200 with the room and its owner's name, or 'Unknown Owner' when the first id on the access list names no user |
| Documents.CreatedRoomOpens | backend/src/routes/document.routes.js:33-172 | a new room opens empty, under its name, for its creator, and is refused to others |
| Documents.ListedIffOpens | backend/src/routes/document.routes.js:21-160 | a room is listed exactly when it opens for that user |
| Documents.ShareInvite | backend/src/routes/document.routes.js:91-144 | 400 exactly when the id or the address is falsy; otherwise a mail to the address, with the subject naming the sender and the link to the room, 200 once sent and 500 when sending fails |
| Documents.ShareIgnoresAccess | backend/src/routes/document.routes.js:91-144 | an invite goes out for a room that opening would refuse with 403 or 404 |
| AiStickies.MockIdeas | backend/src/routes/ai.routes.js:14-21 | five ideas, the first two containing the prompt |
| AiStickies.XOffset | backend/src/routes/ai.routes.js:39 | the stagger is below 800 and congruent to index*220 modulo 800 |
| AiStickies.YOffset | backend/src/routes/ai.routes.js:40 | the row offset is a multiple of 220 and is 220 times index/4 rounded down |
| AiStickies.Coordinate | backend/src/routes/ai.routes.js:39-40 | a falsy start is the default plus offset; a number adds; `true` counts as 1; a string concatenates |
| AiStickies.Note | backend/src/routes/ai.routes.js:36-47 | a sticky note, 200 by 200, font size 20, holding its idea at the staggered position |
| AiStickies.Notes | backend/src/routes/ai.routes.js:35-48 | one note per idea, in idea order |
| AiStickies.GenerateStickies | backend/src/routes/ai.routes.js:24-50 | 400 exactly for a falsy prompt; otherwise five notes, one per mock idea in order |
| AiStickies.GeneratedQuotePrompt | backend/src/routes/ai.routes.js:15-43 | the first two notes' contents contain the prompt |
| AiStickies.FirstRowsApart | backend/src/routes/ai.routes.js:39-42 | the first eight notes do not overlap one another |
| AiStickies.GeneratedNotesApart | backend/src/routes/ai.routes.js:35-42 | the five generated notes never overlap |
| AiStickies.ThirdRowOverlaps | backend/src/routes/ai.routes.js:39-42 | the ninth and twelfth positions would overlap |
| AiStickies.StringStartConcatenates | backend/src/routes/ai.routes.js:39 | a string start "50" gives the first note an x of "500" |
| Templates.Filter | frontend/src/pages/TemplatePage.jsx:52-54 | keeps exactly the templates whose lower-cased name or description contains the lower-cased term |
| Templates.FilterAppend | frontend/src/pages/TemplatePage.jsx:52-54 | the matches of a concatenation are the matches of each part in turn, so the search keeps catalogue order; with the membership clause this fixes `Filter` |
| Templates.FilterOfCategory | frontend/src/pages/TemplatePage.jsx:52-60 | searching then taking a category equals taking the category then searching |
| Templates.SearchIgnoresCase | frontend/src/pages/TemplatePage.jsx:53-54 | the term's case does not matter |
| Templates.EmptyTermKeepsAll | frontend/src/pages/TemplatePage.jsx:52-54 | an empty term keeps every template, in order |
| Templates.CategoryOf | frontend/src/pages/TemplatePage.jsx:56 | a missing or empty category is 'Other' |
| Templates.GroupingHolds | frontend/src/pages/TemplatePage.jsx:55-60 | each category appears once, in first-appearance order, and its group is exactly its templates in order |
| Templates.GalleryKeepsCatalogueOrder | frontend/src/pages/TemplatePage.jsx:52-60 | under any term, each shown group is its category's catalogue templates, in catalogue order, narrowed to the matches |
| Templates.GroupsOccur | frontend/src/pages/TemplatePage.jsx:55-60 | every group's category occurs among the templates |
| Templates.NoGroupsIffEmpty | frontend/src/pages/TemplatePage.jsx:55-60 | there are no groups exactly when nothing matched |
| Templates.NoResultsIff | frontend/src/pages/TemplatePage.jsx:212-216 | "No templates found" appears exactly when a non-empty term matches nothing |
| Templates.EmptyTermShowsAll | frontend/src/pages/TemplatePage.jsx:52-145 | under an empty term, every group is the whole catalogue's templates of its category |
| Templates.Featured | frontend/src/pages/TemplatePage.jsx:272 | exactly the Recommended and New templates |
| Templates.FeaturedAppend | frontend/src/pages/TemplatePage.jsx:272 | featuring a concatenation features each part in turn, so the carousel keeps catalogue order |
| Templates.StatusStyle | frontend/src/pages/TemplatePage.jsx:112-141 | a badge exactly for New, Pro and Recommended, with white text only for New |
| Templates.FeaturedHaveBadges | frontend/src/pages/TemplatePage.jsx:112-272 | every featured template wears a badge |
| Templates.FeaturedAlwaysShown | frontend/src/pages/TemplatePage.jsx:145-272 | the featured carousel shows under every search term |
| Templates.CreateBoard | frontend/src/pages/TemplatePage.jsx:108-110 | navigates exactly when a template is selected, to `/document/new-<time>?template=<id>` |
| Int32.ToInt32 | frontend/src/components/Cursor.jsx:7 | a signed 32-bit value congruent to its input modulo 2^32 |
| Int32.ShiftLeft | frontend/src/components/Cursor.jsx:7 | `<<` is multiplication by a power of two, wrapped to 32 signed bits |
| Int32.ByteOfShift | frontend/src/components/Cursor.jsx:11 | `(x >> 8i) & 0xff` is byte i of x's 32-bit form |
| Colors.Pair | frontend/src/components/Cursor.jsx:11-12 | each pair is two lower-case hex digits |
| Colors.StringToColor | frontend/src/components/Cursor.jsx:4-15 | the colour is `#` and six lower-case hex digits |
| Colors.HashIsPoly31 | frontend/src/components/Cursor.jsx:5-8 | the wrapping hash agrees with the polynomial hash over base 31 modulo 2^32 |
| Colors.ColorOfPoly31 | frontend/src/components/Cursor.jsx:9-14 | the colour is the three low bytes of the polynomial hash, low byte first |
| Colors.ColorChannels | frontend/src/components/Cursor.jsx:9-14 | read back by `hexToRgba`, the red channel is the hash's lowest byte |
| Colors.EmptyIsBlack | frontend/src/components/Cursor.jsx:5-14 | the empty name is `#000000` |
| Colors.ResidueDeterminesColor | frontend/src/components/Avatar.jsx:4-15 | names whose hashes agree modulo 2^32 share a colour, in the avatar as on the cursor |
| Colors.HashExact | frontend/src/components/Avatar.jsx:5-8 | for names up to 2^21 code units, the hash stays an exact double |
| Colors.ColorInput | frontend/src/components/Cursor.jsx:4-8 | `name \|\| 'default'` as the hash loop reads it: 'default' for a falsy name, the string itself, nothing for a number, a boolean or an empty array, and a throw for a non-empty array |
| Colors.UserColor | frontend/src/components/Cursor.jsx:34 | the colour of that input; black for a number, a boolean or an empty array; None exactly for a non-empty array |
| Colors.AvatarInitial | frontend/src/components/Avatar.jsx:19 | '?' for a falsy name; otherwise the upper-cased first code unit |
| Colors.NamelessLooksDefault | frontend/src/components/Avatar.jsx:19-20 | a user without a name shows '?' in the colour of the name "default"; a user named "default" shares that colour but shows 'D' |
| Text.IntegerRoundTrip | backend/src/routes/ai.routes.js:39 | the decimal rendering of an integer parses back to it |
| Text.HexRoundTrip | frontend/src/components/Cursor.jsx:12 | `toString(16)` reads back as the number |
| Text.TrimEmptyIffBlank | frontend/src/hooks/useRoom.js:156 | `trim()` is empty exactly when the string is all white space |
| Text.SplitJoin | frontend/src/components/Whiteboard.jsx:17-18 | splitting words joined by single spaces gives them back |
| Text.Utf16Append | frontend/src/components/Cursor.jsx:6-7 | the code units of a concatenation are the concatenated code units |

## Left out

- Persistence. The Mongoose writes (`findByIdAndUpdate`, `updateOne`, `save`) become one boolean per event: it says whether the write succeeded. A failed write emits nothing. The contents of the stored document are not modelled.
- The transport. Socket.io delivery, rooms and socket ids are modelled only as recipients of emissions. The model has no ordering between clients and no lost messages.
- React lifecycle and rendering. This covers the connect and disconnect wiring of `useRoom.js`, the throttle and debounce, and DOM and window events.
- Id generation and clocks. uuid and `Date.now` values are parameters.
- The fetch in `useRoom.js` that builds the element map. The undo snapshots' JSON round trip is taken as the identity.
- Floating point. Coordinates and sizes are integers.
- HitTest.UnderCursor: compares the squared distance exactly, where the source compares `Math.hypot` in floating point.
- Brush variants. The size and opacity multipliers (1.6, 1.5, 0.8) are not modelled. The stroke's own `brushSize` is taken as given.
- HitTest.NumOr: a field that is neither absent nor a number counts as NaN. Every comparison with NaN fails.
- Text.ToLower: maps only the ASCII letters. Unicode case mapping is not modelled. Neither is `toUpperCase` beyond ASCII in `Colors.AvatarInitial`.
- Colors.HashExact: the hash is proved exact in double precision only for names up to 2^21 code units. Longer names are outside it.
- Object key order. `Object.entries` and `Object.values` follow insertion order in the model. JavaScript lists integer-like keys first, and that is not modelled.
- Documents.GrantAccess: the address is a string. A missing address passed to `findOne` is database behaviour and is left out.
- Documents.GrantAccess: the access-list ids are compared as strings, where the source uses `ObjectId.equals`.
- BoardRestore.RestoreContents: promises the exact key set and contents only for a well-keyed snapshot. A snapshot holding an element without its own `id` (`BoardRestore.IdlessUpdateBreaksKeying`) comes back with that element under "undefined" instead (`BoardRestore.IdlessRestoredUnderUndefined`).
- BoardRestore.RestoreExactIff: likewise stated for well-keyed snapshots only, for the same reason.
- Documents.ShareInvite: the mail is the recipient, subject and link. The HTML body and the transporter are left out.
- Documents.CreateDocument: a name of the wrong type is the only cast failure modelled. Other schema validation is not.
- Icons and styles. Template icons, the badge styles beyond their colours, and every layout style are left out.
- Export and storage: PDF, PNG, SVG, localStorage and the clipboard.
- Authentication, which covers JWT and the `protect` middleware. The caller's id is a parameter.
- Session.Update: `Session.Step` runs the handler as one step, as if nothing ran during the awaited write. `SessionAwait` splits the handler at the await and proves what an interleaved lock request does to it; the session invariant is proved for the atomic step only.
- Session.Remove: atomic in `Session.Step` as well. The split version in `SessionAwait` shows the erased lock (see Findings); the invariant proofs use the atomic step.
- Session.Join: `usersInRooms` is a plain object. A document id that names an `Object.prototype` member ("constructor", "toString", "__proto__") makes `usersInRooms[documentId]` truthy before any join, and `.find` then throws after `socket.data` was set. The model treats every room id as an ordinary key and joins normally.
- Session.Leave: for such a room the source's `.filter` throws before `releaseAllLocksForSocket`, so the locks stay. The model releases them, as it does for every other room id.
- Documents.ListDocuments: returns the set of rooms; the `updatedAt`-descending order of the reply is not modelled, because the store keeps no timestamps.
- Element, document and user ids are strings. Numeric or object ids coming from clients are not modelled.
- RoomClient.CreateLocal: emits whenever called, as do `RoomClient.UpdateLocal` and `RoomClient.DeleteLocal`. The source's `socket.emit` would throw while the socket is still null; that case is not modelled.
- The text toolbar's visibility (which tool or selection shows it) is left out, since it is rendering only.
- Gestures.StrokeMove: a stroke whose `points` is truthy but not a list gives None, so nothing is sent. The source would spread a string into characters and send NaN coordinates, and a number or `true` would throw. The app's own strokes always start with a list (frontend/src/components/Whiteboard.jsx:393).
- AiStickies.GenerateStickies: takes the five fresh ids as a parameter. The route's catch-all 500 is not modelled, since the mock brainstorm cannot fail.

Integration quirks the model states as they are:
- `useRoom` returns `elements` as an array (`Object.values`, frontend/src/hooks/useRoom.js:191). `Whiteboard.jsx` indexes it by id. The model keeps the client's board as an id-keyed map, as the whiteboard's helpers are written.
- A socket that rejoins with an empty document id keeps its locks. When it disconnects, the locks are freed but no client hears of it, so the others keep showing them locked (`SessionProps.EmptyRejoinSilencesRelease`). So "every lock owner is a joined socket" is not an invariant. The invariant only says every owner is a live socket.
- The eraser deletes the hit element with the lowest `zIndex`, which is the bottom-most one (`HitTest.EraserTakesLowest`). Since every element the app creates has `zIndex` 1, that is the first element under the point in enumeration order (`HitTest.EraserTakesFirstHit`).
- Undo restores by merging, so a field an element gained after the snapshot survives the undo (`BoardRestore.RestoreKeepsNewerFields`).
- Before the socket id is known, every unlocked element counts as "locked by me" (`ElementView.UnconnectedOwnsUnlocked`).
- A string `startX` concatenates rather than adds (`AiStickies.StringStartConcatenates`). The layout would overlap from the ninth note on (`AiStickies.ThirdRowOverlaps`).
- The featured carousel ignores the search term (`Templates.FeaturedAlwaysShown`).
- The share route consults neither the room's existence nor its access list (`Documents.ShareIgnoresAccess`).
- An element without geometry is drawn 100 by 60 at the origin but can be hit only at the origin itself (`ElementView.BareElementHitOnlyAtOrigin`).
- A brush stroke whose `points` is truthy but not an array makes the hit test throw for every element on the board (`HitTest.ThrowingStrokeHidesAll`).
- In `stringToColor` the first pair is the hash's lowest byte. So in the `#rrggbb` reading, red is the low byte (`Colors.ColorChannels`).

## Findings

| source | as written | input that shows it | evidently intended | confidence | as-written member | corrected member |
|---|---|---|---|---|---|---|
| frontend/src/components/Whiteboard.jsx:431 | the drag branch resizes only when the stored `type` is "shape", "sticky_note" or "text", but a shape placeholder is stored under its concrete name (line 344) | tool "shape" with selected shape "rectangle", then a drag: the rectangle stays 0 by 0 until mouse-up gives it 120 by 60; a "line" stays 0 by 0 | resize every placeholder a mouse-down created, testing the concrete shape names as well | not executed | Gestures.ShapesNotResizedAsWritten | Gestures.PlaceholdersResized |
| backend/src/services/socketHandler.js:128-138 | the delete handler checks the lock, awaits the write, then deletes the element's lock whoever holds it by then | socket a deletes an unlocked element; during the await socket b requests it and is granted the lock; a's completion erases b's entry and no `lock-released` is sent, so the other clients keep showing it locked to b | clear the lock only when the deleting socket holds it | not executed | SessionAwait.DeleteRaceErasesLock | SessionAwait.CorrectedDeleteKeepsForeignLock |

=== FILE: ai_stickies.dfy ===
/** `POST /generate-stickies` (ai.routes.js): a prompt turned into sticky notes
    laid out on a grid. The brainstorm is the route's stand-in, five fixed
    ideas, the first two quoting the prompt; the note ids are supplied. */
module AiStickies {
  import opened Base
  import opened Json
  import opened Text
  import Int32

  /** The stand-in brainstorm, with the prompt rendered by `${prompt}`. */
  function MockIdeas(prompt: string): (ideas: seq<string>)
    ensures |ideas| == 5
    ensures Includes(ideas[0], prompt) && Includes(ideas[1], prompt)
  {
    var first := "Idea 1 based on: " + prompt;
    var second := "Idea 2 based on: " + prompt;
    assert OccursAt(first, prompt, |first| - |prompt|);
    assert OccursAt(second, prompt, |second| - |prompt|);
    [first, second, "A third idea", "What about this?", "Final concept"]
  }

  /** The horizontal stagger `(index * 220) % 800`. */
  function XOffset(index: nat): (d: nat)
    ensures d < 800 && (index * 220 - d) % 800 == 0
  {
    var d := (index * 220) % 800;
    Int32.ModAddMultiple(0, (index * 220) / 800, 800);
    assert index * 220 - d == (index * 220) / 800 * 800;
    d
  }

  /** The row offset `Math.floor(index / 4) * 220`: four notes to a row. */
  function YOffset(index: nat): (d: nat)
    ensures d % 220 == 0 && d <= index * 55 && index * 55 < d + 220
  {
    (index / 4) * 220
  }

  /** `(start || d) + offset`. JavaScript's `+` adds to a number (`true`
      counting as 1) and concatenates to anything else, so a string start
      yields a string coordinate. */
  function Coordinate(start: Option<Value>, d: int, offset: int): (v: Value)
    ensures !Present(start) ==> v == Num(d + offset)
    ensures start == Some(Bool(true)) ==> v == Num(1 + offset)
    ensures Present(start) && start.value.Num? ==> v == Num(start.value.n + offset)
    ensures Present(start) && (start.value.Str? || start.value.Points?) ==> v == Str(KeyString(start) + IntToDecimal(offset))
  {
    if !Present(start) then Num(d + offset)
    else match start.value
      case Num(n) => Num(n + offset)
      case Bool(_) => Num(1 + offset)
      case _ => Str(KeyString(start) + IntToDecimal(offset))
  }

  /** The note for the idea at `index`. */
  function Note(id: string, idea: string, index: nat, startX: Option<Value>, startY: Option<Value>): (el: Props)
    ensures el.Keys == {"id", "type", "x", "y", "width", "height", "content", "fontSize", "fill", "backgroundColor"}
    ensures el["type"] == Str("sticky_note") && el["content"] == Str(idea) && el["id"] == Str(id)
    ensures el["width"] == Num(200) && el["height"] == Num(200) && el["fontSize"] == Num(20)
    ensures el["x"] == Coordinate(startX, 100, XOffset(index)) && el["y"] == Coordinate(startY, 400, YOffset(index))
  {
    map[
      "id" := Str(id), "type" := Str("sticky_note"),
      "x" := Coordinate(startX, 100, XOffset(index)), "y" := Coordinate(startY, 400, YOffset(index)),
      "width" := Num(200), "height" := Num(200), "content" := Str(idea), "fontSize" := Num(20),
      "fill" := Str("#333333"), "backgroundColor" := Str("#FFF9C4")]
  }

  function Notes(ids: seq<string>, ideas: seq<string>, startX: Option<Value>, startY: Option<Value>): (els: seq<Props>)
    requires |ids| == |ideas|
    ensures |els| == |ideas|
    ensures forall i :: 0 <= i < |ideas| ==> els[i] == Note(ids[i], ideas[i], i, startX, startY)
  {
    seq(|ideas|, i requires 0 <= i < |ideas| => Note(ids[i], ideas[i], i, startX, startY))
  }

  datatype Reply = BadRequest | Created(elements: seq<Props>)

  /** The route: 400 for a falsy prompt, otherwise 201 with one note per idea. */
  function GenerateStickies(prompt: Option<Value>, startX: Option<Value>, startY: Option<Value>, ids: seq<string>): (r: Reply)
    requires |ids| == 5
    ensures r.BadRequest? <==> !Present(prompt)
    ensures r.Created? ==>
      (|r.elements| == 5
       && forall i :: 0 <= i < 5 ==> r.elements[i] == Note(ids[i], MockIdeas(KeyString(prompt))[i], i, startX, startY))
  {
    if !Present(prompt) then BadRequest
    else
      var ideas := MockIdeas(KeyString(prompt));
      Created(Notes(ids, ideas, startX, startY))
  }

  /** The first two notes quote the prompt. */
  lemma GeneratedQuotePrompt(prompt: Option<Value>, startX: Option<Value>, startY: Option<Value>, ids: seq<string>, i: nat)
    requires |ids| == 5 && Present(prompt) && i < 2
    ensures var r := GenerateStickies(prompt, startX, startY, ids);
      r.Created? && r.elements[i]["type"] == Str("sticky_note")
      && r.elements[i]["content"].Str? && Includes(r.elements[i]["content"].s, KeyString(prompt))
  {
    var ideas := MockIdeas(KeyString(prompt));
    assert Includes(ideas[i], KeyString(prompt));
  }

  // ---------------------------------------------------------------- the layout

  /** Two 200-by-200 notes at these offsets do not overlap. */
  predicate Apart(i: nat, j: nat) {
    XOffset(i) + 200 <= XOffset(j) || XOffset(j) + 200 <= XOffset(i)
    || YOffset(i) + 200 <= YOffset(j) || YOffset(j) + 200 <= YOffset(i)
  }

  /** Within one row the offsets are `(80 * row + 220 * col) % 800`. */
  lemma RowOffset(row: nat, col: nat)
    requires col < 4
    ensures XOffset(4 * row + col) == (80 * row + 220 * col) % 800 && YOffset(4 * row + col) == 220 * row
  {
    var i := 4 * row + col;
    assert i * 220 == (80 * row + 220 * col) + row * 800;
    Int32.ModAddMultiple(80 * row + 220 * col, row, 800);
    Int32.DivUnique(i, 4, row, col);
  }

  /** The first two rows, eight notes, are laid out without overlap: notes
      in different rows are 220 apart vertically, and in these rows the
      stagger does not wrap past 800. */
  lemma {:induction false} FirstRowsApart(i: nat, j: nat)
    requires i < j < 8
    ensures Apart(i, j)
  {
    var ri, ci, rj, cj := i / 4, i % 4, j / 4, j % 4;
    assert i == 4 * ri + ci && j == 4 * rj + cj;
    RowOffset(ri, ci);
    RowOffset(rj, cj);
    if ri != rj {
      assert ri == 0 && rj == 1;
      assert YOffset(i) == 0 && YOffset(j) == 220;
    } else {
      assert ri <= 1 && ci < cj;
      Int32.ModUnique(80 * ri + 220 * ci, 800, 0, 80 * ri + 220 * ci);
      Int32.ModUnique(80 * ri + 220 * cj, 800, 0, 80 * ri + 220 * cj);
      assert XOffset(i) + 220 <= XOffset(j);
    }
  }

  /** In particular the five notes the route creates never overlap. */
  lemma GeneratedNotesApart(i: nat, j: nat)
    requires i < 5 && j < 5 && i != j
    ensures Apart(i, j)
  {
    if i < j { FirstRowsApart(i, j); } else { FirstRowsApart(j, i); }
  }

  /** The stagger wraps in the third row: the ninth and twelfth notes would
      overlap, were the brainstorm to return twelve ideas. */
  lemma ThirdRowOverlaps()
    ensures !Apart(8, 11)
  {
    RowOffset(2, 0);
    RowOffset(2, 3);
  }

  /** With a string start the first note's `x` is the string with "0" appended. */
  lemma StringStartConcatenates()
    ensures Coordinate(Some(Str("50")), 100, XOffset(0)) == Str("500")
  {
    assert IntToDecimal(0) == "0";
  }
}

=== FILE: base.dfy ===
/** Small shared vocabulary: an optional value, standing for JavaScript's
    `undefined`/`null` where the source tests for absence. */
module Base {

  datatype Option<+T> = None | Some(value: T) {

    /** The value, or `default` when absent (the source's `x || default` on objects). */
    function GetOr(default: T): T {
      match this
      case Some(v) => v
      case None => default
    }
  }

  /** Regrouping a concatenation, stated once for the filters' order proofs. */
  lemma ConcatAssoc<T>(x: seq<T>, y: seq<T>, z: seq<T>)
    ensures (x + y) + z == x + (y + z)
  {
  }
}

=== FILE: board_history.dfy ===
/** The whiteboard's own undo and redo stacks (Whiteboard.jsx), kept apart from
    the `useHistory` hook: every mouse-down pushes a snapshot of the board,
    the undo stack keeps at most fifty, and undo and redo trade the current
    board for the snapshot they restore. */
module BoardHistory {
  import opened Base
  import opened UndoHistory

  /** The most snapshots the undo stack keeps. */
  const Cap: nat := 50

  /** `pushToUndo`: the snapshot goes on top, the oldest entries beyond fifty
      are dropped, and the redo stack empties. */
  function PushToUndo<T>(h: History<T>, snapshot: T): (r: History<T>)
    ensures |r.undo| == if |h.undo| + 1 > Cap then Cap else |h.undo| + 1
    ensures r.undo[|r.undo| - 1] == snapshot
    ensures r.undo == (h.undo + [snapshot])[|h.undo| + 1 - |r.undo|..]
    ensures r.redo == []
  {
    var next := h.undo + [snapshot];
    History(if |next| > Cap then next[|next| - Cap..] else next, [])
  }

  /** Below the cap, the whiteboard's push is the hook's `addAction`. */
  lemma PushBelowCapIsAddAction<T>(h: History<T>, snapshot: T)
    requires |h.undo| < Cap
    ensures PushToUndo(h, snapshot) == AddAction(h, snapshot)
  {
  }

  /** At the cap, a push drops exactly the oldest snapshot. */
  lemma PushAtCapDropsOldest<T>(h: History<T>, snapshot: T)
    requires |h.undo| == Cap
    ensures PushToUndo(h, snapshot).undo == h.undo[1..] + [snapshot]
  {
  }

  /** However many pushes, the undo stack never holds more than fifty. */
  lemma {:induction false} PushesStayCapped<T>(h: History<T>, snapshots: seq<T>)
    requires |h.undo| <= Cap
    ensures |PushAll(h, snapshots).undo| <= Cap
    ensures |snapshots| > 0 ==> PushAll(h, snapshots).redo == []
    decreases |snapshots|
  {
    if |snapshots| > 0 {
      PushesStayCapped(PushToUndo(h, snapshots[0]), snapshots[1..]);
    }
  }

  function PushAll<T>(h: History<T>, snapshots: seq<T>): History<T>
    decreases |snapshots|
  {
    if |snapshots| == 0 then h else PushAll(PushToUndo(h, snapshots[0]), snapshots[1..])
  }

  /** `handleUndo`: nothing on an empty stack; otherwise the top snapshot is
      popped and returned to be restored, and the current board goes on the
      redo stack. */
  function HandleUndo<T>(h: History<T>, current: T): (r: (History<T>, Option<T>))
    ensures r.1.None? <==> h.undo == []
    ensures r.1.None? ==> r.0 == h
    ensures r.1.Some? ==> r.0.undo + [r.1.value] == h.undo && r.0.redo == h.redo + [current]
  {
    if |h.undo| == 0 then (h, None)
    else
      var last := h.undo[|h.undo| - 1];
      assert h.undo[..|h.undo| - 1] + [last] == h.undo;
      (History(h.undo[..|h.undo| - 1], h.redo + [current]), Some(last))
  }

  /** `handleRedo`: the mirror image of `handleUndo`. */
  function HandleRedo<T>(h: History<T>, current: T): (r: (History<T>, Option<T>))
    ensures r.1.None? <==> h.redo == []
    ensures r.1.None? ==> r.0 == h
    ensures r.1.Some? ==> r.0.redo + [r.1.value] == h.redo && r.0.undo == h.undo + [current]
  {
    if |h.redo| == 0 then (h, None)
    else
      var next := h.redo[|h.redo| - 1];
      assert h.redo[..|h.redo| - 1] + [next] == h.redo;
      (History(h.undo + [current], h.redo[..|h.redo| - 1]), Some(next))
  }

  /** Undo then redo, each restoring faithfully, gives back the board that was
      shown before the undo and both stacks as they were. */
  lemma UndoThenRedoRestores<T>(h: History<T>, current: T)
    requires h.undo != []
    ensures var (h1, restored) := HandleUndo(h, current);
      var (h2, back) := HandleRedo(h1, restored.value);
      h2 == h && back == Some(current)
  {
    var (h1, restored) := HandleUndo(h, current);
    var (h2, back) := HandleRedo(h1, restored.value);
    assert h2.undo == h1.undo + [restored.value];
    var both := h.redo + [current];
    assert h2.redo + [back.value] == both;
    assert h2.redo == both[..|both| - 1] && back.value == both[|both| - 1];
  }

  /** What the user does to the history: a mouse-down's push, an undo or a
      redo, each with the board shown at the time. */
  datatype Action<T> = MouseDown(snapshot: T) | UndoClick(current: T) | RedoClick(current: T)

  /** The history after one action. */
  function Perform<T>(h: History<T>, a: Action<T>): History<T> {
    match a
    case MouseDown(snapshot) => PushToUndo(h, snapshot)
    case UndoClick(current) => HandleUndo(h, current).0
    case RedoClick(current) => HandleRedo(h, current).0
  }

  function PerformAll<T>(h: History<T>, actions: seq<Action<T>>): History<T>
    decreases |actions|
  {
    if |actions| == 0 then h else PerformAll(Perform(h, actions[0]), actions[1..])
  }

  /** One action keeps both stacks together within the cap: a push leaves at
      most fifty snapshots and an empty redo stack, and undo and redo only
      move one snapshot across. */
  lemma PerformKeepsCap<T>(h: History<T>, a: Action<T>)
    requires Size(h) <= Cap
    ensures Size(Perform(h, a)) <= Cap
  {
    if a.UndoClick? {
      UndoKeepsSize(h, a.current);
    } else if a.RedoClick? {
      UndoKeepsSize(h, a.current);
    }
  }

  /** Starting from stacks within the cap together, no sequence of pushes,
      undos and redos ever puts more than fifty snapshots on the undo stack,
      although `handleRedo` appends to it without trimming. */
  lemma {:induction false} StacksStayCapped<T>(h: History<T>, actions: seq<Action<T>>)
    requires Size(h) <= Cap
    ensures Size(PerformAll(h, actions)) <= Cap
    ensures |PerformAll(h, actions).undo| <= Cap
    decreases |actions|
  {
    if |actions| > 0 {
      PerformKeepsCap(h, actions[0]);
      StacksStayCapped(Perform(h, actions[0]), actions[1..]);
    }
  }

  /** Unlike the hook's `undo`, which moves the popped state itself, the
      whiteboard puts the board it leaves on the redo stack: the stacks keep
      their combined size. */
  lemma UndoKeepsSize<T>(h: History<T>, current: T)
    ensures Size(HandleUndo(h, current).0) == Size(h)
    ensures Size(HandleRedo(h, current).0) == Size(h)
  {
  }
}

=== FILE: board_restore.dfy ===
/** `restoreElements` in Whiteboard.jsx: bring the board to a snapshot through
    the hook's optimistic emitters, first deleting what the snapshot lacks,
    then updating what both have and creating what only the snapshot has.
    The orders in which the board's and the snapshot's keys are enumerated are
    parameters. */
module BoardRestore {
  import opened Base
  import opened Json
  import opened RoomClient

  type Elements = map<string, Props>

  /** Every element filed under its own id. A board built by creates alone
      has this shape, but not every board does: an update that reaches an id
      the board no longer holds files an element without an `id`
      (`IdlessUpdateBreaksKeying`), and `snapshot()` copies it as it is. */
  predicate WellKeyed(m: Elements) {
    forall k :: k in m ==> IdKey(m[k]) == k
  }

  /** No other entry of `target` carries the id of the entry at `k`. */
  predicate SoleId(target: Elements, k: string) {
    k in target && forall j :: j in target && j != k ==> IdKey(target[j]) != IdKey(target[k])
  }

  /** In a well-keyed snapshot every entry is the sole one with its id. */
  lemma WellKeyedSole(target: Elements, k: string)
    requires WellKeyed(target) && k in target
    ensures SoleId(target, k) && IdKey(target[k]) == k
  {
  }

  /** An update for an id the board does not hold, as a peer's update arriving
      after a local delete: the element it files has no `id`, so the board is
      no longer well keyed. */
  lemma IdlessUpdateBreaksKeying(c: Client, e: string, changes: Props)
    requires e !in c.elements && "id" !in changes && e != "undefined"
    ensures !WellKeyed(OnElementUpdated(c, e, changes).elements)
    ensures !WellKeyed(UpdateLocal(c, e, changes).0.elements)
  {
    var m := OnElementUpdated(c, e, changes).elements;
    assert Get(m[e], "id").None?;
    assert IdKey(m[e]) == "undefined";
  }

  /** `ids` lists the keys of `m`, each once. */
  predicate Enumerates(ids: seq<string>, m: set<string>) {
    (forall i, j :: 0 <= i < j < |ids| ==> ids[i] != ids[j])
    && (forall k :: k in m ==> k in ids)
    && (forall i :: 0 <= i < |ids| ==> ids[i] in m)
  }

  /** `m[id] || {}` */
  function Shown(m: Elements, id: string): Props {
    if id in m then m[id] else map[]
  }

  // ---------------------------------------------------------------- the first loop

  /** The ids among `ids` that the target lacks. */
  function Doomed(ids: seq<string>, target: Elements): set<string> {
    set i | i in ids && i !in target
  }

  /** `deleteElement(id)` for each listed id the target lacks: the board after. */
  function DeleteMissing(m: Elements, ids: seq<string>, target: Elements): (r: Elements)
    ensures r.Keys == m.Keys - Doomed(ids, target)
    ensures forall k :: k in r ==> r[k] == m[k]
    decreases |ids|
  {
    if |ids| == 0 then m
    else
      var m1 := if ids[0] in target then m else m - {ids[0]};
      assert Doomed(ids, target) == Doomed(ids[..1], target) + Doomed(ids[1..], target) by {
        assert forall i :: i in ids <==> i == ids[0] || i in ids[1..];
      }
      DeleteMissing(m1, ids[1..], target)
  }

  /** The messages the first loop sends, in order. */
  function DeleteNotices(ids: seq<string>, target: Elements): (out: seq<Outgoing>)
    ensures forall o :: o in out <==> o.SendDelete? && o.elementId in Doomed(ids, target)
    decreases |ids|
  {
    if |ids| == 0 then []
    else
      assert Doomed(ids, target) == Doomed(ids[..1], target) + Doomed(ids[1..], target) by {
        assert forall i :: i in ids <==> i == ids[0] || i in ids[1..];
      }
      (if ids[0] in target then [] else [SendDelete(ids[0])]) + DeleteNotices(ids[1..], target)
  }

  /** A step of the first loop is what `deleteElement` does. */
  lemma DeleteStepIsEmitter(c: Client, id: string)
    ensures DeleteLocal(c, id) == (c.(elements := c.elements - {id}), SendDelete(id))
  {
  }

  // ---------------------------------------------------------------- the second loop

  /** The ids of a list of elements. */
  function IdsOf(els: seq<Props>): (r: set<string>)
    ensures forall i :: 0 <= i < |els| ==> IdKey(els[i]) in r
    ensures forall k :: k in r ==> exists i :: 0 <= i < |els| && IdKey(els[i]) == k
    decreases |els|
  {
    if |els| == 0 then {}
    else
      var rest := IdsOf(els[1..]);
      assert forall i :: 1 <= i < |els| ==> els[i] == els[1..][i - 1];
      {IdKey(els[0])} + rest
  }

  /** One step: `updateElement(el.id, el)` when `elements[el.id]` was shown when
      the restore began, `createElement(el)` otherwise. */
  function UpsertOne(m: Elements, shown: set<string>, el: Props): (r: Elements)
    ensures r.Keys == m.Keys + {IdKey(el)}
    ensures r[IdKey(el)] == if IdKey(el) in shown then Merge(Shown(m, IdKey(el)), el) else el
    ensures forall k :: k in m && k != IdKey(el) ==> r[k] == m[k]
  {
    var id := IdKey(el);
    if id in shown then m[id := Merge(Shown(m, id), el)] else m[id := el]
  }

  /** The message a step sends. */
  function Upsert(shown: set<string>, el: Props): Outgoing {
    if IdKey(el) in shown then SendUpdate(IdKey(el), el) else SendCreate(el)
  }

  /** The messages the second loop sends, one per element in order. */
  function Upserts(shown: set<string>, els: seq<Props>): (out: seq<Outgoing>)
    ensures |out| == |els|
    ensures forall i :: 0 <= i < |els| ==> out[i] == Upsert(shown, els[i])
  {
    seq(|els|, i requires 0 <= i < |els| => Upsert(shown, els[i]))
  }

  /** A step of the second loop is what `updateElement` or `createElement` does. */
  lemma UpsertStepIsEmitter(c: Client, shown: set<string>, el: Props)
    ensures var (c', o) := if IdKey(el) in shown then UpdateLocal(c, IdKey(el), el) else CreateLocal(c, el);
      c' == c.(elements := UpsertOne(c.elements, shown, el)) && o == Upsert(shown, el)
  {
  }

  function UpsertAll(m: Elements, shown: set<string>, els: seq<Props>): Elements
    decreases |els|
  {
    if |els| == 0 then m else UpsertAll(UpsertOne(m, shown, els[0]), shown, els[1..])
  }

  /** The second loop adds the listed ids and leaves the rest of the board alone. */
  lemma {:induction false} UpsertAllFrame(m: Elements, shown: set<string>, els: seq<Props>)
    ensures UpsertAll(m, shown, els).Keys == m.Keys + IdsOf(els)
    ensures forall k :: k in m && k !in IdsOf(els) ==> UpsertAll(m, shown, els)[k] == m[k]
    decreases |els|
  {
    if |els| > 0 {
      UpsertAllFrame(UpsertOne(m, shown, els[0]), shown, els[1..]);
    }
  }

  /** An element whose id no other listed element carries ends up merged over
      what the board held, or as given when the board did not show its id. */
  lemma {:induction false} UpsertAllAt(m: Elements, shown: set<string>, els: seq<Props>, i: int)
    requires 0 <= i < |els|
    requires forall j :: 0 <= j < |els| && j != i ==> IdKey(els[j]) != IdKey(els[i])
    ensures IdKey(els[i]) in UpsertAll(m, shown, els)
    ensures var k := IdKey(els[i]);
      UpsertAll(m, shown, els)[k] == if k in shown then Merge(Shown(m, k), els[i]) else els[i]
    decreases |els|
  {
    var k := IdKey(els[i]);
    var m1 := UpsertOne(m, shown, els[0]);
    var rest := els[1..];
    assert UpsertAll(m, shown, els) == UpsertAll(m1, shown, rest);
    if i > 0 {
      assert els[i] == rest[i - 1];
      assert IdKey(els[0]) != k;
      forall j | 0 <= j < |rest| && j != i - 1 ensures IdKey(rest[j]) != IdKey(rest[i - 1]) {
        assert rest[j] == els[j + 1];
      }
      UpsertAllAt(m1, shown, rest, i - 1);
      assert Shown(m1, k) == Shown(m, k);
    } else {
      FirstIdFresh(els);
      UpsertAllFrame(m1, shown, rest);
    }
  }

  /** A first id no later element carries is not among the others' ids. */
  lemma FirstIdFresh(els: seq<Props>)
    requires |els| > 0 && forall j :: 0 < j < |els| ==> IdKey(els[j]) != IdKey(els[0])
    ensures IdKey(els[0]) !in IdsOf(els[1..])
  {
    var rest := els[1..];
    forall j | 0 <= j < |rest| ensures IdKey(rest[j]) != IdKey(els[0]) {
      assert rest[j] == els[j + 1];
    }
  }

  // ---------------------------------------------------------------- the whole restore

  /** The snapshot's elements in enumeration order: `Object.values(targetState)`. */
  function Values(target: Elements, order: seq<string>): (els: seq<Props>)
    requires forall k :: k in order ==> k in target
    ensures |els| == |order| && forall i :: 0 <= i < |order| ==> els[i] == target[order[i]]
  {
    seq(|order|, i requires 0 <= i < |order| => target[order[i]])
  }

  /** `restoreElements(target)` on board `c`: the board after, and what it sends. */
  function Restore(c: Client, shownOrder: seq<string>, target: Elements, targetOrder: seq<string>): (r: (Client, seq<Outgoing>))
    requires Enumerates(shownOrder, c.elements.Keys) && Enumerates(targetOrder, target.Keys)
    ensures r.0.(elements := c.elements) == c
  {
    var els := Values(target, targetOrder);
    var m := UpsertAll(DeleteMissing(c.elements, shownOrder, target), c.elements.Keys, els);
    (c.(elements := m), Notices(c.elements, shownOrder, target, targetOrder))
  }

  /** What a restore of `board` sends: the first loop's deletes, then the
      second loop's messages. */
  function Notices(board: Elements, shownOrder: seq<string>, target: Elements, targetOrder: seq<string>): seq<Outgoing>
    requires forall k :: k in targetOrder ==> k in target
  {
    DeleteNotices(shownOrder, target) + Upserts(board.Keys, Values(target, targetOrder))
  }

  /** After a restore the board shows exactly the snapshot's ids; an id only
      the snapshot has comes back as it was saved, and an id on both has the
      saved fields merged over the board's. */
  lemma RestoreContents(c: Client, shownOrder: seq<string>, target: Elements, targetOrder: seq<string>)
    requires Enumerates(shownOrder, c.elements.Keys) && Enumerates(targetOrder, target.Keys)
    requires WellKeyed(target)
    ensures var r := Restore(c, shownOrder, target, targetOrder).0;
      && r.elements.Keys == target.Keys
      && (forall k :: k in target ==>
            r.elements[k] == if k in c.elements then Merge(c.elements[k], target[k]) else target[k])
  {
    RestoreIsUpsert(c, shownOrder, target, targetOrder);
    RestoredKeys(c.elements, shownOrder, target, targetOrder);
    forall k | k in target
      ensures var m := UpsertAll(DeleteMissing(c.elements, shownOrder, target), c.elements.Keys, Values(target, targetOrder));
        m[k] == if k in c.elements then Merge(c.elements[k], target[k]) else target[k]
    {
      WellKeyedSole(target, k);
      RestoredAt(c.elements, shownOrder, target, targetOrder, k);
      DeleteKeepsTargetIds(c.elements, shownOrder, target);
    }
  }

  /** Both loops together leave exactly the snapshot's ids. */
  lemma RestoredKeys(board: Elements, shownOrder: seq<string>, target: Elements, targetOrder: seq<string>)
    requires Enumerates(shownOrder, board.Keys) && Enumerates(targetOrder, target.Keys)
    requires WellKeyed(target)
    ensures UpsertAll(DeleteMissing(board, shownOrder, target), board.Keys, Values(target, targetOrder)).Keys == target.Keys
  {
    var m1 := DeleteMissing(board, shownOrder, target);
    ValuesKeyed(target, targetOrder);
    DeleteKeepsTargetIds(board, shownOrder, target);
    UpsertAllFrame(m1, board.Keys, Values(target, targetOrder));
  }

  /** The entry at `k` after both loops lands under its own id, whatever key
      the snapshot filed it under, when no other entry carries that id. */
  lemma RestoredAt(board: Elements, shownOrder: seq<string>, target: Elements, targetOrder: seq<string>, k: string)
    requires Enumerates(shownOrder, board.Keys) && Enumerates(targetOrder, target.Keys)
    requires SoleId(target, k)
    ensures var m := UpsertAll(DeleteMissing(board, shownOrder, target), board.Keys, Values(target, targetOrder));
      var id := IdKey(target[k]);
      id in m && m[id] == if id in board then Merge(Shown(DeleteMissing(board, shownOrder, target), id), target[k]) else target[k]
  {
    var m1 := DeleteMissing(board, shownOrder, target);
    var els := Values(target, targetOrder);
    var i :| 0 <= i < |targetOrder| && targetOrder[i] == k;
    forall j | 0 <= j < |els| && j != i ensures IdKey(els[j]) != IdKey(els[i]) {
      assert targetOrder[j] != k;
      assert targetOrder[j] in target;
    }
    UpsertAllAt(m1, board.Keys, els, i);
  }

  /** The board a restore leaves is the second loop run over the first's. */
  lemma RestoreIsUpsert(c: Client, shownOrder: seq<string>, target: Elements, targetOrder: seq<string>)
    requires Enumerates(shownOrder, c.elements.Keys) && Enumerates(targetOrder, target.Keys)
    ensures Restore(c, shownOrder, target, targetOrder).0.elements ==
      UpsertAll(DeleteMissing(c.elements, shownOrder, target), c.elements.Keys, Values(target, targetOrder))
  {
  }

  /** The first loop leaves exactly the board's ids the snapshot also has. */
  lemma DeleteKeepsTargetIds(m: Elements, ids: seq<string>, target: Elements)
    requires Enumerates(ids, m.Keys)
    ensures var m1 := DeleteMissing(m, ids, target);
      && m1.Keys == m.Keys * target.Keys
      && forall k :: k in m1 ==> m1[k] == m[k]
  {
    assert Doomed(ids, target) == m.Keys - target.Keys;
  }

  /** The snapshot's values carry distinct ids, the ids of its keys. */
  lemma ValuesKeyed(target: Elements, order: seq<string>)
    requires Enumerates(order, target.Keys) && WellKeyed(target)
    ensures var els := Values(target, order);
      && (forall i :: 0 <= i < |els| ==> IdKey(els[i]) == order[i])
      && (forall a, b :: 0 <= a < b < |els| ==> IdKey(els[a]) != IdKey(els[b]))
      && IdsOf(els) == target.Keys
  {
    var els := Values(target, order);
    forall k | k in target ensures k in IdsOf(els) {
      var i :| 0 <= i < |order| && order[i] == k;
      assert IdKey(els[i]) == k;
    }
  }

  /** The emissions: one delete per board id the snapshot lacks, then one
      message per snapshot element in enumeration order, an update under the
      element's own id when the board showed that id and a create otherwise;
      in a well-keyed snapshot that id is the key. */
  lemma RestoreEmissions(c: Client, shownOrder: seq<string>, target: Elements, targetOrder: seq<string>)
    requires Enumerates(shownOrder, c.elements.Keys) && Enumerates(targetOrder, target.Keys)
    ensures var out := Restore(c, shownOrder, target, targetOrder).1;
      var n := |out| - |targetOrder|;
      && n >= 0
      && (forall o :: o in out[..n] <==> o.SendDelete? && o.elementId in c.elements && o.elementId !in target)
      && (forall i :: 0 <= i < |targetOrder| ==>
            out[n + i] == if IdKey(target[targetOrder[i]]) in c.elements
                          then SendUpdate(IdKey(target[targetOrder[i]]), target[targetOrder[i]])
                          else SendCreate(target[targetOrder[i]]))
      && (WellKeyed(target) ==> forall i :: 0 <= i < |targetOrder| ==>
            out[n + i] == if targetOrder[i] in c.elements then SendUpdate(targetOrder[i], target[targetOrder[i]])
                          else SendCreate(target[targetOrder[i]]))
  {
    assert Restore(c, shownOrder, target, targetOrder).1 == Notices(c.elements, shownOrder, target, targetOrder);
    NoticesShape(c.elements, shownOrder, target, targetOrder);
  }

  lemma NoticesShape(board: Elements, shownOrder: seq<string>, target: Elements, targetOrder: seq<string>)
    requires Enumerates(shownOrder, board.Keys) && Enumerates(targetOrder, target.Keys)
    ensures var out := Notices(board, shownOrder, target, targetOrder);
      var n := |out| - |targetOrder|;
      && n >= 0
      && (forall o :: o in out[..n] <==> o.SendDelete? && o.elementId in board && o.elementId !in target)
      && (forall i :: 0 <= i < |targetOrder| ==> out[n + i] == Upsert(board.Keys, target[targetOrder[i]]))
  {
    var deletes := DeleteNotices(shownOrder, target);
    var ups := Upserts(board.Keys, Values(target, targetOrder));
    var out := Notices(board, shownOrder, target, targetOrder);
    assert out[..|deletes|] == deletes;
    assert Doomed(shownOrder, target) == board.Keys - target.Keys;
    forall i | 0 <= i < |targetOrder|
      ensures out[|deletes| + i] == Upsert(board.Keys, target[targetOrder[i]])
    {
      assert out[|deletes| + i] == ups[i];
    }
  }

  /** Restoring merges rather than replaces: a field the board's element gained
      after the snapshot was taken survives the restore. */
  lemma RestoreKeepsNewerFields(c: Client, shownOrder: seq<string>, target: Elements, targetOrder: seq<string>, k: string, f: string)
    requires Enumerates(shownOrder, c.elements.Keys) && Enumerates(targetOrder, target.Keys)
    requires SoleId(target, k) && IdKey(target[k]) == k
    requires k in c.elements && f in c.elements[k] && f !in target[k]
    ensures var r := Restore(c, shownOrder, target, targetOrder).0;
      k in r.elements && f in r.elements[k] && r.elements[k][f] == c.elements[k][f]
  {
    RestoreIsUpsert(c, shownOrder, target, targetOrder);
    RestoredAt(c.elements, shownOrder, target, targetOrder, k);
    DeleteKeepsTargetIds(c.elements, shownOrder, target);
  }

  /** A snapshot entry without an `id` comes back under "undefined", beside
      the key it was filed under, which keeps the board's copy: the board then
      holds a key the snapshot lacks. */
  lemma IdlessRestoredUnderUndefined(c: Client, shownOrder: seq<string>, target: Elements, targetOrder: seq<string>, k: string)
    requires Enumerates(shownOrder, c.elements.Keys) && Enumerates(targetOrder, target.Keys)
    requires SoleId(target, k) && "id" !in target[k]
    requires "undefined" !in c.elements && "undefined" !in target
    requires forall j :: j in target ==> IdKey(target[j]) != k
    ensures var r := Restore(c, shownOrder, target, targetOrder).0.elements;
      && "undefined" in r && r["undefined"] == target[k]
      && (k in c.elements ==> k in r && r[k] == c.elements[k])
      && r.Keys != target.Keys
  {
    var els := Values(target, targetOrder);
    var m1 := DeleteMissing(c.elements, shownOrder, target);
    assert IdKey(target[k]) == "undefined" by { assert Get(target[k], "id").None?; }
    RestoreIsUpsert(c, shownOrder, target, targetOrder);
    RestoredAt(c.elements, shownOrder, target, targetOrder, k);
    DeleteKeepsTargetIds(c.elements, shownOrder, target);
    UpsertAllFrame(m1, c.elements.Keys, els);
  }

  /** The board equals the snapshot after a restore exactly when no element on
      both carries a field the snapshot's copy lacks. */
  lemma RestoreExactIff(c: Client, shownOrder: seq<string>, target: Elements, targetOrder: seq<string>)
    requires Enumerates(shownOrder, c.elements.Keys) && Enumerates(targetOrder, target.Keys)
    requires WellKeyed(target)
    ensures Restore(c, shownOrder, target, targetOrder).0.elements == target <==>
      forall k :: k in target && k in c.elements ==> c.elements[k].Keys <= target[k].Keys
  {
    var r := Restore(c, shownOrder, target, targetOrder).0;
    RestoreContents(c, shownOrder, target, targetOrder);
    if forall k :: k in target && k in c.elements ==> c.elements[k].Keys <= target[k].Keys {
      forall k | k in target ensures r.elements[k] == target[k] {
        if k in c.elements {
          MergeCovered(c.elements[k], target[k]);
        }
      }
    } else {
      var k :| k in target && k in c.elements && !(c.elements[k].Keys <= target[k].Keys);
      var f :| f in c.elements[k] && f !in target[k];
      assert f in r.elements[k];
    }
  }

  lemma MergeCovered(base: Props, changes: Props)
    requires base.Keys <= changes.Keys
    ensures Merge(base, changes) == changes
  {
  }
}

=== FILE: colors.dfy ===
/** `stringToColor`, written out identically in Cursor.jsx and Avatar.jsx: a
    running hash over the UTF-16 units of a name, whose three low bytes, low
    byte first, become a `#rrggbb` colour. Also the avatar's initial. */
module Colors {
  import opened Base
  import opened Json
  import opened Text
  import opened Int32
  import Rgba

  /** `hash = unit + ((hash << 5) - hash)`: the shift wraps to 32 bits, the
      subtraction and the addition do not. */
  function HashStep(h: int, unit: int): int {
    unit + ShiftLeft(h, 5) - h
  }

  /** The hash after reading every unit, starting from 0. */
  function Hash(u: seq<int>): int
    decreases |u|
  {
    if |u| == 0 then 0 else HashStep(Hash(u[..|u| - 1]), u[|u| - 1])
  }

  /** Reference: the polynomial hash `sum u[i] * 31^(n-1-i)` without wrap-around. */
  function Poly31(u: seq<int>): int
    decreases |u|
  {
    if |u| == 0 then 0 else Poly31(u[..|u| - 1]) * 31 + u[|u| - 1]
  }

  /** `('00' + ((hash >> (i * 8)) & 0xff).toString(16)).substr(-2)` */
  function Pair(h: int, i: nat): (s: string)
    requires i < 3
    ensures |s| == 2 && AllLowerHex(s)
  {
    HexByte(LowByte(ShiftRight(h, 8 * i)))
  }

  function StringToColor(s: string): (r: string)
    ensures |r| == 7 && r[0] == '#' && AllLowerHex(r[1..])
  {
    var h := Hash(Utf16(s));
    var r := "#" + Pair(h, 0) + Pair(h, 1) + Pair(h, 2);
    assert r[1..] == Pair(h, 0) + Pair(h, 1) + Pair(h, 2);
    r
  }

  /** The name a user without one is coloured by. */
  const DefaultName: string := "default"

  /** The units `stringToColor` reads from `name || 'default'`. A number or
      boolean has no `length` and an empty array has length 0, so the loop
      reads nothing, as for the empty string; a non-empty array of points
      makes `charCodeAt` throw, shown as None. */
  function ColorInput(name: Option<Value>): (r: Option<string>)
    ensures !Present(name) ==> r == Some(DefaultName)
    ensures Present(name) && name.value.Str? ==> r == Some(name.value.s)
    ensures Present(name) && (name.value.Num? || name.value.Bool? || name.value == Points([])) ==> r == Some("")
    ensures r.None? <==> name.Some? && name.value.Points? && |name.value.pts| > 0
  {
    if !Present(name) then Some(DefaultName)
    else match name.value
      case Str(s) => Some(s)
      case Points(pts) => if |pts| == 0 then Some("") else None
      case _ => Some("")
  }

  /** The cursor's colour for a user's name: black when the loop reads
      nothing, None when it throws. */
  function UserColor(name: Option<Value>): (r: Option<string>)
    ensures r.None? <==> name.Some? && name.value.Points? && |name.value.pts| > 0
    ensures r.Some? ==> r.value == StringToColor(ColorInput(name).value)
    ensures Present(name) && (name.value.Num? || name.value.Bool? || name.value == Points([])) ==> r == Some("#000000")
    ensures r.Some? ==> |r.value| == 7 && r.value[0] == '#'
  {
    match ColorInput(name)
    case None => None
    case Some(s) =>
      if s == "" then EmptyIsBlack(); Some(StringToColor(s))
      else Some(StringToColor(s))
  }

  /** `toUpperCase` on one UTF-16 unit, for the ASCII letters. */
  function UpperUnit(u: int): (r: int)
    ensures 'a' as int <= u <= 'z' as int ==> r == u - 32
    ensures !('a' as int <= u <= 'z' as int) ==> r == u
  {
    if 'a' as int <= u <= 'z' as int then u - 32 else u
  }

  /** `user.name ? user.name[0].toUpperCase() : '?'`, as one UTF-16 unit. A
      truthy name that is not a string makes the expression throw, shown as None. */
  function AvatarInitial(name: Option<Value>): (r: Option<int>)
    ensures !Present(name) ==> r == Some('?' as int)
    ensures name.Some? && name.value.Str? && name.value.s != "" ==>
      r.Some? && !('a' as int <= r.value <= 'z' as int)
      && (r.value == Utf16(name.value.s)[0] || r.value + 32 == Utf16(name.value.s)[0])
    ensures r.None? <==> Present(name) && !name.value.Str?
  {
    if !Present(name) then Some('?' as int)
    else match name.value
      case Str(s) => Some(UpperUnit(Utf16(s)[0]))
      case _ => None
  }

  /** The avatar of a user without a name reads '?' in the colour of the name
      "default"; a user literally named "default" wears the same colour, but
      the initial 'D'. */
  lemma NamelessLooksDefault(name: Option<Value>)
    requires !Present(name)
    ensures AvatarInitial(name) == Some('?' as int)
    ensures UserColor(name) == UserColor(Some(Str(DefaultName)))
    ensures AvatarInitial(Some(Str(DefaultName))) == Some('D' as int)
  {
    assert Utf16(DefaultName)[0] == 'd' as int;
  }

  // ---------------------------------------------------------------- properties

  /** One step of the hash is `31 * h + unit` modulo 2^32. */
  lemma StepCongruent(h: int, h': int, unit: int)
    requires h % TwoTo32 == h' % TwoTo32
    ensures HashStep(h, unit) % TwoTo32 == (h' * 31 + unit) % TwoTo32
  {
    assert Pow2(5) == 32;
    var s := ShiftLeft(h, 5);
    var q1 := s / TwoTo32 - (h * 32) / TwoTo32;
    assert s == h * 32 + q1 * TwoTo32;
    var q2 := h / TwoTo32 - h' / TwoTo32;
    assert h == h' + q2 * TwoTo32;
    assert HashStep(h, unit) == (h' * 31 + unit) + (31 * q2 + q1) * TwoTo32;
    ModAddMultiple(h' * 31 + unit, 31 * q2 + q1, TwoTo32);
  }

  /** The hash agrees with the unwrapped polynomial hash modulo 2^32. */
  lemma {:induction false} HashIsPoly31(u: seq<int>)
    ensures Hash(u) % TwoTo32 == Poly31(u) % TwoTo32
    decreases |u|
  {
    if |u| > 0 {
      var init := u[..|u| - 1];
      HashIsPoly31(init);
      StepCongruent(Hash(init), Poly31(init), u[|u| - 1]);
    }
  }

  /** Each step moves the hash by less than 2^31 + 2^16, so it stays exact in
      a double for names of up to 2^21 units. */
  lemma {:induction false} HashBound(u: seq<int>)
    requires forall i :: 0 <= i < |u| ==> 0 <= u[i] < 0x1_0000
    ensures -|u| * (TwoTo31 + 0x1_0000) <= Hash(u) <= |u| * (TwoTo31 + 0x1_0000)
    decreases |u|
  {
    if |u| > 0 {
      HashBound(u[..|u| - 1]);
    }
  }

  lemma HashExact(s: string)
    requires |Utf16(s)| <= 0x20_0000
    ensures -0x20_0000_0000_0000 < Hash(Utf16(s)) < 0x20_0000_0000_0000
  {
    var u := Utf16(s);
    HashBound(u);
    var k := TwoTo31 + 0x1_0000;
    assert |u| * k <= 0x20_0000 * k;
  }

  /** A byte of the 32-bit form depends only on the residue modulo 2^32. */
  lemma ByteOfResidue(x: int, y: int, i: nat)
    requires i < 4 && x % TwoTo32 == y % TwoTo32
    ensures Byte(x, i) == Byte(y, i)
  {
  }

  /** The colour is the three low bytes of the polynomial hash, low byte first. */
  lemma ColorOfPoly31(s: string)
    ensures var p := Poly31(Utf16(s));
      StringToColor(s) == Rgba.HexColor(Byte(p, 0), Byte(p, 1), Byte(p, 2))
  {
    var u := Utf16(s);
    var h := Hash(u);
    var p := Poly31(u);
    HashIsPoly31(u);
    ByteOfShift(h, 0);
    ByteOfShift(h, 1);
    ByteOfShift(h, 2);
    ByteOfResidue(h, p, 0);
    ByteOfResidue(h, p, 1);
    ByteOfResidue(h, p, 2);
  }

  /** Read back by `hexToRgba`, a name's colour has the hash's lowest byte as
      its red channel and its third byte as blue. */
  lemma ColorChannels(s: string)
    ensures var p := Poly31(Utf16(s));
      Rgba.ChannelsOf(StringToColor(s)) == Rgba.Channels(Byte(p, 0), Byte(p, 1), Byte(p, 2))
  {
    var p := Poly31(Utf16(s));
    ColorOfPoly31(s);
    Rgba.ChannelsRoundTrip(Byte(p, 0), Byte(p, 1), Byte(p, 2));
  }

  /** The empty name hashes to 0 and is black. */
  lemma EmptyIsBlack()
    ensures StringToColor("") == "#000000"
  {
    assert Utf16("") == [];
    assert Hash([]) == 0;
    ZeroPair(0);
    ZeroPair(1);
    ZeroPair(2);
  }

  lemma ZeroPair(i: nat)
    requires i < 3
    ensures Pair(0, i) == "00"
  {
    var p := Pow2(8 * i);
    assert ToInt32(0) == 0;
    assert 0 / p == 0;
    assert ShiftRight(0, 8 * i) == 0;
    assert LowByte(0) == 0;
    assert NatToHex(0) == "0";
    assert HexByte(0) == "00";
  }

  /** Two names whose polynomial hashes agree modulo 2^32 share a colour. */
  lemma ResidueDeterminesColor(s: string, t: string)
    requires Poly31(Utf16(s)) % TwoTo32 == Poly31(Utf16(t)) % TwoTo32
    ensures StringToColor(s) == StringToColor(t)
  {
    var p, q := Poly31(Utf16(s)), Poly31(Utf16(t));
    ColorOfPoly31(s);
    ColorOfPoly31(t);
    ByteOfResidue(p, q, 0);
    ByteOfResidue(p, q, 1);
    ByteOfResidue(p, q, 2);
  }
}

=== FILE: documents.dfy ===
/** The document routes (document.routes.js): private rooms whose access list
    starts with the owner, created, listed, opened and shared over HTTP. The
    database is a map of documents and a list of users; a write's outcome is a
    parameter, and the fresh room id is chosen by the caller. */
module Documents {
  import opened Base
  import opened Json

  type UserId = string
  type DocId = string

  datatype User = User(id: UserId, email: string, name: string)

  datatype Document = Document(name: string, elements: seq<Props>, accessList: seq<UserId>)

  datatype Store = Store(docs: map<DocId, Document>, users: seq<User>)

  /** A status code and the JSON body's message (or, on success, a summary). */
  datatype Reply = Reply(status: nat, message: string)

  /** `hasAccess`: the user is somewhere on the access list. */
  predicate HasAccess(doc: Document, userId: UserId) {
    exists i :: 0 <= i < |doc.accessList| && doc.accessList[i] == userId
  }

  /** The owner is the first entry of the access list. */
  predicate IsOwner(doc: Document, userId: UserId) {
    |doc.accessList| > 0 && doc.accessList[0] == userId
  }

  /** The two fields the routes look users up by. */
  datatype UserField = Email | Id

  function FieldOf(u: User, f: UserField): string {
    match f
    case Email => u.email
    case Id => u.id
  }

  /** The position of the first user whose field holds the key; `|users|`
      when there is none. */
  function MatchIndex(users: seq<User>, f: UserField, key: string): (i: nat)
    ensures i <= |users|
    ensures forall j :: 0 <= j < i ==> FieldOf(users[j], f) != key
    ensures i < |users| ==> FieldOf(users[i], f) == key
    decreases |users|
  {
    if |users| == 0 then 0
    else if FieldOf(users[0], f) == key then 0
    else
      var i := MatchIndex(users[1..], f, key);
      assert forall j :: 1 <= j < i + 1 ==> users[j] == users[1..][j - 1];
      i + 1
  }

  /** `User.findOne({ email })` and `User.findById(id)`: the first user whose
      field holds the key. */
  function FindUser(users: seq<User>, f: UserField, key: string): (r: Option<User>)
    ensures r.None? <==> forall i :: 0 <= i < |users| ==> FieldOf(users[i], f) != key
    ensures r.Some? ==> r.value in users && FieldOf(r.value, f) == key
    ensures r.Some? ==> r.value == users[MatchIndex(users, f, key)]
  {
    var i := MatchIndex(users, f, key);
    if i < |users| then Some(users[i]) else None
  }

  // ---------------------------------------------------------------- GET /

  /** The rooms listed for a user: those whose access list holds them. */
  function ListDocuments(s: Store, caller: UserId): (r: set<DocId>)
    ensures forall id :: id in r <==> id in s.docs && HasAccess(s.docs[id], caller)
  {
    set id | id in s.docs && HasAccess(s.docs[id], caller)
  }

  // ---------------------------------------------------------------- POST /

  /** `name || 'Untitled Private Room'`, cast to a string as the schema does;
      an array cannot be cast, shown as None. */
  function RoomName(name: Option<Value>): (r: Option<string>)
    ensures !Present(name) ==> r == Some("Untitled Private Room")
    ensures Present(name) && name.value.Str? ==> r == Some(name.value.s)
    ensures r.None? <==> Present(name) && name.value.Points?
  {
    match name
    case None => Some("Untitled Private Room")
    case Some(v) =>
      if !Truthy(v) then Some("Untitled Private Room")
      else if v.Points? then None
      else Some(KeyString(name))
  }

  /** Creating a room: the caller alone on the access list, no elements. A
      taken id or an uncastable name fails with 500 and stores nothing. */
  function CreateDocument(s: Store, freshId: DocId, owner: UserId, name: Option<Value>): (r: (Store, Reply))
    ensures r.1.status == 201 <==> freshId !in s.docs && RoomName(name).Some?
    ensures r.1.status != 201 ==> r.1.status == 500 && r.0 == s
    ensures r.1.status == 201 ==>
      r.0 == s.(docs := s.docs[freshId := Document(RoomName(name).value, [], [owner])])
  {
    if freshId in s.docs || RoomName(name).None? then (s, Reply(500, "Error creating document. Check server logs."))
    else (s.(docs := s.docs[freshId := Document(RoomName(name).value, [], [owner])]), Reply(201, freshId))
  }

  // ---------------------------------------------------------------- PUT /:documentId/access

  /** Granting access by e-mail: 404 for an unknown address, 403 unless the
      caller owns the room, 200 without change when the user is already on the
      list, otherwise the user is appended (500 and no change if the save
      fails). */
  function GrantAccess(s: Store, documentId: DocId, email: string, caller: UserId, saved: bool): (r: (Store, Reply))
    ensures r.1.status == 404 <==> FindUser(s.users, Email, email).None?
    ensures r.1.status == 403 <==>
      FindUser(s.users, Email, email).Some? && (documentId !in s.docs || !IsOwner(s.docs[documentId], caller))
    ensures r.1.status == 500 <==>
      FindUser(s.users, Email, email).Some? && documentId in s.docs && IsOwner(s.docs[documentId], caller)
      && !HasAccess(s.docs[documentId], FindUser(s.users, Email, email).value.id) && !saved
    ensures r.1.status in {200, 403, 404, 500}
    ensures r.0 != s ==> r.1.status == 200
    ensures r.0 != s <==>
      FindUser(s.users, Email, email).Some? && documentId in s.docs && IsOwner(s.docs[documentId], caller)
      && !HasAccess(s.docs[documentId], FindUser(s.users, Email, email).value.id) && saved
    ensures r.0 != s ==>
      var doc := s.docs[documentId];
      r.0 == s.(docs := s.docs[documentId := doc.(accessList := doc.accessList + [FindUser(s.users, Email, email).value.id])])
  {
    match FindUser(s.users, Email, email)
    case None => (s, Reply(404, "User not found with that email address."))
    case Some(u) =>
      if documentId !in s.docs || !IsOwner(s.docs[documentId], caller) then
        (s, Reply(403, "Only the room owner can manage access."))
      else
        var doc := s.docs[documentId];
        if HasAccess(doc, u.id) then (s, Reply(200, "User already has access to this room."))
        else if !saved then (s, Reply(500, "Server error while granting access."))
        else
          assert doc.accessList + [u.id] != doc.accessList;
          (s.(docs := s.docs[documentId := doc.(accessList := doc.accessList + [u.id])]),
           Reply(200, u.name + " has been granted access."))
  }

  /** After a successful grant the user can open the room, and the owner
      stays first. */
  lemma GrantGivesAccess(s: Store, documentId: DocId, email: string, caller: UserId, saved: bool)
    requires GrantAccess(s, documentId, email, caller, saved).1.status == 200
    ensures var s' := GrantAccess(s, documentId, email, caller, saved).0;
      documentId in s'.docs && HasAccess(s'.docs[documentId], FindUser(s.users, Email, email).value.id)
      && IsOwner(s'.docs[documentId], caller)
  {
    var s' := GrantAccess(s, documentId, email, caller, saved).0;
    var doc := s.docs[documentId];
    var u := FindUser(s.users, Email, email).value;
    if s' == s {
      assert HasAccess(doc, u.id);
    } else {
      var list := doc.accessList + [u.id];
      assert list[|list| - 1] == u.id;
      assert list[0] == doc.accessList[0];
    }
  }

  /** No grant takes anyone's access away or changes another room. */
  lemma GrantOnlyAdds(s: Store, documentId: DocId, email: string, caller: UserId, saved: bool, id: DocId, userId: UserId)
    requires id in s.docs && HasAccess(s.docs[id], userId)
    ensures var s' := GrantAccess(s, documentId, email, caller, saved).0;
      id in s'.docs && HasAccess(s'.docs[id], userId)
      && (id != documentId ==> s'.docs[id] == s.docs[id])
      && s'.users == s.users
  {
    var s' := GrantAccess(s, documentId, email, caller, saved).0;
    if s' != s && id == documentId {
      var doc := s.docs[id];
      var i :| 0 <= i < |doc.accessList| && doc.accessList[i] == userId;
      assert s'.docs[id].accessList[i] == userId;
    }
  }

  /** Granting the same address twice changes nothing the second time. */
  lemma GrantIdempotent(s: Store, documentId: DocId, email: string, caller: UserId)
    ensures var s1 := GrantAccess(s, documentId, email, caller, true).0;
      GrantAccess(s1, documentId, email, caller, true).0 == s1
  {
    var s1 := GrantAccess(s, documentId, email, caller, true).0;
    if s1 != s {
      GrantGivesAccess(s, documentId, email, caller, true);
    }
  }

  // ---------------------------------------------------------------- GET /:documentId

  datatype Opened = Opened(name: string, elements: seq<Props>, accessList: seq<UserId>, ownerName: string)

  /** Opening a room: 404 when there is none, 403 for a user off its access
      list, otherwise the room with its owner's name ('Unknown Owner' when the
      owner's account is gone). */
  function GetDocument(s: Store, documentId: DocId, caller: UserId): (r: (Reply, Option<Opened>))
    ensures r.0.status == 404 <==> documentId !in s.docs
    ensures r.0.status == 403 <==> documentId in s.docs && !HasAccess(s.docs[documentId], caller)
    ensures r.1.Some? <==> r.0.status == 200
    ensures r.0.status in {200, 403, 404}
    ensures r.1.Some? ==> var doc := s.docs[documentId];
      r.1.value.name == doc.name && r.1.value.elements == doc.elements && r.1.value.accessList == doc.accessList
      && (FindUser(s.users, Id, doc.accessList[0]).Some? ==> r.1.value.ownerName == FindUser(s.users, Id, doc.accessList[0]).value.name)
      && (FindUser(s.users, Id, doc.accessList[0]).None? ==> r.1.value.ownerName == "Unknown Owner")
  {
    if documentId !in s.docs then (Reply(404, "Document Not Found"), None)
    else
      var doc := s.docs[documentId];
      if !HasAccess(doc, caller) then (Reply(403, "Access Denied to this private room"), None)
      else
        var owner := FindUser(s.users, Id, doc.accessList[0]);
        (Reply(200, doc.name), Some(Opened(doc.name, doc.elements, doc.accessList,
          if owner.Some? then owner.value.name else "Unknown Owner")))
  }

  /** A room just created opens for its creator, empty, under its name, and
      for nobody else. */
  lemma CreatedRoomOpens(s: Store, freshId: DocId, owner: UserId, name: Option<Value>, other: UserId)
    requires CreateDocument(s, freshId, owner, name).1.status == 201
    requires other != owner
    ensures var s' := CreateDocument(s, freshId, owner, name).0;
      var (reply, view) := GetDocument(s', freshId, owner);
      reply.status == 200 && view.value.elements == [] && view.value.name == RoomName(name).value
      && GetDocument(s', freshId, other).0.status == 403
  {
    var s' := CreateDocument(s, freshId, owner, name).0;
    assert s'.docs[freshId].accessList[0] == owner;
  }

  /** Listing and opening agree: a listed room opens, an unlisted one in the
      store is refused. */
  lemma ListedIffOpens(s: Store, caller: UserId, id: DocId)
    requires id in s.docs
    ensures id in ListDocuments(s, caller) <==> GetDocument(s, id, caller).0.status == 200
  {
  }

  // ---------------------------------------------------------------- POST /share

  datatype Mail = Mail(to: string, subject: string, link: string)

  /** The invite: 400 unless both the room id and the address are truthy;
      otherwise a mail naming the sender and linking the room, 200 once sent
      and 500 when sending fails. The room and its access list are not
      consulted. */
  function ShareInvite(documentId: Option<Value>, emailTo: Option<Value>, senderName: Option<Value>, sent: bool): (r: (Reply, Option<Mail>))
    ensures r.0.status == 400 <==> !Present(documentId) || !Present(emailTo)
    ensures r.1.Some? <==> r.0.status != 400
    ensures r.1.Some? ==>
      (r.1.value.link == "http://localhost:3000/whiteboard/" + KeyString(documentId)
       && r.1.value.to == KeyString(emailTo))
    ensures r.1.Some? ==> r.1.value.subject == "You're invited to a whiteboard by " + KeyString(senderName)
    ensures r.0.status != 400 ==> (r.0.status == 200 <==> sent) && r.0.status in {200, 500}
  {
    if !Present(documentId) || !Present(emailTo) then (Reply(400, "Missing documentId or email"), None)
    else
      var mail := Mail(KeyString(emailTo), "You're invited to a whiteboard by " + KeyString(senderName),
        "http://localhost:3000/whiteboard/" + KeyString(documentId));
      (if sent then Reply(200, "Invite sent successfully") else Reply(500, "Failed to send invite"), Some(mail))
  }

  /** The invite goes out for any room the sender names, even one that does
      not exist or that the sender may not open: the route consults neither. */
  lemma ShareIgnoresAccess(s: Store, documentId: DocId, caller: UserId, emailTo: string, senderName: Option<Value>, sent: bool)
    requires documentId != "" && emailTo != ""
    requires GetDocument(s, documentId, caller).0.status in {403, 404}
    ensures var (reply, mail) := ShareInvite(Some(Str(documentId)), Some(Str(emailTo)), senderName, sent);
      mail.Some? && mail.value.to == emailTo
      && mail.value.link == "http://localhost:3000/whiteboard/" + documentId
      && (reply.status == 200 <==> sent)
  {
  }
}

=== FILE: element_view.dfy ===
/** What WhiteboardElement.jsx derives from one element and its lock: the
    geometry defaults of its destructuring, the style toggles of the text
    toolbar, and which controls the lock leaves enabled, with the lock flags
    Whiteboard.jsx computes from the client's lock map. */
module ElementView {
  import opened Base
  import opened Json
  import opened LockTable
  import opened Session
  import HitTest

  // ---------------------------------------------------------------- destructuring defaults

  /** `const { key = d } = element`: the default replaces only `undefined`,
      so a `null` or `0` stays. */
  function FieldOr(el: Props, key: string, d: Value): (r: Value)
    ensures key in el ==> r == el[key]
    ensures key !in el ==> r == d
  {
    if key in el then el[key] else d
  }

  datatype Geometry = Geometry(x: Value, y: Value, width: Value, height: Value)

  /** The position and size the element is drawn with. */
  function GeometryOf(el: Props): (g: Geometry)
    ensures g.x == (if "x" in el then el["x"] else Num(0))
    ensures g.y == (if "y" in el then el["y"] else Num(0))
    ensures g.width == (if "width" in el then el["width"] else Num(100))
    ensures g.height == (if "height" in el then el["height"] else Num(60))
  {
    Geometry(FieldOr(el, "x", Num(0)), FieldOr(el, "y", Num(0)), FieldOr(el, "width", Num(100)), FieldOr(el, "height", Num(60)))
  }

  /** An element with no geometry at all is drawn 100 by 60 at the origin. */
  lemma BareElementGeometry(el: Props)
    requires "x" !in el && "y" !in el && "width" !in el && "height" !in el
    ensures GeometryOf(el) == Geometry(Num(0), Num(0), Num(100), Num(60))
  {
  }

  /** Where every field of the box is a number, the hit test's box is the
      box the element is drawn in: a point hits exactly when it lies in it,
      edges included. */
  lemma HitBoxIsDrawnBox(el: Props, c: Point)
    requires !HitTest.IsBrush(el)
    requires forall k :: k in ["x", "y", "width", "height"] ==> k in el && el[k].Num?
    ensures var g := GeometryOf(el);
      HitTest.UnderCursor(el, c) <==> g.x.n <= c.x <= g.x.n + g.width.n && g.y.n <= c.y <= g.y.n + g.height.n
  {
    assert "x" in ["x", "y", "width", "height"] && "y" in ["x", "y", "width", "height"];
    assert "width" in ["x", "y", "width", "height"] && "height" in ["x", "y", "width", "height"];
  }

  /** An element without geometry is drawn 100 by 60 at the origin, but the
      hit test reads `width || 0` and `height || 0`: only the origin itself
      hits it, so a click inside the drawn box misses. */
  lemma BareElementHitOnlyAtOrigin(el: Props, c: Point)
    requires !HitTest.IsBrush(el)
    requires "x" !in el && "y" !in el && "width" !in el && "height" !in el
    ensures GeometryOf(el) == Geometry(Num(0), Num(0), Num(100), Num(60))
    ensures HitTest.UnderCursor(el, c) <==> c == Point(0, 0)
  {
  }

  // ---------------------------------------------------------------- style toggles

  /** The two values a toggled property moves between: on, then off. */
  function ToggleValues(prop: string): Option<(string, string)> {
    if prop == "fontWeight" then Some(("bold", "normal"))
    else if prop == "fontStyle" then Some(("italic", "normal"))
    else if prop == "textDecoration" then Some(("underline", "none"))
    else None
  }

  /** `toggleStyle(prop)`'s new value from the element's raw `element[prop]`
      (the destructuring default is not consulted): off when it is on, on
      otherwise; any other property keeps its value. */
  function Toggled(prop: string, current: Option<Value>): (r: Option<Value>)
    ensures ToggleValues(prop).None? ==> r == current
    ensures ToggleValues(prop).Some? ==>
      r == Some(Str(if current == Some(Str(ToggleValues(prop).value.0)) then ToggleValues(prop).value.1 else ToggleValues(prop).value.0))
  {
    match ToggleValues(prop)
    case None => current
    case Some((on, off)) => Some(Str(if current == Some(Str(on)) then off else on))
  }

  /** The change set `toggleStyle` sends. An `undefined` value is dropped when
      the change travels as JSON, leaving an empty change set. */
  function ToggleStyle(el: Props, prop: string): (changes: Props)
    ensures changes.Keys <= {prop}
    ensures ToggleValues(prop).Some? ==>
      (prop in changes && changes[prop].Str?
       && (changes[prop].s == ToggleValues(prop).value.0 || changes[prop].s == ToggleValues(prop).value.1))
  {
    match Toggled(prop, Get(el, prop))
    case None => map[]
    case Some(v) => map[prop := v]
  }

  /** Applying the toggle (the receiving side's shallow merge). */
  function ApplyToggle(el: Props, prop: string): (r: Props)
    ensures r.Keys == el.Keys + ToggleStyle(el, prop).Keys
  {
    Merge(el, ToggleStyle(el, prop))
  }

  /** The toggle turns the property on exactly when it was not on. */
  lemma ToggleFlips(el: Props, prop: string)
    requires ToggleValues(prop).Some?
    ensures var (on, off) := ToggleValues(prop).value;
      (ApplyToggle(el, prop)[prop] == Str(on)) <==> Get(el, prop) != Some(Str(on))
  {
  }

  /** Toggling twice restores a property that held either of its two values. */
  lemma ToggleTwiceRestores(el: Props, prop: string)
    requires ToggleValues(prop).Some?
    requires Get(el, prop) in {Some(Str(ToggleValues(prop).value.0)), Some(Str(ToggleValues(prop).value.1))}
    ensures ApplyToggle(ApplyToggle(el, prop), prop) == el
  {
    var once := ApplyToggle(el, prop);
    assert once.Keys == el.Keys;
    var twice := ApplyToggle(once, prop);
    assert twice.Keys == el.Keys;
    assert forall k :: k in el ==> twice[k] == el[k];
  }

  /** Any other property is written back as it was: the element does not change. */
  lemma ToggleOtherIsNoOp(el: Props, prop: string)
    requires ToggleValues(prop).None?
    ensures ApplyToggle(el, prop) == el
  {
  }

  // ---------------------------------------------------------------- locks and controls

  /** `locks[id]?.userId === mySocketId`; the socket id is None until connected. */
  predicate IsLockedByMe(locks: map<ElementId, LockInfo>, id: ElementId, me: Option<SocketId>) {
    (if id in locks then Some(locks[id].userId) else None) == me
  }

  /** `!!locks[id] && locks[id].userId !== mySocketId`: locked by someone else. */
  predicate IsLocked(locks: map<ElementId, LockInfo>, id: ElementId, me: Option<SocketId>) {
    id in locks && Some(locks[id].userId) != me
  }

  datatype Controls = Controls(dragDisabled: bool, resizeEnabled: bool, deleteShown: bool, lockLabelShown: bool)

  /** The `Rnd` props and the overlay buttons for the element's lock flags. */
  function ControlsFor(isLocked: bool, isLockedByMe: bool, isSelected: bool, hasLockInfo: bool): (c: Controls)
    ensures c.dragDisabled <==> !c.resizeEnabled
    ensures c.deleteShown <==> isSelected && c.resizeEnabled
    ensures c.lockLabelShown <==> hasLockInfo && c.dragDisabled
    ensures c.dragDisabled <==> isLocked && !isLockedByMe
  {
    Controls(isLocked && !isLockedByMe, !isLocked || isLockedByMe, isSelected && (!isLocked || isLockedByMe),
      isLocked && !isLockedByMe && hasLockInfo)
  }

  /** The controls of an element on the board, from the client's lock map. */
  function BoardControls(locks: map<ElementId, LockInfo>, id: ElementId, me: Option<SocketId>, isSelected: bool): Controls {
    ControlsFor(IsLocked(locks, id, me), IsLockedByMe(locks, id, me), isSelected, id in locks)
  }

  /** On the board, an element is frozen exactly when another user holds its
      lock; otherwise it can be moved, resized and, when selected, deleted. */
  lemma FrozenIffLockedByOther(locks: map<ElementId, LockInfo>, id: ElementId, me: Option<SocketId>, isSelected: bool)
    ensures var c := BoardControls(locks, id, me, isSelected);
      c.dragDisabled <==> id in locks && Some(locks[id].userId) != me
    ensures var c := BoardControls(locks, id, me, isSelected);
      !c.dragDisabled ==> c.resizeEnabled && (c.deleteShown <==> isSelected)
    ensures var c := BoardControls(locks, id, me, isSelected);
      c.lockLabelShown <==> c.dragDisabled
  {
  }

  /** The two flags Whiteboard.jsx passes never hold together. */
  lemma FlagsExclusive(locks: map<ElementId, LockInfo>, id: ElementId, me: Option<SocketId>)
    ensures !(IsLocked(locks, id, me) && IsLockedByMe(locks, id, me))
  {
  }

  /** Before the socket id is known, every unlocked element counts as locked
      by me: `undefined === undefined`. */
  lemma UnconnectedOwnsUnlocked(locks: map<ElementId, LockInfo>, id: ElementId)
    requires id !in locks
    ensures IsLockedByMe(locks, id, None)
  {
  }

  /** `Locked by ${lockInfo.userName || lockInfo.userId}` */
  function LockLabel(info: LockInfo): (s: string)
    ensures !Present(info.userName) ==> s == "Locked by " + info.userId
    ensures info.userName.Some? && info.userName.value.Str? && info.userName.value.s != "" ==> s == "Locked by " + info.userName.value.s
  {
    "Locked by " + (if Present(info.userName) then KeyString(info.userName) else info.userId)
  }

  /** The mouse cursor shown over the element. */
  function CursorStyle(isLocked: bool, isLockedByMe: bool, elementType: Option<Value>): (s: string)
    ensures s == "not-allowed" <==> isLocked && !isLockedByMe
    ensures s == "text" <==> !(isLocked && !isLockedByMe) && elementType in {Some(Str("text")), Some(Str("sticky_note"))}
  {
    if isLocked && !isLockedByMe then "not-allowed"
    else if elementType == Some(Str("text")) || elementType == Some(Str("sticky_note")) then "text"
    else "move"
  }
}

=== FILE: gestures.dfy ===
/** The drawing gestures of Whiteboard.jsx: the placeholder a mouse-down
    creates for a shape, sticky note or text, the box a drag gives it, the
    points and bounding box of a brush stroke, and the default size a tap
    leaves behind on mouse-up. Coordinates are integers. */
module Gestures {
  import opened Base
  import opened Json
  import HitTest

  /** The shape names the toolbar offers (Toolbar.jsx). */
  const Shapes: seq<string> :=
    ["rectangle", "circle", "line", "arrow", "triangle", "polygon", "pentagon", "hexagon", "star", "diamond"]

  /** The tools whose mouse-down creates a placeholder to be dragged to size. */
  const PlaceholderTools: seq<string> := ["shape", "sticky_note", "text"]

  /** The stored types that mouse-up gives a default size when tapped. */
  const TapSized: seq<string> := ["text", "sticky_note", "rectangle", "circle", "triangle"]

  // ---------------------------------------------------------------- mouse-down

  /** The `type` a placeholder is stored with: the selected shape's own name
      for the shape tool, the tool's name otherwise; None for other tools. */
  function ElementTypeFor(tool: string, selectedShape: string): (t: Option<string>)
    ensures t.Some? <==> tool in PlaceholderTools
    ensures t.Some? ==> t.value == (if tool == "shape" then selectedShape else tool)
  {
    if tool in PlaceholderTools then Some(if tool == "shape" then selectedShape else tool) else None
  }

  /** The placeholder element a mouse-down creates at `at`, empty-sized. */
  function Placeholder(tool: string, selectedShape: string, id: string, at: Point, color: string, filled: bool): (r: Option<Props>)
    ensures r.Some? <==> tool in PlaceholderTools
    ensures r.Some? ==>
      Get(r.value, "type") == Some(Str(ElementTypeFor(tool, selectedShape).value))
      && Get(r.value, "id") == Some(Str(id))
      && Get(r.value, "x") == Some(Num(at.x)) && Get(r.value, "y") == Some(Num(at.y))
      && Get(r.value, "width") == Some(Num(0)) && Get(r.value, "height") == Some(Num(0))
      && Get(r.value, "zIndex") == Some(Num(1))
  {
    match ElementTypeFor(tool, selectedShape)
    case None => None
    case Some(t) =>
      var isNote := t == "sticky_note";
      Some(map[
        "fill" := Str(if t == "text" || isNote then "#000" else color),
        "stroke" := Str(color), "shapeFilled" := Bool(filled), "fontSize" := Num(16),
        "content" := Str(if isNote then "Sticky Note" else if t == "text" then "Text" else ""),
        "backgroundColor" := Str(if isNote then "#FFF9C4" else "transparent"),
        "id" := Str(id), "type" := Str(t), "x" := Num(at.x), "y" := Num(at.y),
        "width" := Num(0), "height" := Num(0), "zIndex" := Num(1)])
  }

  /** The placeholder's styling: black text on sticky notes and texts and the
      selected colour elsewhere, the stroke in the selected colour, font size
      16, the default content, and the yellow sticky-note background. */
  lemma PlaceholderStyle(tool: string, selectedShape: string, id: string, at: Point, color: string, filled: bool)
    requires tool in PlaceholderTools
    ensures var p := Placeholder(tool, selectedShape, id, at, color, filled).value;
      var t := ElementTypeFor(tool, selectedShape).value;
      Get(p, "fill") == Some(Str(if t == "text" || t == "sticky_note" then "#000" else color))
      && Get(p, "stroke") == Some(Str(color)) && Get(p, "shapeFilled") == Some(Bool(filled))
      && Get(p, "fontSize") == Some(Num(16))
      && Get(p, "content") == Some(Str(if t == "sticky_note" then "Sticky Note" else if t == "text" then "Text" else ""))
      && Get(p, "backgroundColor") == Some(Str(if t == "sticky_note" then "#FFF9C4" else "transparent"))
  {
  }

  /** A placeholder carries exactly the thirteen fields the mouse-down sets. */
  lemma PlaceholderKeys(tool: string, selectedShape: string, id: string, at: Point, color: string, filled: bool)
    requires tool in PlaceholderTools
    ensures Placeholder(tool, selectedShape, id, at, color, filled).value.Keys ==
      {"id", "type", "x", "y", "width", "height", "fill", "stroke", "shapeFilled",
       "fontSize", "content", "backgroundColor", "zIndex"}
  {
  }

  // ---------------------------------------------------------------- which elements a drag resizes

  /** The drag branch's test as written: the stored type is one of the tool names. */
  predicate DragResizesAsWritten(storedType: string) {
    storedType in PlaceholderTools
  }

  /** The test the branch evidently means: the stored type is one a placeholder
      can have, a sticky note, a text or any shape name. */
  predicate DragResizes(storedType: string) {
    storedType == "sticky_note" || storedType == "text" || storedType in Shapes
  }

  /** As written, a shape placeholder is never resized by a drag: its stored
      type is the shape's name, which is not a tool name. */
  lemma ShapesNotResizedAsWritten(shape: string)
    requires shape in Shapes
    ensures ElementTypeFor("shape", shape) == Some(shape)
    ensures !DragResizesAsWritten(ElementTypeFor("shape", shape).value)
  {
    var i :| 0 <= i < |Shapes| && Shapes[i] == shape;
    assert shape != "shape" && shape != "sticky_note" && shape != "text";
  }

  /** A concrete instance: the rectangle tool's placeholder escapes the resize. */
  lemma RectangleNotResizedAsWritten()
    ensures ElementTypeFor("shape", "rectangle") == Some("rectangle")
    ensures !DragResizesAsWritten("rectangle")
  {
    ShapesNotResizedAsWritten("rectangle");
  }

  /** Corrected, every placeholder a mouse-down can create is resized. */
  lemma PlaceholdersResized(tool: string, shape: string)
    requires shape in Shapes && ElementTypeFor(tool, shape).Some?
    ensures DragResizes(ElementTypeFor(tool, shape).value)
  {
  }

  /** Corrected, the resized types are exactly the placeholders' types. */
  lemma ResizedArePlaceholders(t: string)
    requires DragResizes(t)
    ensures exists tool, shape :: shape in Shapes && ElementTypeFor(tool, shape) == Some(t)
  {
    if t in Shapes {
      assert ElementTypeFor("shape", t) == Some(t);
    } else {
      assert ElementTypeFor(t, "rectangle") == Some(t);
    }
  }

  // ---------------------------------------------------------------- the drag box

  datatype Box = Box(x: int, y: int, width: int, height: int)

  /** The box as element fields. */
  function BoxProps(b: Box): (r: Props)
    ensures r.Keys == {"x", "y", "width", "height"}
    ensures r["x"] == Num(b.x) && r["y"] == Num(b.y) && r["width"] == Num(b.width) && r["height"] == Num(b.height)
  {
    map["x" := Num(b.x), "y" := Num(b.y), "width" := Num(b.width), "height" := Num(b.height)]
  }

  function Abs(n: int): (r: nat)
    ensures r == n || r == -n
  {
    if n < 0 then -n else n
  }

  function Min(a: int, b: int): (r: int)
    ensures r <= a && r <= b && (r == a || r == b)
  {
    if a < b then a else b
  }

  /** The box spanned by the drag's start and the current point: the two are
      opposite corners of it. */
  function DragBox(start: Point, current: Point): (b: Box)
    ensures b.width >= 0 && b.height >= 0
    ensures (b.x == start.x && b.x + b.width == current.x) || (b.x == current.x && b.x + b.width == start.x)
    ensures (b.y == start.y && b.y + b.height == current.y) || (b.y == current.y && b.y + b.height == start.y)
  {
    Box(Min(current.x, start.x), Min(current.y, start.y), Abs(current.x - start.x), Abs(current.y - start.y))
  }

  /** It does not matter which way the drag went. */
  lemma DragBoxSymmetric(a: Point, b: Point)
    ensures DragBox(a, b) == DragBox(b, a)
  {
  }

  /** After a resize, both ends of the drag are under the cursor for the
      eraser's hit test. */
  lemma DragEndsHit(el: Props, start: Point, current: Point)
    requires Get(el, "type").Some? && Get(el, "type").value.Str? && DragResizes(Get(el, "type").value.s)
    ensures var resized := Merge(el, BoxProps(DragBox(start, current)));
      HitTest.UnderCursor(resized, start) && HitTest.UnderCursor(resized, current)
  {
    var resized := Merge(el, BoxProps(DragBox(start, current)));
    assert resized["type"] == el["type"];
    assert !HitTest.IsBrush(resized);
  }

  // ---------------------------------------------------------------- the brush stroke

  function MinOf(s: seq<int>): (m: int)
    requires |s| > 0
    ensures forall i :: 0 <= i < |s| ==> m <= s[i]
    ensures exists i :: 0 <= i < |s| && m == s[i]
    decreases |s|
  {
    if |s| == 1 then s[0]
    else
      var m := MinOf(s[..|s| - 1]);
      if s[|s| - 1] < m then s[|s| - 1] else m
  }

  function MaxOf(s: seq<int>): (m: int)
    requires |s| > 0
    ensures forall i :: 0 <= i < |s| ==> s[i] <= m
    ensures exists i :: 0 <= i < |s| && m == s[i]
    decreases |s|
  {
    if |s| == 1 then s[0]
    else
      var m := MaxOf(s[..|s| - 1]);
      if s[|s| - 1] > m then s[|s| - 1] else m
  }

  function Xs(pts: seq<Point>): (r: seq<int>)
    ensures |r| == |pts| && forall i :: 0 <= i < |pts| ==> r[i] == pts[i].x
  {
    seq(|pts|, i requires 0 <= i < |pts| => pts[i].x)
  }

  function Ys(pts: seq<Point>): (r: seq<int>)
    ensures |r| == |pts| && forall i :: 0 <= i < |pts| ==> r[i] == pts[i].y
  {
    seq(|pts|, i requires 0 <= i < |pts| => pts[i].y)
  }

  /** The stroke's box: from the least coordinates, at least one unit wide and
      high, reaching the greatest coordinates. */
  function BrushBox(pts: seq<Point>): (b: Box)
    requires |pts| > 0
    ensures b.width >= 1 && b.height >= 1
    ensures forall i :: 0 <= i < |pts| ==> b.x <= pts[i].x <= b.x + b.width && b.y <= pts[i].y <= b.y + b.height
    ensures exists i :: 0 <= i < |pts| && pts[i].x == b.x
    ensures exists i :: 0 <= i < |pts| && pts[i].y == b.y
    ensures b.width == 1 || exists i :: 0 <= i < |pts| && pts[i].x == b.x + b.width
    ensures b.height == 1 || exists i :: 0 <= i < |pts| && pts[i].y == b.y + b.height
  {
    var xs, ys := Xs(pts), Ys(pts);
    var minX, maxX := MinOf(xs), MaxOf(xs);
    var minY, maxY := MinOf(ys), MaxOf(ys);
    Box(minX, minY, if maxX - minX < 1 then 1 else maxX - minX, if maxY - minY < 1 then 1 else maxY - minY)
  }

  /** A one-point stroke has a unit box at the point. */
  lemma BrushBoxOfOne(p: Point)
    ensures BrushBox([p]) == Box(p.x, p.y, 1, 1)
  {
  }

  lemma MinOfSnoc(s: seq<int>, v: int)
    requires |s| > 0
    ensures MinOf(s + [v]) == Min(MinOf(s), v)
  {
    assert (s + [v])[..|s|] == s;
  }

  lemma XsYsSnoc(pts: seq<Point>, p: Point)
    ensures Xs(pts + [p]) == Xs(pts) + [p.x] && Ys(pts + [p]) == Ys(pts) + [p.y]
  {
  }

  /** Extending a stroke moves the box's corner only towards the new point. */
  lemma BrushBoxExtends(pts: seq<Point>, p: Point)
    requires |pts| > 0
    ensures BrushBox(pts + [p]).x == Min(BrushBox(pts).x, p.x)
    ensures BrushBox(pts + [p]).y == Min(BrushBox(pts).y, p.y)
  {
    XsYsSnoc(pts, p);
    MinOfSnoc(Xs(pts), p.x);
    MinOfSnoc(Ys(pts), p.y);
  }

  /** `currentElement.points || []`; a truthy value that is not a list of
      points is None: its spread either throws or yields points without
      coordinates. */
  function StrokePoints(el: Props): (r: Option<seq<Point>>)
    ensures !Present(Get(el, "points")) ==> r == Some([])
    ensures el.Keys >= {"points"} && el["points"].Points? ==> r == Some(el["points"].pts)
    ensures r.None? <==> Present(Get(el, "points")) && !el["points"].Points?
  {
    if !Present(Get(el, "points")) then Some([])
    else match el["points"]
      case Points(pts) => Some(pts)
      case _ => None
  }

  /** The changes a brush move sends: the points with `p` appended and their box. */
  function BrushChanges(prior: seq<Point>, p: Point): (r: Props)
    ensures r.Keys == {"points", "x", "y", "width", "height"}
    ensures r["points"] == Points(prior + [p])
    ensures r - {"points"} == BoxProps(BrushBox(prior + [p]))
  {
    BoxProps(BrushBox(prior + [p]))["points" := Points(prior + [p])]
  }

  // ---------------------------------------------------------------- mouse-move

  /** `handleMouseMove` while drawing, `drawing` being the element in progress:
      the changes sent for it, None when neither branch applies or the stroke's
      points cannot be read. The drag branch tests the stored type as written,
      so a shape stored under its own name is not resized. */
  function MouseMove(drawing: Props, start: Point, current: Point): (r: Option<Props>)
    ensures Get(drawing, "type") == Some(Str("brush_stroke")) && StrokePoints(drawing).Some? ==>
      r == Some(BrushChanges(StrokePoints(drawing).value, current))
    ensures r.Some? && r.value.Keys == {"x", "y", "width", "height"} ==>
      Get(drawing, "type").Some? && Get(drawing, "type").value.Str? && DragResizesAsWritten(Get(drawing, "type").value.s)
    ensures (Get(drawing, "type").Some? && Get(drawing, "type").value.Str? && DragResizesAsWritten(Get(drawing, "type").value.s)) ==>
      r == Some(BoxProps(DragBox(start, current)))
    ensures r.None? <==>
      match Get(drawing, "type")
      case Some(Str(t)) => !DragResizesAsWritten(t) && (t != "brush_stroke" || StrokePoints(drawing).None?)
      case _ => true
  {
    match Get(drawing, "type")
    case Some(Str(t)) =>
      if DragResizesAsWritten(t) then Some(BoxProps(DragBox(start, current)))
      else if t == "brush_stroke" then StrokeMove(drawing, current)
      else None
    case _ => None
  }

  /** The stroke branch: the extended stroke, None when its points cannot be read. */
  function StrokeMove(drawing: Props, current: Point): (r: Option<Props>)
    ensures r.None? <==> StrokePoints(drawing).None?
    ensures r.Some? ==> r == Some(BrushChanges(StrokePoints(drawing).value, current))
    ensures r.Some? ==> "points" in r.value.Keys && r.value.Keys != {"x", "y", "width", "height"}
  {
    match StrokePoints(drawing)
    case Some(pts) =>
      var ch := BrushChanges(pts, current);
      assert "points" in ch.Keys;
      Some(ch)
    case None => None
  }

  /** `handleMouseMove` with the drag test corrected to every placeholder type. */
  function MouseMoveCorrected(drawing: Props, start: Point, current: Point): (r: Option<Props>)
    ensures Get(drawing, "type") == Some(Str("brush_stroke")) && StrokePoints(drawing).Some? ==>
      r == Some(BrushChanges(StrokePoints(drawing).value, current))
    ensures r.Some? && r.value.Keys == {"x", "y", "width", "height"} ==>
      Get(drawing, "type").Some? && Get(drawing, "type").value.Str? && DragResizes(Get(drawing, "type").value.s)
    ensures (Get(drawing, "type").Some? && Get(drawing, "type").value.Str? && DragResizes(Get(drawing, "type").value.s)) ==>
      r == Some(BoxProps(DragBox(start, current)))
    ensures r.None? <==>
      match Get(drawing, "type")
      case Some(Str(t)) => !DragResizes(t) && (t != "brush_stroke" || StrokePoints(drawing).None?)
      case _ => true
  {
    BrushNotResized();
    match Get(drawing, "type")
    case Some(Str(t)) =>
      if DragResizes(t) then Some(BoxProps(DragBox(start, current)))
      else if t == "brush_stroke" then StrokeMove(drawing, current)
      else None
    case _ => None
  }

  /** A stroke is not among the types a drag resizes. */
  lemma BrushNotResized()
    ensures !DragResizes("brush_stroke")
  {
    forall i | 0 <= i < |Shapes| ensures Shapes[i] != "brush_stroke" {
      assert Shapes[i][0] != 'b';
    }
  }

  /** The two handlers differ exactly on the elements stored under a shape's
      name, where the corrected one sends the drag box and the one as written
      nothing, and on an element stored with the tool's name "shape", which no
      mouse-down creates. */
  lemma MoveDiffersOnlyOnShapes(drawing: Props, start: Point, current: Point)
    ensures MouseMove(drawing, start, current) != MouseMoveCorrected(drawing, start, current) <==>
      Get(drawing, "type").Some? && Get(drawing, "type").value.Str?
      && (Get(drawing, "type").value.s in Shapes || Get(drawing, "type").value.s == "shape")
    ensures Get(drawing, "type").Some? && Get(drawing, "type").value.Str? && Get(drawing, "type").value.s in Shapes ==>
      MouseMove(drawing, start, current).None?
  {
    match Get(drawing, "type")
    case Some(Str(t)) =>
      if t in Shapes {
        ShapesNotResizedAsWritten(t);
        var i :| 0 <= i < |Shapes| && Shapes[i] == t;
        assert t != "brush_stroke" by { assert t[0] != 'b'; }
      } else if t != "shape" {
        assert DragResizes(t) <==> DragResizesAsWritten(t);
      }
    case _ =>
  }

  /** As written, dragging a freshly placed shape sends no changes at all. */
  lemma ShapeDragSendsNothing(shape: string, id: string, start: Point, current: Point, color: string, filled: bool)
    requires shape in Shapes
    ensures var p := Placeholder("shape", shape, id, start, color, filled).value;
      MouseMove(p, start, current).None?
  {
    var p := Placeholder("shape", shape, id, start, color, filled).value;
    MoveDiffersOnlyOnShapes(p, start, current);
  }

  /** With the corrected test, dragging a freshly placed shape gives it the
      drag box whichever shape it is. */
  lemma DragSizesEveryShape(shape: string, id: string, start: Point, current: Point, color: string, filled: bool)
    requires shape in Shapes
    ensures var p := Placeholder("shape", shape, id, start, color, filled).value;
      MouseMoveCorrected(p, start, current) == Some(BoxProps(DragBox(start, current)))
  {
  }

  // ---------------------------------------------------------------- mouse-up

  /** `(el[key] || 0) < 6 ? d : el[key]`: a NaN width is not below 6 and stays. */
  function SizeOrDefault(el: Props, key: string, d: int): (r: Value)
    ensures HitTest.NumOr(Get(el, key), 0).Some? && HitTest.NumOr(Get(el, key), 0).value < 6 ==> r == Num(d)
    ensures !(HitTest.NumOr(Get(el, key), 0).Some? && HitTest.NumOr(Get(el, key), 0).value < 6) ==> key in el && r == el[key]
  {
    var n := HitTest.NumOr(Get(el, key), 0);
    if n.Some? && n.value < 6 then Num(d) else el[key]
  }

  /** `handleMouseUp`'s tap defaults: for the listed types, a width below 6
      becomes 120 and a height below 6 becomes 60; None for other elements. */
  function TapDefaults(el: Props): (r: Option<Props>)
    ensures r.Some? <==> Get(el, "type").Some? && Get(el, "type").value.Str? && Get(el, "type").value.s in TapSized
    ensures r.Some? ==> r.value.Keys == {"width", "height"}
    ensures r.Some? ==> HitTest.NumOr(Get(r.value, "width"), 0).Some? ==> HitTest.NumOr(Get(r.value, "width"), 0).value >= 6
    ensures r.Some? ==> HitTest.NumOr(Get(r.value, "height"), 0).Some? ==> HitTest.NumOr(Get(r.value, "height"), 0).value >= 6
    ensures r.Some? ==> r.value["width"] == SizeOrDefault(el, "width", 120) && r.value["height"] == SizeOrDefault(el, "height", 60)
  {
    match Get(el, "type")
    case Some(Str(t)) =>
      if t in TapSized then Some(map["width" := SizeOrDefault(el, "width", 120), "height" := SizeOrDefault(el, "height", 60)])
      else None
    case _ => None
  }

  /** The consequence of the drag test as written: a line placed by a tap or
      a drag keeps its empty box, since neither the drag nor the tap default
      touches it. */
  lemma LineStaysEmptyAsWritten(id: string, at: Point, color: string, filled: bool)
    ensures var p := Placeholder("shape", "line", id, at, color, filled).value;
      !DragResizesAsWritten(p["type"].s) && TapDefaults(p).None?
      && p["width"] == Num(0) && p["height"] == Num(0)
  {
    ShapesNotResizedAsWritten("line");
  }

  /** A tapped rectangle gets the default 120 by 60. */
  lemma TappedRectangleDefaults(id: string, at: Point, color: string, filled: bool)
    ensures var p := Placeholder("shape", "rectangle", id, at, color, filled).value;
      TapDefaults(p) == Some(map["width" := Num(120), "height" := Num(60)])
  {
  }
}

=== FILE: history.dfy ===
/** The two-stack undo history of the `useHistory` hook. A stack is a sequence
    whose last element is its top. Snapshots are kept as values: the hook
    stores them as JSON text and parses them back, which is taken to give the
    snapshot back. */
module UndoHistory {
  import opened Base

  datatype History<T> = History(undo: seq<T>, redo: seq<T>)

  function Fresh<T>(): History<T> {
    History([], [])
  }

  /** How many snapshots the two stacks hold together. */
  function Size<T>(h: History<T>): nat {
    |h.undo| + |h.redo|
  }

  /** `addAction`: the state becomes the new top of the undo stack and the redo stack empties. */
  function AddAction<T>(h: History<T>, state: T): (r: History<T>)
    ensures |r.undo| > 0 && r.undo[|r.undo| - 1] == state && r.undo[..|r.undo| - 1] == h.undo
    ensures r.redo == []
    ensures Size(r) == Size(h) + 1 <==> h.redo == []
  {
    History(h.undo + [state], [])
  }

  /** `undo`: None on an empty undo stack; otherwise the undo stack's top moves
      to the redo stack and is returned. */
  function Undo<T>(h: History<T>): (r: (History<T>, Option<T>))
    ensures r.1.None? <==> h.undo == []
    ensures r.1.None? ==> r.0 == h
    ensures r.1.Some? ==> r.0.undo + [r.1.value] == h.undo && r.0.redo == h.redo + [r.1.value]
    ensures Size(r.0) == Size(h)
  {
    if |h.undo| == 0 then (h, None)
    else
      var top := h.undo[|h.undo| - 1];
      assert h.undo[..|h.undo| - 1] + [top] == h.undo;
      (History(h.undo[..|h.undo| - 1], h.redo + [top]), Some(top))
  }

  /** `redo`: the mirror image of `undo`. */
  function Redo<T>(h: History<T>): (r: (History<T>, Option<T>))
    ensures r.1.None? <==> h.redo == []
    ensures r.1.None? ==> r.0 == h
    ensures r.1.Some? ==> r.0.redo + [r.1.value] == h.redo && r.0.undo == h.undo + [r.1.value]
    ensures Size(r.0) == Size(h)
  {
    if |h.redo| == 0 then (h, None)
    else
      var top := h.redo[|h.redo| - 1];
      assert h.redo[..|h.redo| - 1] + [top] == h.redo;
      (History(h.undo + [top], h.redo[..|h.redo| - 1]), Some(top))
  }

  /** Undo then redo restores both stacks and yields the same snapshot twice. */
  lemma UndoThenRedo<T>(h: History<T>)
    requires h.undo != []
    ensures var (h1, x) := Undo(h);
      var (h2, y) := Redo(h1);
      h2 == h && x.Some? && x == y
  {
    var (h1, x) := Undo(h);
    var (h2, y) := Redo(h1);
    assert h2.undo == h1.undo + [y.value];
    assert h1.undo + [x.value] == h.undo;
  }

  /** Redo then undo restores both stacks and yields the same snapshot twice. */
  lemma RedoThenUndo<T>(h: History<T>)
    requires h.redo != []
    ensures var (h1, x) := Redo(h);
      var (h2, y) := Undo(h1);
      h2 == h && x.Some? && x == y
  {
    var (h1, x) := Redo(h);
    var (h2, y) := Undo(h1);
    assert h2.redo == h1.redo + [y.value];
    assert h1.redo + [x.value] == h.redo;
  }

  /** `k` undos in a row. */
  function UndoTimes<T>(h: History<T>, k: nat): History<T>
    decreases k
  {
    if k == 0 then h else UndoTimes(Undo(h).0, k - 1)
  }

  /** `k` redos in a row. */
  function RedoTimes<T>(h: History<T>, k: nat): History<T>
    decreases k
  {
    if k == 0 then h else RedoTimes(Redo(h).0, k - 1)
  }

  /** `k` undos move the top `k` snapshots to the redo stack, most recent first. */
  lemma {:induction false} UndoTimesMoves<T>(h: History<T>, k: nat)
    requires k <= |h.undo|
    ensures UndoTimes(h, k).undo == h.undo[..|h.undo| - k]
    ensures UndoTimes(h, k).redo == h.redo + Reverse(h.undo[|h.undo| - k..])
    decreases k
  {
    if k > 0 {
      var n := |h.undo|;
      var h1 := History(h.undo[..n - 1], h.redo + [h.undo[n - 1]]);
      UndoTimesStep(h, k);
      UndoTimesMoves(h1, k - 1);
      var g := UndoTimes(h1, k - 1);
      MoveTop(h.undo, h.redo, k, g.undo, g.redo);
    } else {
      NothingMoved(h.undo, h.redo);
    }
  }

  /** `k` redos move the top `k` snapshots back to the undo stack, most recent first. */
  lemma {:induction false} RedoTimesMoves<T>(h: History<T>, k: nat)
    requires k <= |h.redo|
    ensures RedoTimes(h, k).redo == h.redo[..|h.redo| - k]
    ensures RedoTimes(h, k).undo == h.undo + Reverse(h.redo[|h.redo| - k..])
    decreases k
  {
    if k > 0 {
      var n := |h.redo|;
      var h1 := History(h.undo + [h.redo[n - 1]], h.redo[..n - 1]);
      RedoTimesStep(h, k);
      RedoTimesMoves(h1, k - 1);
      var g := RedoTimes(h1, k - 1);
      MoveTop(h.redo, h.undo, k, g.redo, g.undo);
    } else {
      NothingMoved(h.redo, h.undo);
    }
  }

  /** The first of `k` undos takes the undo stack's top. */
  lemma UndoTimesStep<T>(h: History<T>, k: nat)
    requires 0 < k && h.undo != []
    ensures UndoTimes(h, k) == UndoTimes(History(h.undo[..|h.undo| - 1], h.redo + [h.undo[|h.undo| - 1]]), k - 1)
  {
    assert Undo(h).0 == History(h.undo[..|h.undo| - 1], h.redo + [h.undo[|h.undo| - 1]]);
  }

  /** The first of `k` redos takes the redo stack's top. */
  lemma RedoTimesStep<T>(h: History<T>, k: nat)
    requires 0 < k && h.redo != []
    ensures RedoTimes(h, k) == RedoTimes(History(h.undo + [h.redo[|h.redo| - 1]], h.redo[..|h.redo| - 1]), k - 1)
  {
    assert Redo(h).0 == History(h.undo + [h.redo[|h.redo| - 1]], h.redo[..|h.redo| - 1]);
  }

  lemma NothingMoved<T>(from: seq<T>, onto: seq<T>)
    ensures from[..|from|] == from && onto + Reverse(from[|from|..]) == onto
  {
    assert from[|from|..] == [];
    assert Reverse<T>([]) == [];
    assert onto + [] == onto;
  }

  /** Moving the top of `from` onto `onto`, then `k - 1` more, moves `k`. */
  lemma MoveTop<T>(from: seq<T>, onto: seq<T>, k: nat, from': seq<T>, onto': seq<T>)
    requires 0 < k <= |from|
    requires from' == from[..|from| - 1][..|from| - k]
    requires onto' == (onto + [from[|from| - 1]]) + Reverse(from[..|from| - 1][|from| - k..])
    ensures from' == from[..|from| - k]
    ensures onto' == onto + Reverse(from[|from| - k..])
  {
    var n := |from|;
    var x := from[n - 1];
    var from1 := from[..n - 1];
    var t1 := from1[n - k..];
    assert from[n - k..] == t1 + [x];
    ReverseSnoc(t1, x);
    assert (onto + [x]) + Reverse(t1) == onto + ([x] + Reverse(t1));
  }

  /** Any number of undos followed by as many redos restores the history. */
  lemma UndoRedoTimes<T>(h: History<T>, k: nat)
    requires k <= |h.undo|
    ensures RedoTimes(UndoTimes(h, k), k) == h
  {
    var n := |h.undo|;
    var t := h.undo[n - k..];
    var u := h.undo[..n - k];
    UndoTimesMoves(h, k);
    var g := UndoTimes(h, k);
    RestoreMoved(h.undo, u, t, h.redo, g);
    RedoTimesMoves(g, k);
    RestoreFields(RedoTimes(g, k), h);
  }

  lemma RestoreFields<T>(f: History<T>, h: History<T>)
    requires f.undo == h.undo && f.redo == h.redo
    ensures f == h
  {
  }

  lemma RestoreMoved<T>(undo: seq<T>, u: seq<T>, t: seq<T>, redo: seq<T>, g: History<T>)
    requires undo == u + t && g.undo == u && g.redo == redo + Reverse(t)
    ensures |g.redo| - |t| == |redo|
    ensures g.redo[..|redo|] == redo && g.redo[|redo|..] == Reverse(t)
    ensures g.undo + Reverse(g.redo[|redo|..]) == undo
  {
    ReverseReverse(t);
  }

  function Reverse<T>(s: seq<T>): (r: seq<T>)
    ensures |r| == |s| && forall i :: 0 <= i < |s| ==> r[i] == s[|s| - 1 - i]
  {
    if |s| == 0 then [] else Reverse(s[1..]) + [s[0]]
  }

  lemma ReverseReverse<T>(s: seq<T>)
    ensures Reverse(Reverse(s)) == s
  {
  }

  lemma ReverseSnoc<T>(s: seq<T>, x: T)
    ensures Reverse(s + [x]) == [x] + Reverse(s)
  {
  }
}

=== FILE: hit_test.dfy ===
/** `getElementsUnderCursor` in Whiteboard.jsx: the elements under a point,
    lowest `zIndex` first, and the eraser that takes the first of them.
    Coordinates are integers; a brush stroke is hit within its brush size of
    one of its points, any other element inside its box, edges included. */
module HitTest {
  import opened Base
  import opened Json

  /** `v || d` read as a number: the default when the value is absent or
      falsy, the number when it is one, None (NaN) otherwise. */
  function NumOr(v: Option<Value>, d: int): (r: Option<int>)
    ensures !Present(v) ==> r == Some(d)
    ensures Present(v) ==> (r.Some? <==> v.value.Num?)
    ensures Present(v) && v.value.Num? ==> r == Some(v.value.n)
  {
    if !Present(v) then Some(d)
    else match v.value
      case Num(n) => Some(n)
      case _ => None
  }

  /** `Math.hypot(p.x - c.x, p.y - c.y) <= r`, compared exactly. */
  predicate Near(p: Point, c: Point, r: int) {
    r >= 0 && (p.x - c.x) * (p.x - c.x) + (p.y - c.y) * (p.y - c.y) <= r * r
  }

  predicate IsBrush(el: Props) {
    Get(el, "type") == Some(Str("brush_stroke")) && Present(Get(el, "points"))
  }

  /** A stroke whose truthy `points` is not an array: `el.points.some` is not
      a function, and the filter throws. */
  predicate Throws(el: Props) {
    IsBrush(el) && !el["points"].Points?
  }

  /** The filter's test for one element that does not throw. */
  predicate UnderCursor(el: Props, c: Point) {
    if IsBrush(el) then
      var r := NumOr(Get(el, "brushSize"), 6);
      match el["points"]
      case Points(pts) => r.Some? && exists i :: 0 <= i < |pts| && Near(pts[i], c, r.value)
      case _ => false
    else
      var x, y := NumOr(Get(el, "x"), 0), NumOr(Get(el, "y"), 0);
      var w, h := NumOr(Get(el, "width"), 0), NumOr(Get(el, "height"), 0);
      x.Some? && y.Some? && w.Some? && h.Some?
      && x.value <= c.x <= x.value + w.value
      && y.value <= c.y <= y.value + h.value
  }

  /** `(el.zIndex || 0)`, the sort key. */
  function ZKey(el: Props): int {
    NumOr(Get(el, "zIndex"), 0).GetOr(0)
  }

  // ---------------------------------------------------------------- filter

  /** `.filter(...)`: the hit elements in enumeration order. */
  function Hits(els: seq<Props>, c: Point): (r: seq<Props>)
    ensures forall e :: multiset(r)[e] == if UnderCursor(e, c) then multiset(els)[e] else 0
    ensures forall i :: 0 <= i < |r| ==> UnderCursor(r[i], c)
    decreases |els|
  {
    if |els| == 0 then []
    else
      var rest := Hits(els[..|els| - 1], c);
      var last := els[|els| - 1];
      assert els == els[..|els| - 1] + [last];
      if UnderCursor(last, c) then rest + [last] else rest
  }

  /** The filter keeps enumeration order: the hits of a concatenation are
      the hits of each part, in turn. With the multiset clause this fixes
      `Hits` entirely. */
  lemma {:induction false} HitsAppend(a: seq<Props>, b: seq<Props>, c: Point)
    ensures Hits(a + b, c) == Hits(a, c) + Hits(b, c)
    decreases |b|
  {
    if |b| > 0 {
      var init, last := b[..|b| - 1], b[|b| - 1];
      assert b == init + [last];
      assert a + b == (a + init) + [last];
      HitsAppend(a, init, c);
      HitsSnoc(a + init, last, c);
      HitsSnoc(init, last, c);
      var tail: seq<Props> := if UnderCursor(last, c) then [last] else [];
      ConcatAssoc(Hits(a, c), Hits(init, c), tail);
      assert Hits(a + b, c) == (Hits(a, c) + Hits(init, c)) + tail;
      assert Hits(b, c) == Hits(init, c) + tail;
    } else {
      assert a + b == a;
      assert Hits(b, c) == [];
    }
  }

  /** Unfolds `Hits` once at the back. */
  lemma HitsSnoc(s: seq<Props>, x: Props, c: Point)
    ensures Hits(s + [x], c) == Hits(s, c) + if UnderCursor(x, c) then [x] else []
  {
    var t := s + [x];
    assert t[..|t| - 1] == s;
    assert t[|t| - 1] == x;
  }

  // ---------------------------------------------------------------- stable sort

  predicate SortedBy<T>(s: seq<T>, key: T -> int) {
    forall i, j :: 0 <= i < j < |s| ==> key(s[i]) <= key(s[j])
  }

  /** The elements of `s` with key `k`, in order. */
  function WithKey<T>(s: seq<T>, key: T -> int, k: int): seq<T>
    decreases |s|
  {
    if |s| == 0 then [] else (if key(s[0]) == k then [s[0]] else []) + WithKey(s[1..], key, k)
  }

  /** Places `x` after every element whose key is at most its own. */
  function InsertBy<T>(x: T, s: seq<T>, key: T -> int): (r: seq<T>)
    ensures |r| == |s| + 1 && multiset(r) == multiset(s) + multiset{x}
    decreases |s|
  {
    if |s| == 0 then [x]
    else if key(x) < key(s[0]) then [x] + s
    else
      assert s == [s[0]] + s[1..];
      [s[0]] + InsertBy(x, s[1..], key)
  }

  lemma {:induction false} InsertSorted<T>(x: T, s: seq<T>, key: T -> int)
    requires SortedBy(s, key)
    ensures SortedBy(InsertBy(x, s, key), key)
    decreases |s|
  {
    if |s| > 0 && key(x) >= key(s[0]) {
      var t := InsertBy(x, s[1..], key);
      InsertSorted(x, s[1..], key);
      forall i | 0 <= i < |t| ensures key(s[0]) <= key(t[i]) {
        assert t[i] in multiset(t);
        if t[i] != x {
          assert t[i] in multiset(s[1..]);
          var j :| 0 <= j < |s[1..]| && s[1..][j] == t[i];
          assert s[1..][j] == s[j + 1];
        }
      }
      var r := [s[0]] + t;
      assert forall i :: 1 <= i < |r| ==> r[i] == t[i - 1];
    }
  }

  /** Insertion sort, inserting each element after the equal keys before it:
      a stable sort, as `Array.prototype.sort` is. */
  function SortBy<T>(s: seq<T>, key: T -> int): (r: seq<T>)
    ensures |r| == |s| && multiset(r) == multiset(s)
    ensures SortedBy(r, key)
    decreases |s|
  {
    if |s| == 0 then []
    else
      var init := SortBy(s[..|s| - 1], key);
      assert s == s[..|s| - 1] + [s[|s| - 1]];
      InsertSorted(s[|s| - 1], init, key);
      InsertBy(s[|s| - 1], init, key)
  }

  lemma {:induction false} WithKeyAppend<T>(a: seq<T>, b: seq<T>, key: T -> int, k: int)
    ensures WithKey(a + b, key, k) == WithKey(a, key, k) + WithKey(b, key, k)
    decreases |a|
  {
    if |a| == 0 {
      assert a + b == b;
    } else {
      var head: seq<T> := if key(a[0]) == k then [a[0]] else [];
      assert (a + b)[0] == a[0];
      assert (a + b)[1..] == a[1..] + b;
      assert WithKey(a + b, key, k) == head + WithKey(a[1..] + b, key, k);
      WithKeyAppend(a[1..], b, key, k);
      var x, y := WithKey(a[1..], key, k), WithKey(b, key, k);
      assert head + (x + y) == (head + x) + y;
    }
  }

  /** No element of a sorted list that starts above `k` has key `k`. */
  lemma {:induction false} WithKeyAbove<T>(s: seq<T>, key: T -> int, k: int)
    requires SortedBy(s, key) && (|s| > 0 ==> key(s[0]) > k)
    ensures WithKey(s, key, k) == []
    decreases |s|
  {
    if |s| > 0 {
      WithKeyAbove(s[1..], key, k);
    }
  }

  /** Unfolds `WithKey` once at the front. */
  lemma WithKeyCons<T>(x: T, s: seq<T>, key: T -> int, k: int)
    ensures WithKey([x] + s, key, k) == (if key(x) == k then [x] else []) + WithKey(s, key, k)
  {
    assert ([x] + s)[0] == x;
    assert ([x] + s)[1..] == s;
  }

  /** Inserting into a sorted list puts `x` after the elements of equal key. */
  lemma {:induction false} InsertKeepsOrder<T>(x: T, s: seq<T>, key: T -> int, k: int)
    requires SortedBy(s, key)
    ensures WithKey(InsertBy(x, s, key), key, k) == WithKey(s, key, k) + (if key(x) == k then [x] else [])
    decreases |s|
  {
    var tail: seq<T> := if key(x) == k then [x] else [];
    if |s| == 0 {
      assert InsertBy(x, s, key) == [x] + s;
      WithKeyCons(x, s, key, k);
    } else if key(x) < key(s[0]) {
      assert InsertBy(x, s, key) == [x] + s;
      WithKeyCons(x, s, key, k);
      if key(x) == k {
        WithKeyAbove(s, key, k);
      }
    } else {
      var t := InsertBy(x, s[1..], key);
      assert InsertBy(x, s, key) == [s[0]] + t;
      assert SortedBy(s[1..], key);
      InsertKeepsOrder(x, s[1..], key, k);
      WithKeyCons(s[0], t, key, k);
      assert s == [s[0]] + s[1..];
      WithKeyCons(s[0], s[1..], key, k);
      var head: seq<T> := if key(s[0]) == k then [s[0]] else [];
      var rest := WithKey(s[1..], key, k);
      assert WithKey(InsertBy(x, s, key), key, k) == head + (rest + tail);
      assert WithKey(s, key, k) == head + rest;
      assert head + (rest + tail) == (head + rest) + tail;
    }
  }

  lemma SplitLast<T>(s: seq<T>)
    requires |s| > 0
    ensures s == s[..|s| - 1] + [s[|s| - 1]]
  {
  }

  /** The sort is stable: elements of equal key keep their relative order. */
  lemma {:induction false} SortIsStable<T>(s: seq<T>, key: T -> int, k: int)
    ensures WithKey(SortBy(s, key), key, k) == WithKey(s, key, k)
    decreases |s|
  {
    if |s| > 0 {
      var init, last := s[..|s| - 1], s[|s| - 1];
      SplitLast(s);
      var sorted := SortBy(init, key);
      assert SortBy(s, key) == InsertBy(last, sorted, key);
      SortIsStable(init, key, k);
      InsertKeepsOrder(last, sorted, key, k);
      WithKeyAppend(init, [last], key, k);
      WithKeyCons(last, [], key, k);
      assert [last] + [] == [last];
    }
  }

  // ---------------------------------------------------------------- the query and the eraser

  /** `getElementsUnderCursor(coords)` over the board's elements in
      enumeration order; None when the filter throws on some element. */
  function ElementsUnderCursor(els: seq<Props>, c: Point): (r: Option<seq<Props>>)
    ensures r.None? <==> exists i :: 0 <= i < |els| && Throws(els[i])
    ensures r.Some? ==> forall e :: multiset(r.value)[e] == if UnderCursor(e, c) then multiset(els)[e] else 0
    ensures r.Some? ==> SortedBy(r.value, ZKey)
  {
    if exists i :: 0 <= i < |els| && Throws(els[i]) then None
    else Some(SortBy(Hits(els, c), ZKey))
  }

  /** Elements hit with the same `zIndex` keep their enumeration order. */
  lemma UnderCursorStable(els: seq<Props>, c: Point, k: int)
    ensures ElementsUnderCursor(els, c).Some? ==>
      WithKey(ElementsUnderCursor(els, c).value, ZKey, k) == WithKey(Hits(els, c), ZKey, k)
  {
    SortIsStable(Hits(els, c), ZKey, k);
  }

  /** `getElementsUnderCursor(coords)[0]`, what the eraser deletes; nothing
      when the query throws, since the handler stops there. */
  function EraserTarget(els: seq<Props>, c: Point): Option<Props> {
    match ElementsUnderCursor(els, c)
    case None => None
    case Some(hits) => if |hits| == 0 then None else Some(hits[0])
  }

  /** The eraser finds something exactly when no element makes the query
      throw and some element is under the point, and then takes one with the
      lowest `zIndex`: the bottom of the stack, although the sort puts the
      topmost last. */
  lemma EraserTakesLowest(els: seq<Props>, c: Point)
    ensures EraserTarget(els, c).Some? <==>
      (forall i :: 0 <= i < |els| ==> !Throws(els[i])) && exists i :: 0 <= i < |els| && UnderCursor(els[i], c)
    ensures EraserTarget(els, c).Some? ==>
      var t := EraserTarget(els, c).value;
      t in els && UnderCursor(t, c) && forall e :: e in els && UnderCursor(e, c) ==> ZKey(t) <= ZKey(e)
  {
    var q := ElementsUnderCursor(els, c);
    if q.Some? {
      var hits := q.value;
      if exists i :: 0 <= i < |els| && UnderCursor(els[i], c) {
        var i :| 0 <= i < |els| && UnderCursor(els[i], c);
        assert multiset(hits)[els[i]] > 0;
      }
      if |hits| > 0 {
        assert multiset(hits)[hits[0]] > 0;
        forall e | e in els && UnderCursor(e, c) ensures ZKey(hits[0]) <= ZKey(e) {
          assert multiset(hits)[e] > 0;
          var j :| 0 <= j < |hits| && hits[j] == e;
        }
      }
    }
  }

  /** No element of `s` has key `k`. */
  lemma {:induction false} WithKeyNone<T>(s: seq<T>, key: T -> int, k: int)
    requires forall i :: 0 <= i < |s| ==> key(s[i]) != k
    ensures WithKey(s, key, k) == []
    decreases |s|
  {
    if |s| > 0 {
      WithKeyNone(s[1..], key, k);
    }
  }

  /** The hits before index `i` are elements before `i` under the point. */
  lemma HitsBefore(els: seq<Props>, c: Point, i: nat, e: Props)
    requires i <= |els| && e in Hits(els[..i], c)
    ensures exists j :: 0 <= j < i && els[j] == e && UnderCursor(e, c)
  {
    var pre := els[..i];
    assert multiset(Hits(pre, c))[e] > 0;
    assert e in multiset(pre);
    var j :| 0 <= j < |pre| && pre[j] == e;
    assert els[j] == e;
  }

  /** The hits around a hit element `els[i]`. */
  lemma HitsSplitAt(els: seq<Props>, c: Point, i: nat)
    requires i < |els| && UnderCursor(els[i], c)
    ensures Hits(els, c) == Hits(els[..i], c) + ([els[i]] + Hits(els[i + 1..], c))
  {
    var pre, post := els[..i], els[i + 1..];
    assert els == pre + ([els[i]] + post);
    HitsAppend(pre, [els[i]] + post, c);
    HitsAppend([els[i]], post, c);
    HitsSnoc([], els[i], c);
    assert [] + [els[i]] == [els[i]];
  }

  /** With no earlier hit of its key, hit `i` heads its key class among the hits. */
  lemma HitHeadsClass(els: seq<Props>, c: Point, i: nat)
    requires i < |els| && UnderCursor(els[i], c)
    requires forall j :: 0 <= j < i && UnderCursor(els[j], c) ==> ZKey(els[j]) != ZKey(els[i])
    ensures var w := WithKey(Hits(els, c), ZKey, ZKey(els[i])); |w| > 0 && w[0] == els[i]
  {
    var k := ZKey(els[i]);
    HitsSplitAt(els, c, i);
    var hp, rest := Hits(els[..i], c), [els[i]] + Hits(els[i + 1..], c);
    forall j | 0 <= j < |hp| ensures ZKey(hp[j]) != k {
      HitsBefore(els, c, i, hp[j]);
    }
    WithKeyNone(hp, ZKey, k);
    WithKeyAppend(hp, rest, ZKey, k);
    WithKeyCons(els[i], Hits(els[i + 1..], c), ZKey, k);
  }

  /** The query's first element has the lowest `zIndex` among the hits. */
  lemma QueryHeadKey(els: seq<Props>, c: Point, i: nat)
    requires forall j :: 0 <= j < |els| ==> !Throws(els[j])
    requires i < |els| && UnderCursor(els[i], c)
    requires forall j :: 0 <= j < |els| && UnderCursor(els[j], c) ==> ZKey(els[i]) <= ZKey(els[j])
    ensures var q := ElementsUnderCursor(els, c).value; |q| > 0 && ZKey(q[0]) == ZKey(els[i])
  {
    var q := ElementsUnderCursor(els, c).value;
    assert multiset(q)[els[i]] > 0;
    var m :| 0 <= m < |q| && q[m] == els[i];
    assert multiset(q)[q[0]] > 0;
    assert q[0] in multiset(els);
    var j :| 0 <= j < |els| && els[j] == q[0];
  }

  /** Which element the eraser takes: the first hit in enumeration order
      among those with the lowest `zIndex`. */
  lemma EraserTakesFirstLowest(els: seq<Props>, c: Point, i: nat)
    requires forall j :: 0 <= j < |els| ==> !Throws(els[j])
    requires i < |els| && UnderCursor(els[i], c)
    requires forall j :: 0 <= j < |els| && UnderCursor(els[j], c) ==> ZKey(els[i]) <= ZKey(els[j])
    requires forall j :: 0 <= j < i && UnderCursor(els[j], c) ==> ZKey(els[j]) != ZKey(els[i])
    ensures EraserTarget(els, c) == Some(els[i])
  {
    var k := ZKey(els[i]);
    var q := ElementsUnderCursor(els, c).value;
    assert q == SortBy(Hits(els, c), ZKey);
    HitHeadsClass(els, c, i);
    SortIsStable(Hits(els, c), ZKey, k);
    QueryHeadKey(els, c, i);
    assert q == [q[0]] + q[1..];
    WithKeyCons(q[0], q[1..], ZKey, k);
  }

  /** Every element the app creates has `zIndex` 1, so the eraser takes the
      first element under the point in enumeration order. */
  lemma EraserTakesFirstHit(els: seq<Props>, c: Point, i: nat)
    requires forall j :: 0 <= j < |els| ==> !Throws(els[j]) && Get(els[j], "zIndex") == Some(Num(1))
    requires i < |els| && UnderCursor(els[i], c)
    requires forall j :: 0 <= j < i ==> !UnderCursor(els[j], c)
    ensures EraserTarget(els, c) == Some(els[i])
  {
    EraserTakesFirstLowest(els, c, i);
  }

  /** One stroke with unreadable points hides every other element from the
      query, even one under the point. */
  lemma ThrowingStrokeHidesAll(bad: Props, el: Props, c: Point)
    requires Throws(bad) && UnderCursor(el, c)
    ensures ElementsUnderCursor([el, bad], c).None? && EraserTarget([el, bad], c).None?
  {
    assert Throws([el, bad][1]);
  }

  /** A box's four corners are under the cursor: the bounds are inclusive. */
  lemma CornersHit(el: Props, x: int, y: int, w: nat, h: nat)
    requires !IsBrush(el)
    requires Get(el, "x") == Some(Num(x)) && Get(el, "y") == Some(Num(y))
    requires Get(el, "width") == Some(Num(w)) && Get(el, "height") == Some(Num(h))
    ensures UnderCursor(el, Point(x, y)) && UnderCursor(el, Point(x + w, y))
    ensures UnderCursor(el, Point(x, y + h)) && UnderCursor(el, Point(x + w, y + h))
  {
  }

  /** A stroke is hit at each of its own points, whatever its brush size. */
  lemma StrokePointsHit(el: Props, pts: seq<Point>, i: int)
    requires IsBrush(el) && el["points"] == Points(pts) && 0 <= i < |pts|
    requires NumOr(Get(el, "brushSize"), 6).Some? && NumOr(Get(el, "brushSize"), 6).value >= 0
    ensures UnderCursor(el, pts[i])
  {
    assert Near(pts[i], pts[i], NumOr(Get(el, "brushSize"), 6).value);
  }
}

=== FILE: int32.dfy ===
/** JavaScript's bitwise operators: each first converts its operands to 32-bit
    two's-complement integers (ToInt32), so arithmetic on unbounded integers
    must wrap explicitly. */
module Int32 {
  const TwoTo32: int := 0x1_0000_0000
  const TwoTo31: int := 0x8000_0000

  /** ToInt32: the integer in [-2^31, 2^31) congruent to `x` modulo 2^32. */
  function ToInt32(x: int): (r: int)
    ensures -TwoTo31 <= r < TwoTo31
    ensures r % TwoTo32 == x % TwoTo32
    ensures -TwoTo31 <= x < TwoTo31 ==> r == x
  {
    var m := x % TwoTo32;
    if m >= TwoTo31 then m - TwoTo32 else m
  }

  function Pow2(n: nat): (r: nat)
    ensures r >= 1
  {
    if n == 0 then 1 else 2 * Pow2(n - 1)
  }

  /** `x << n` for a shift count below 32. */
  function ShiftLeft(x: int, n: nat): (r: int)
    requires n < 32
    ensures -TwoTo31 <= r < TwoTo31
    ensures r % TwoTo32 == (x * Pow2(n)) % TwoTo32
  {
    ModMul(ToInt32(x), x, Pow2(n));
    ToInt32(ToInt32(x) * Pow2(n))
  }

  /** `x >> n` (sign-propagating) for a shift count below 32: floor division. */
  function ShiftRight(x: int, n: nat): (r: int)
    requires n < 32
    ensures -TwoTo31 <= r < TwoTo31
  {
    DivBounds(ToInt32(x), Pow2(n));
    ToInt32(x) / Pow2(n)
  }

  /** `x & 0xff`: the low eight bits of the two's-complement form. */
  function LowByte(x: int): (r: int)
    ensures 0 <= r < 256
  {
    ToInt32(x) % 256
  }

  lemma ModMul(a: int, b: int, k: int)
    requires a % TwoTo32 == b % TwoTo32
    ensures (a * k) % TwoTo32 == (b * k) % TwoTo32
  {
    var r := a % TwoTo32;
    var qa, qb := a / TwoTo32, b / TwoTo32;
    MulSplit(qa, r, k);
    MulSplit(qb, r, k);
    ModAddMultiple(r * k, qa * k, TwoTo32);
    ModAddMultiple(r * k, qb * k, TwoTo32);
  }

  lemma MulSplit(q: int, r: int, k: int)
    ensures (q * TwoTo32 + r) * k == r * k + (q * k) * TwoTo32
  {
  }

  /** Adding a multiple of `n` leaves the residue modulo `n` unchanged. */
  lemma ModAddMultiple(x: int, j: int, n: int)
    requires n >= 1
    ensures (x + j * n) % n == x % n
  {
    ModUnique(x + j * n, n, x / n + j, x % n);
  }

  lemma DivBounds(x: int, d: int)
    requires -TwoTo31 <= x < TwoTo31 && d >= 1
    ensures -TwoTo31 <= x / d < TwoTo31
  {
  }

  /** Byte `i`, counted from the low end, of the 32-bit form of `x`. */
  function Byte(x: int, i: nat): int
    requires i < 4
  {
    ((x % TwoTo32) / Pow2(8 * i)) % 256
  }

  /** `(x >> 8i) & 0xff` reads byte `i` of the 32-bit form of `x`. */
  lemma ByteOfShift(x: int, i: nat)
    requires i < 3
    ensures LowByte(ShiftRight(x, 8 * i)) == Byte(x, i)
  {
    var m := x % TwoTo32;
    var d := Pow2(8 * i);
    ByteDivisors();
    assert d == 1 || d == 256 || d == 65536;
    var r := ToInt32(x);
    DivBounds(r, d);
    assert ShiftRight(x, 8 * i) == r / d;
    assert LowByte(r / d) == (r / d) % 256;
    if r != m {
      assert r == m - TwoTo32;
      ShiftDivMod(m, d);
    }
  }

  lemma ByteDivisors()
    ensures Pow2(0) == 1 && Pow2(8) == 256 && Pow2(16) == 65536
  {
  }

  /** Subtracting 2^32 moves a quotient by 2^32/d, a multiple of 256. */
  lemma ShiftDivMod(m: int, d: int)
    requires d == 1 || d == 256 || d == 65536
    ensures ((m - TwoTo32) / d) % 256 == (m / d) % 256
  {
    var k := if d == 1 then 0x1_0000_0000 else if d == 256 then 0x100_0000 else 0x1_0000;
    assert k * d == TwoTo32;
    DivSub(m, d, k);
    ModAddMultiple(m / d, -(k / 256), 256);
  }

  lemma DivSub(m: int, d: int, k: int)
    requires d >= 1
    ensures (m - k * d) / d == m / d - k
  {
    var q := m / d;
    var r := m % d;
    assert m == q * d + r;
    assert m - k * d == (q - k) * d + r;
    DivUnique(m - k * d, d, q - k, r);
  }

  lemma DivUnique(n: int, d: int, a: int, r: int)
    requires d >= 1 && 0 <= r < d && n == a * d + r
    ensures n / d == a
  {
    var a' := n / d;
    var r' := n % d;
    assert (a - a') * d == r' - r;
    if a - a' >= 1 {
      MulAtLeast(a - a', d);
    } else if a' - a >= 1 {
      MulAtLeast(a' - a, d);
    }
  }

  lemma MulAtLeast(x: int, d: int)
    requires x >= 1 && d >= 1
    ensures x * d >= d
  {
    assert x * d == d + (x - 1) * d;
  }

  lemma ModUnique(n: int, d: int, a: int, r: int)
    requires d >= 1 && 0 <= r < d && n == a * d + r
    ensures n / d == a && n % d == r
  {
    DivUnique(n, d, a, r);
  }

  /** The three low bytes of a number below 2^24 are its base-256 digits. */
  lemma BytesOfSmall(a: int, b: int, c: int)
    requires 0 <= a < 256 && 0 <= b < 256 && 0 <= c < 256
    ensures var v := a * 65536 + b * 256 + c;
      Byte(v, 2) == a && Byte(v, 1) == b && Byte(v, 0) == c
  {
    var v := a * 65536 + b * 256 + c;
    assert 0 <= v < TwoTo32;
    assert v % TwoTo32 == v;
    assert Pow2(8) == 256 && Pow2(16) == 65536;
    ModUnique(v, 65536, a, b * 256 + c);
    ModUnique(v, 256, a * 256 + b, c);
    ModUnique(a * 256 + b, 256, a, b);
    ModUnique(a, 256, 0, a);
    ModUnique(v, 1, v, 0);
  }
}

=== FILE: json.dfy ===
/** The flat JavaScript objects the whiteboard exchanges: element records, user
    records, change sets, chat messages. A property is absent (`undefined`) when
    its key is not in the map. Numbers are modelled as integers. */
module Json {
  import opened Base
  import Text

  /** A canvas point `{x, y}`. */
  datatype Point = Point(x: int, y: int)

  datatype Value =
    | Null
    | Bool(b: bool)
    | Num(n: int)
    | Str(s: string)
    | Points(pts: seq<Point>)

  type Props = map<string, Value>

  /** JavaScript truthiness; arrays are truthy even when empty. */
  predicate Truthy(v: Value) {
    match v
    case Null => false
    case Bool(b) => b
    case Num(n) => n != 0
    case Str(s) => s != ""
    case Points(_) => true
  }

  /** `obj[key]`, with `undefined` as None. */
  function Get(p: Props, key: string): (r: Option<Value>)
    ensures r.Some? <==> key in p
    ensures r.Some? ==> r.value == p[key]
  {
    if key in p then Some(p[key]) else None
  }

  /** Truthiness of a possibly `undefined` value. */
  predicate Present(v: Option<Value>) {
    v.Some? && Truthy(v.value)
  }

  /** Truthiness of a possibly absent property. */
  predicate TruthyField(p: Props, key: string) {
    key in p && Truthy(p[key])
  }

  /** Object spread `{...base, ...changes}`: every key of either, the later one winning. */
  function Merge(base: Props, changes: Props): (r: Props)
    ensures r.Keys == base.Keys + changes.Keys
    ensures forall k :: k in changes ==> r[k] == changes[k]
    ensures forall k :: k in base && k !in changes ==> r[k] == base[k]
  {
    base + changes
  }

  /** `String(v)`, which is how JavaScript turns a value into an object key. */
  function KeyString(v: Option<Value>): string {
    match v
    case None => "undefined"
    case Some(Null) => "null"
    case Some(Bool(b)) => if b then "true" else "false"
    case Some(Num(n)) => Text.IntToDecimal(n)
    case Some(Str(s)) => s
    case Some(Points(ps)) => ObjectList(|ps|)
  }

  /** `String` of an array of `n` plain objects. */
  function ObjectList(n: nat): string {
    if n == 0 then ""
    else if n == 1 then "[object Object]"
    else ObjectList(n - 1) + ",[object Object]"
  }

  /** The key `obj[x.id]` addresses for a record `x`. */
  function IdKey(p: Props): string {
    KeyString(Get(p, "id"))
  }
}

=== FILE: lock_table.dfy ===
/** The coordinator's `activeLocks` table: element id -> owning socket id.
    A JavaScript `Map` remembers insertion order, and the order in which
    `releaseAllLocksForSocket` reports released ids follows it, so the table is
    kept as a sequence of entries with distinct element ids, oldest first. */
module LockTable {
  import opened Base

  type ElementId = string

  /** Socket ids are assigned by the transport and are never empty. */
  type SocketId = s: string | |s| > 0 witness "s"

  datatype Entry = Entry(element: ElementId, owner: SocketId)

  type Table = seq<Entry>

  /** No element id appears twice: the representation invariant of a map. */
  predicate KeysDistinct(t: Table) {
    forall i, j :: 0 <= i < j < |t| ==> t[i].element != t[j].element
  }

  predicate HasEntry(t: Table, e: ElementId, owner: SocketId) {
    exists i :: 0 <= i < |t| && t[i] == Entry(e, owner)
  }

  /** `activeLocks.get(e)` */
  function Lookup(t: Table, e: ElementId): (r: Option<SocketId>)
    ensures r.None? <==> forall i :: 0 <= i < |t| ==> t[i].element != e
    ensures r.Some? ==> HasEntry(t, e, r.value)
    decreases |t|
  {
    if |t| == 0 then None
    else if t[0].element == e then (assert t[0] == Entry(e, t[0].owner); Some(t[0].owner))
    else
      var r := Lookup(t[1..], e);
      assert r.Some? ==> HasEntry(t, e, r.value) by {
        if r.Some? {
          var i :| 0 <= i < |t[1..]| && t[1..][i] == Entry(e, r.value);
          assert t[i + 1] == Entry(e, r.value);
        }
      }
      assert r.None? ==> forall i :: 0 <= i < |t| ==> t[i].element != e by {
        if r.None? {
          forall i | 0 <= i < |t| ensures t[i].element != e {
            if i > 0 { assert t[i] == t[1..][i - 1]; }
          }
        }
      }
      r
  }

  /** With distinct keys the entry a lookup finds is the only one for that element. */
  lemma LookupUnique(t: Table, i: int)
    requires KeysDistinct(t) && 0 <= i < |t|
    ensures Lookup(t, t[i].element) == Some(t[i].owner)
  {
    var r := Lookup(t, t[i].element);
    var j :| 0 <= j < |t| && t[j] == Entry(t[i].element, r.value);
    assert j == i;
  }

  /** `activeLocks.set(e, owner)` on an element that holds no lock: a new last entry. */
  function Insert(t: Table, e: ElementId, owner: SocketId): (r: Table)
    requires Lookup(t, e).None?
    ensures KeysDistinct(t) ==> KeysDistinct(r)
    ensures Lookup(r, e) == Some(owner)
    ensures forall e' :: e' != e ==> Lookup(r, e') == Lookup(t, e')
    ensures |r| == |t| + 1
    ensures forall i :: 0 <= i < |t| ==> r[i] == t[i]
    ensures r[|t|] == Entry(e, owner)
  {
    var r := t + [Entry(e, owner)];
    assert r[|t|] == Entry(e, owner);
    assert forall e' :: e' != e ==> Lookup(r, e') == Lookup(t, e') by {
      forall e' | e' != e ensures Lookup(r, e') == Lookup(t, e') {
        LookupAppend(t, Entry(e, owner), e');
      }
    }
    LookupAppend(t, Entry(e, owner), e);
    r
  }

  lemma {:induction false} LookupAppend(t: Table, x: Entry, e: ElementId)
    ensures Lookup(t + [x], e) == if Lookup(t, e).Some? then Lookup(t, e)
                                  else if x.element == e then Some(x.owner) else None
    decreases |t|
  {
    if |t| > 0 {
      assert (t + [x])[1..] == t[1..] + [x];
      LookupAppend(t[1..], x, e);
    }
  }

  /** `activeLocks.delete(e)` */
  function Delete(t: Table, e: ElementId): (r: Table)
    ensures Lookup(r, e).None?
    ensures KeysDistinct(t) ==> KeysDistinct(r)
    ensures forall e' :: e' != e ==> Lookup(r, e') == Lookup(t, e')
    ensures forall x :: x in r ==> x in t
    ensures Lookup(t, e).None? ==> r == t
    decreases |t|
  {
    if |t| == 0 then t
    else
      var rest := Delete(t[1..], e);
      if t[0].element == e then rest
      else
        var r := [t[0]] + rest;
        assert r[1..] == rest;
        assert KeysDistinct(t) ==> KeysDistinct(r) by {
          if KeysDistinct(t) {
            TailDistinct(t);
            ConsDistinct(t[0], rest);
          }
        }
        r
  }

  /** The entries after the first keep distinct keys, none of them the first's. */
  lemma TailDistinct(t: Table)
    requires |t| > 0 && KeysDistinct(t)
    ensures KeysDistinct(t[1..]) && Lookup(t[1..], t[0].element).None?
  {
    forall i | 0 <= i < |t[1..]| ensures t[1..][i].element != t[0].element {
      assert t[1..][i] == t[i + 1];
    }
  }

  /** An entry for an element the table lacks can go in front. */
  lemma ConsDistinct(x: Entry, rest: Table)
    requires KeysDistinct(rest) && Lookup(rest, x.element).None?
    ensures KeysDistinct([x] + rest)
  {
    var r := [x] + rest;
    forall i, j | 0 <= i < j < |r| ensures r[i].element != r[j].element {
      assert r[j] == rest[j - 1];
      if i > 0 { assert r[i] == rest[i - 1]; }
    }
  }

  /** `releaseAllLocksForSocket(owner)`: the table without `owner`'s entries,
      and the element ids those entries held, in table order. */
  function ReleaseAll(t: Table, owner: SocketId): (r: (Table, seq<ElementId>))
    requires KeysDistinct(t)
    ensures KeysDistinct(r.0)
    ensures forall e :: Lookup(r.0, e) == (if Lookup(t, e) == Some(owner) then None else Lookup(t, e))
    ensures forall e :: e in r.1 <==> Lookup(t, e) == Some(owner)
    ensures forall i, j :: 0 <= i < j < |r.1| ==> r.1[i] != r.1[j]
    ensures |r.0| + |r.1| == |t|
    ensures forall x :: x in r.0 ==> x in t && x.owner != owner
    decreases |t|
  {
    if |t| == 0 then ([], [])
    else
      var x := t[0];
      var tail := t[1..];
      TailDistinct(t);
      var rest := ReleaseAll(tail, owner);
      assert forall e :: e != x.element ==> Lookup(t, e) == Lookup(tail, e);
      assert Lookup(t, x.element) == Some(x.owner);
      if x.owner == owner then
        var released := [x.element] + rest.1;
        assert forall i :: 1 <= i < |released| ==> released[i] == rest.1[i - 1];
        (rest.0, released)
      else
        var kept := [x] + rest.0;
        assert kept[1..] == rest.0;
        ConsDistinct(x, rest.0);
        (kept, rest.1)
  }

  /** Where an element's entry sits in the table. */
  function Position(t: Table, e: ElementId): (p: nat)
    requires Lookup(t, e).Some?
    ensures p < |t| && t[p].element == e
    decreases |t|
  {
    if t[0].element == e then 0 else 1 + Position(t[1..], e)
  }

  /** The element ids of `owner`'s entries, front to back. */
  function OwnedIds(t: Table, owner: SocketId): seq<ElementId>
    decreases |t|
  {
    if |t| == 0 then [] else (if t[0].owner == owner then [t[0].element] else []) + OwnedIds(t[1..], owner)
  }

  /** `ReleaseAll` reports exactly those ids. */
  lemma {:induction false} ReleasedAreOwnedIds(t: Table, owner: SocketId)
    requires KeysDistinct(t)
    ensures ReleaseAll(t, owner).1 == OwnedIds(t, owner)
    decreases |t|
  {
    if |t| > 0 {
      TailDistinct(t);
      ReleasedAreOwnedIds(t[1..], owner);
    }
  }

  /** An id owned in the rest of the table sits after the first entry. */
  lemma {:induction false} PositionInTail(t: Table, owner: SocketId, k: nat)
    requires KeysDistinct(t) && |t| > 0 && k < |OwnedIds(t[1..], owner)|
    ensures Lookup(t[1..], OwnedIds(t[1..], owner)[k]).Some? && Lookup(t, OwnedIds(t[1..], owner)[k]).Some?
    ensures Position(t, OwnedIds(t[1..], owner)[k]) == 1 + Position(t[1..], OwnedIds(t[1..], owner)[k])
  {
    var e := OwnedIds(t[1..], owner)[k];
    OwnedInTable(t[1..], owner, k);
    var p :| 0 <= p < |t[1..]| && t[1..][p].element == e;
    assert t[p + 1].element == e && t[0].element != e;
  }

  /** Every owned id has an entry further on. */
  lemma {:induction false} OwnedInTable(t: Table, owner: SocketId, k: nat)
    requires k < |OwnedIds(t, owner)|
    ensures Lookup(t, OwnedIds(t, owner)[k]).Some?
    ensures exists p :: 0 <= p < |t| && t[p].element == OwnedIds(t, owner)[k]
    decreases |t|
  {
    var ids := OwnedIds(t, owner);
    var rest := OwnedIds(t[1..], owner);
    if t[0].owner == owner && k == 0 {
      assert ids[0] == t[0].element;
    } else {
      var k' := if t[0].owner == owner then k - 1 else k;
      assert ids[k] == rest[k'];
      OwnedInTable(t[1..], owner, k');
      var p :| 0 <= p < |t[1..]| && t[1..][p].element == rest[k'];
      assert t[p + 1].element == ids[k];
    }
  }

  /** The released ids come in table order, which is the order of the
      `lock-released` notices a disconnect sends. */
  lemma ReleasedInTableOrder(t: Table, owner: SocketId, i: nat, j: nat)
    requires KeysDistinct(t)
    requires i < j < |ReleaseAll(t, owner).1|
    ensures Lookup(t, ReleaseAll(t, owner).1[i]).Some? && Lookup(t, ReleaseAll(t, owner).1[j]).Some?
    ensures Position(t, ReleaseAll(t, owner).1[i]) < Position(t, ReleaseAll(t, owner).1[j])
  {
    ReleasedAreOwnedIds(t, owner);
    OwnedInOrder(t, owner, i, j);
  }

  lemma {:induction false} OwnedInOrder(t: Table, owner: SocketId, i: nat, j: nat)
    requires KeysDistinct(t)
    requires i < j < |OwnedIds(t, owner)|
    ensures Lookup(t, OwnedIds(t, owner)[i]).Some? && Lookup(t, OwnedIds(t, owner)[j]).Some?
    ensures Position(t, OwnedIds(t, owner)[i]) < Position(t, OwnedIds(t, owner)[j])
    decreases |t|
  {
    TailDistinct(t);
    var ids, rest := OwnedIds(t, owner), OwnedIds(t[1..], owner);
    if t[0].owner == owner {
      OwnedHead(t, owner);
      if i > 0 {
        OwnedInOrder(t[1..], owner, i - 1, j - 1);
        TailOrder(t, owner, i - 1, j - 1);
        HeadShift(t, owner, i, j);
        assert ids[i] == rest[i - 1] && ids[j] == rest[j - 1];
      } else {
        FirstBeforeTail(t, owner, j - 1);
        assert ids[i] == t[0].element && ids[j] == rest[j - 1];
      }
    } else {
      OwnedSkip(t, owner);
      OwnedInOrder(t[1..], owner, i, j);
      TailOrder(t, owner, i, j);
      assert ids == rest;
    }
  }

  /** Past an owned first entry, the ids at `i` and `j` are those at `i - 1`
      and `j - 1` in the rest of the table. */
  lemma HeadShift(t: Table, owner: SocketId, i: nat, j: nat)
    requires |t| > 0 && t[0].owner == owner && 0 < i < j < |OwnedIds(t, owner)|
    ensures OwnedIds(t, owner)[i] == OwnedIds(t[1..], owner)[i - 1]
    ensures OwnedIds(t, owner)[j] == OwnedIds(t[1..], owner)[j - 1]
  {
    OwnedHead(t, owner);
  }

  lemma OwnedHead(t: Table, owner: SocketId)
    requires |t| > 0 && t[0].owner == owner
    ensures OwnedIds(t, owner) == [t[0].element] + OwnedIds(t[1..], owner)
    ensures OwnedIds(t, owner)[0] == t[0].element
    ensures forall k :: 0 < k < |OwnedIds(t, owner)| ==> OwnedIds(t, owner)[k] == OwnedIds(t[1..], owner)[k - 1]
  {
  }

  lemma OwnedSkip(t: Table, owner: SocketId)
    requires |t| > 0 && t[0].owner != owner
    ensures OwnedIds(t, owner) == OwnedIds(t[1..], owner)
  {
  }

  /** The first entry comes before any id owned in the rest of the table. */
  lemma FirstBeforeTail(t: Table, owner: SocketId, k: nat)
    requires KeysDistinct(t) && |t| > 0 && k < |OwnedIds(t[1..], owner)|
    ensures Lookup(t, t[0].element).Some? && Lookup(t, OwnedIds(t[1..], owner)[k]).Some?
    ensures Position(t, t[0].element) < Position(t, OwnedIds(t[1..], owner)[k])
  {
    PositionInTail(t, owner, k);
  }

  /** Order among ids owned in the rest of the table carries over to the table. */
  lemma TailOrder(t: Table, owner: SocketId, i: nat, j: nat)
    requires KeysDistinct(t) && |t| > 0 && i < j < |OwnedIds(t[1..], owner)|
    requires Lookup(t[1..], OwnedIds(t[1..], owner)[i]).Some? && Lookup(t[1..], OwnedIds(t[1..], owner)[j]).Some?
    requires Position(t[1..], OwnedIds(t[1..], owner)[i]) < Position(t[1..], OwnedIds(t[1..], owner)[j])
    ensures Lookup(t, OwnedIds(t[1..], owner)[i]).Some? && Lookup(t, OwnedIds(t[1..], owner)[j]).Some?
    ensures Position(t, OwnedIds(t[1..], owner)[i]) < Position(t, OwnedIds(t[1..], owner)[j])
  {
    PositionInTail(t, owner, i);
    PositionInTail(t, owner, j);
  }

  /** The owners that appear in a table. */
  predicate OwnersWithin(t: Table, live: set<SocketId>) {
    forall i :: 0 <= i < |t| ==> t[i].owner in live
  }
}

=== FILE: mirror_props.dfy ===
/** How the client mirror and the coordinator fit together: what a client does
    optimistically agrees with what its peers do when the coordinator relays
    the same operation. */
module MirrorProps {
  import opened Base
  import opened Json
  import Text
  import opened LockTable
  import opened Session
  import opened RoomClient

  /** Applying messages one batch after another is applying them all. */
  lemma {:induction false} ApplyAllAppend(c: Client, a: seq<Msg>, b: seq<Msg>)
    ensures ApplyAll(c, a + b) == ApplyAll(ApplyAll(c, a), b)
    decreases |a|
  {
    if |a| > 0 {
      assert (a + b)[0] == a[0];
      assert (a + b)[1..] == a[1..] + b;
      ApplyAllAppend(Apply(c, a[0]), a[1..], b);
    } else {
      assert a + b == b;
    }
  }

  /** The creator's own copy of `element-created` changes nothing it does not
      already show: creation is idempotent. */
  lemma CreateEchoHarmless(s: State, sid: SocketId, c: Client, element: Props)
    requires Valid(s) && sid in s.conns && s.conns[sid].data.room != ""
    ensures var r := Step(s, AsEvent(sid, CreateLocal(c, element).1, true));
      && |r.out| == 1
      && sid in Recipients(r.state, r.out[0].target)
      && Apply(CreateLocal(c, element).0, r.out[0].msg) == CreateLocal(c, element).0
  {
    StepDispatch(s, AsEvent(sid, CreateLocal(c, element).1, true));
    assert Joined(s, sid);
  }

  /** An accepted update leaves the sender's optimistic copy and every peer's
      copy of the element equal, when they were equal before. */
  lemma UpdateConverges(s: State, sid: SocketId, mine: Client, peer: Client, e: ElementId, changes: Props)
    requires Valid(s) && sid in s.conns && s.conns[sid].data.room != "" && !LockedByOther(s, sid, e)
    requires Current(mine, e) == Current(peer, e)
    ensures var r := Step(s, AsEvent(sid, UpdateLocal(mine, e, changes).1, true));
      && |r.out| == 1
      && Apply(peer, r.out[0].msg).elements[e] == UpdateLocal(mine, e, changes).0.elements[e]
  {
    StepDispatch(s, AsEvent(sid, UpdateLocal(mine, e, changes).1, true));
  }

  /** An accepted delete removes the element from the sender's and every peer's copy. */
  lemma DeleteConverges(s: State, sid: SocketId, mine: Client, peer: Client, e: ElementId)
    requires Valid(s) && sid in s.conns && s.conns[sid].data.room != "" && !LockedByOther(s, sid, e)
    ensures var r := Step(s, AsEvent(sid, DeleteLocal(mine, e).1, true));
      && |r.out| == 1
      && e !in Apply(peer, r.out[0].msg).elements
      && e !in DeleteLocal(mine, e).0.elements
  {
    StepDispatch(s, AsEvent(sid, DeleteLocal(mine, e).1, true));
  }

  /** A granted lock shows up in every client that hears of it with the owner
      the coordinator recorded. */
  lemma LockMirrored(s: State, sid: SocketId, c: Client, e: ElementId)
    requires Valid(s) && sid in s.conns && s.conns[sid].data.room != "" && Lookup(s.locks, e).None?
    ensures var r := Step(s, RequestLock(sid, e));
      && Lookup(r.state.locks, e) == Some(sid)
      && e in Apply(c, r.out[0].msg).locks
      && Apply(c, r.out[0].msg).locks[e].userId == Lookup(r.state.locks, e).value
  {
    StepDispatch(s, RequestLock(sid, e));
  }

  /** A refused request leaves every client's lock map as it was. */
  lemma RefusalInvisible(s: State, sid: SocketId, c: Client, e: ElementId)
    requires Valid(s) && sid in s.conns && s.conns[sid].data.room != "" && Lookup(s.locks, e).Some?
    ensures var r := Step(s, RequestLock(sid, e));
      ApplyAll(c, seq(|r.out|, i requires 0 <= i < |r.out| => r.out[i].msg)) == c
  {
    StepDispatch(s, RequestLock(sid, e));
  }

  /** An owner's release clears the lock at the coordinator and in every peer. */
  lemma ReleaseMirrored(s: State, sid: SocketId, c: Client, e: ElementId)
    requires Valid(s) && sid in s.conns && s.conns[sid].data.room != "" && Lookup(s.locks, e) == Some(sid)
    ensures var r := Step(s, ReleaseLock(sid, e));
      && Lookup(r.state.locks, e).None?
      && |r.out| == 1
      && e !in Apply(c, r.out[0].msg).locks
  {
    StepDispatch(s, ReleaseLock(sid, e));
  }

  /** A joiner's `existing-users` lists the joiner itself, so its own users map
      contains its socket id alongside everyone already present. */
  lemma JoinerSeesItself(s: State, sid: SocketId, d: DocId, user: Props, c: Client)
    requires KeysDistinct(s.locks) && sid in s.conns && Find(Members(s, d), sid).None?
    ensures var r := Step(s, JoinRoom(sid, d, Some(user)));
      && r.out[0].msg.ExistingUsers?
      && sid in Apply(c, r.out[0].msg).users
      && forall p :: p in Members(s, d) ==> p.sid in Apply(c, r.out[0].msg).users
  {
    StepDispatch(s, JoinRoom(sid, d, Some(user)));
    var r := Join(s, sid, d, Some(user));
    var users := r.out[0].msg.users;
    assert Apply(c, r.out[0].msg) == OnExistingUsers(c, users);
    StampedListKeys(c, Members(s, d), sid, user, users);
  }

  /** The users map built from the stamped presence list and the joiner holds
      every listed socket id and the joiner's. */
  lemma StampedListKeys(c: Client, list: seq<Presence>, sid: SocketId, user: Props, users: seq<Props>)
    requires |users| == |list| + 1
    requires users[..|list|] == StampAll(list) && users[|list|..] == [Stamped(Presence(sid, Some(user)))]
    ensures sid in OnExistingUsers(c, users).users
    ensures forall p :: p in list ==> p.sid in OnExistingUsers(c, users).users
  {
    assert users[|list|] == users[|list|..][0];
    assert IdKey(users[|list|]) == sid;
    forall p | p in list ensures p.sid in OnExistingUsers(c, users).users {
      var i :| 0 <= i < |list| && list[i] == p;
      assert users[i] == users[..|list|][i] == StampAll(list)[i];
      assert IdKey(users[i]) == p.sid;
    }
  }

  /** A chat message the hook sends reaches the whole room of the document it
      names, whether or not the sender joined that room. */
  lemma ChatRouted(s: State, sid: SocketId, content: string, myUser: Props, d: DocId, stamp: int, idStamp: int, persisted: bool)
    requires Valid(s) && sid in s.conns && d != "" && !Text.Blank(content)
    ensures var o := SendChatMessage(true, content, Some(myUser), d, stamp, idStamp);
      && o.Some?
      && Step(s, AsEvent(sid, o.value, persisted)).out ==
         [Emission(RoomAll(d), ReceiveMessage(ChatPayload(content, myUser, d, stamp, idStamp)))]
  {
    var m := ChatPayload(content, myUser, d, stamp, idStamp);
    var o := SendChatMessage(true, content, Some(myUser), d, stamp, idStamp);
    assert o == Some(SendChat(m));
    assert AsEvent(sid, o.value, persisted) == SendMessage(sid, Some(m));
    assert TruthyField(m, "documentId") && MessageRoom(m) == d;
    StepDispatch(s, SendMessage(sid, Some(m)));
  }

  /** `Step` on an event of a live socket is that event's handler. */
  lemma StepDispatch(s: State, ev: Event)
    requires KeysDistinct(s.locks) && ev.sid in s.conns
    ensures ev.JoinRoom? ==> Step(s, ev) == Join(s, ev.sid, ev.documentId, ev.user)
    ensures ev.CreateElement? ==> Step(s, ev) == Create(s, ev.sid, ev.element, ev.persisted)
    ensures ev.RequestLock? ==> Step(s, ev) == Request(s, ev.sid, ev.elementId)
    ensures ev.UpdateElement? ==> Step(s, ev) == Update(s, ev.sid, ev.elementId, ev.changes, ev.persisted)
    ensures ev.DeleteElement? ==> Step(s, ev) == Remove(s, ev.sid, ev.elementId, ev.persisted)
    ensures ev.ReleaseLock? ==> Step(s, ev) == Release(s, ev.sid, ev.elementId)
    ensures ev.SendMessage? ==> Step(s, ev) == Chat(s, ev.sid, ev.message)
  {
  }
}

=== FILE: rgba.dfy ===
/** `hexToRgba` in Whiteboard.jsx: a CSS hex colour and an opacity turned into
    an `rgba(...)` string. The hex text goes through `parseInt(..., 16)` and the
    channels are cut out of its 32-bit form with shifts and masks. The opacity
    is carried as the text it renders to. */
module Rgba {
  import opened Base
  import opened Text
  import opened Int32

  datatype Channels = Channels(r: int, g: int, b: int)

  /** `hex.replace("#", "")`: only the first `#` goes. */
  function RemoveFirstHash(s: string): (r: string)
    ensures '#' !in s ==> r == s
    ensures |s| > 0 && s[0] == '#' ==> r == s[1..]
    decreases |s|
  {
    if |s| == 0 then s
    else if s[0] == '#' then s[1..]
    else [s[0]] + RemoveFirstHash(s[1..])
  }

  /** `h.split("").map((c) => c + c).join("")`: every code unit twice. */
  function DoubleUnits(u: seq<int>): (r: seq<int>)
    ensures |r| == 2 * |u|
    ensures forall i :: 0 <= i < |u| ==> r[2 * i] == u[i] && r[2 * i + 1] == u[i]
    decreases |u|
  {
    if |u| == 0 then [] else [u[0], u[0]] + DoubleUnits(u[1..])
  }

  /** The units `parseInt` reads: the hex without its first `#`, a three-unit
      short form written out in full. */
  function Normalized(hex: string): seq<int> {
    var u := Utf16(RemoveFirstHash(hex));
    if |u| == 3 then DoubleUnits(u) else u
  }

  /** `parseInt(normalized, 16)`, NaN converting to 0 when shifted. */
  function ParsedValue(hex: string): int {
    ParseIntHex(Normalized(hex)).GetOr(0)
  }

  /** `(v >> 16) & 255`, `(v >> 8) & 255`, `v & 255`: bytes 2, 1 and 0 of the
      32-bit form of `v`. */
  function ChannelsOfValue(v: int): (c: Channels)
    ensures 0 <= c.r < 256 && 0 <= c.g < 256 && 0 <= c.b < 256
    ensures c == Channels(Byte(v, 2), Byte(v, 1), Byte(v, 0))
  {
    ByteOfShift(v, 2);
    ByteOfShift(v, 1);
    ByteOfShift(v, 0);
    assert ShiftRight(v, 0) == ToInt32(v);
    Channels(LowByte(ShiftRight(v, 16)), LowByte(ShiftRight(v, 8)), LowByte(v))
  }

  function ChannelsOf(hex: string): Channels {
    ChannelsOfValue(ParsedValue(hex))
  }

  function Render(c: Channels, alpha: string): string {
    "rgba(" + IntToDecimal(c.r) + "," + IntToDecimal(c.g) + "," + IntToDecimal(c.b) + "," + alpha + ")"
  }

  /** An absent or empty hex gives opaque-black channels with the given alpha. */
  function HexToRgba(hex: Option<string>, alpha: string): (s: string)
    ensures hex.None? || hex.value == "" ==> s == Render(Channels(0, 0, 0), alpha)
    ensures hex.Some? && hex.value != "" ==> s == Render(ChannelsOf(hex.value), alpha)
  {
    if hex.None? || hex.value == "" then "rgba(0,0,0," + alpha + ")"
    else Render(ChannelsOf(hex.value), alpha)
  }

  /** The full `#rrggbb` form of three bytes, as `stringToColor` writes it. */
  function HexColor(r: nat, g: nat, b: nat): (s: string)
    requires r < 256 && g < 256 && b < 256
    ensures |s| == 7 && s[0] == '#' && AllLowerHex(s[1..])
  {
    var s := "#" + HexByte(r) + HexByte(g) + HexByte(b);
    assert s[1..] == HexByte(r) + HexByte(g) + HexByte(b);
    s
  }

  lemma ColorDigits(r: nat, g: nat, b: nat)
    requires r < 256 && g < 256 && b < 256
    ensures var d := HexColor(r, g, b)[1..];
      AllHex(d) && HexValue(d) == r * 65536 + g * 256 + b
  {
    var d := HexColor(r, g, b)[1..];
    assert d == (HexByte(r) + HexByte(g)) + HexByte(b);
    HexByteValue(r);
    HexByteValue(g);
    HexByteValue(b);
    HexValueAppend(HexByte(r), HexByte(g));
    HexValueAppend(HexByte(r) + HexByte(g), HexByte(b));
    assert Pow16(2) == 256 && Pow16(4) == 65536;
  }

  /** Six hexadecimal digits after a `#` parse to the number they denote. */
  lemma ParsedSixDigits(d: string)
    requires |d| == 6 && AllHex(d)
    ensures ParsedValue("#" + d) == HexValue(d)
  {
    assert RemoveFirstHash("#" + d) == d;
    HexUnitsOfHex(d);
    Utf16OfBmp(d);
    ParseIntHexOfDigits(Utf16(d));
  }

  /** Parsing a colour written from three bytes gives the bytes back. */
  lemma ChannelsRoundTrip(r: nat, g: nat, b: nat)
    requires r < 256 && g < 256 && b < 256
    ensures ChannelsOf(HexColor(r, g, b)) == Channels(r, g, b)
  {
    var d := HexColor(r, g, b)[1..];
    assert HexColor(r, g, b) == "#" + d;
    ColorDigits(r, g, b);
    ParsedSixDigits(d);
    ChannelsOfSmall("#" + d, r, g, b);
  }

  /** A parsed value below 2^24 splits into its base-256 digits. */
  lemma ChannelsOfSmall(hex: string, a: int, b: int, c: int)
    requires 0 <= a < 256 && 0 <= b < 256 && 0 <= c < 256
    requires ParsedValue(hex) == a * 65536 + b * 256 + c
    ensures ChannelsOf(hex) == Channels(a, b, c)
  {
    ChannelsOfValueSmall(ParsedValue(hex), a, b, c);
  }

  lemma ChannelsOfValueSmall(v: int, a: int, b: int, c: int)
    requires 0 <= a < 256 && 0 <= b < 256 && 0 <= c < 256
    requires v == a * 65536 + b * 256 + c
    ensures ChannelsOfValue(v) == Channels(a, b, c)
  {
    BytesOfSmall(a, b, c);
  }

  /** The byte two hexadecimal digits denote, the first the high one. */
  function PairValue(hi: char, lo: char): (v: nat)
    requires IsHexDigit(hi) && IsHexDigit(lo)
    ensures v < 256
  {
    HexDigitValue(hi) * 16 + HexDigitValue(lo)
  }

  /** Each pair of a six-digit colour is one channel, red first. */
  lemma SixDigitChannels(d: string)
    requires |d| == 6 && AllHex(d)
    ensures ChannelsOf("#" + d) == Channels(PairValue(d[0], d[1]), PairValue(d[2], d[3]), PairValue(d[4], d[5]))
  {
    SixDigitValue(d);
    ParsedSixDigits(d);
    ChannelsOfSmall("#" + d, PairValue(d[0], d[1]), PairValue(d[2], d[3]), PairValue(d[4], d[5]));
  }

  lemma SixDigitValue(d: string)
    requires |d| == 6 && AllHex(d)
    ensures HexValue(d) == PairValue(d[0], d[1]) * 65536 + PairValue(d[2], d[3]) * 256 + PairValue(d[4], d[5])
  {
    var a, b, c := d[..2], d[2..4], d[4..];
    assert d == (a + b) + c;
    TwoDigitValue(a);
    TwoDigitValue(b);
    TwoDigitValue(c);
    assert Pow16(2) == 256;
    HexValueAppend(a, b);
    HexValueAppend(a + b, c);
    Horner(HexValue(a), HexValue(b), HexValue(c));
  }

  lemma Horner(a: int, b: int, c: int)
    ensures (a * 256 + b) * 256 + c == a * 65536 + b * 256 + c
  {
  }

  lemma TwoDigitValue(s: string)
    requires |s| == 2 && AllHex(s)
    ensures HexValue(s) == PairValue(s[0], s[1])
  {
    HexValueSnoc(s);
    HexValueSnoc(s[..1]);
    assert s[..1][..0] == [];
  }

  /** A three-digit short form means the same as each digit written twice. */
  lemma ShortFormExpands(a: char, b: char, c: char)
    requires (a as int) < 0x1_0000 && (b as int) < 0x1_0000 && (c as int) < 0x1_0000
    ensures ChannelsOf(['#', a, b, c]) == ChannelsOf(['#', a, a, b, b, c, c])
  {
    var short := [a, b, c];
    var long := [a, a, b, b, c, c];
    assert ['#', a, b, c][1..] == short;
    assert ['#', a, a, b, b, c, c][1..] == long;
    Utf16OfBmp(short);
    Utf16OfBmp(long);
    assert DoubleUnits(Utf16(short)) == Utf16(long);
  }
}

=== FILE: room_client.dfy ===
/** The client's mirror of a room (the `useRoom` hook): id-keyed maps of
    elements, locks, users and cursors plus the chat log, each server message
    a pure update of one of them, and the emitters that update the mirror
    optimistically and say what goes to the server. */
module RoomClient {
  import opened Base
  import opened Json
  import Text
  import opened LockTable
  import opened Session

  /** What `cursor-update` records per user. */
  datatype CursorInfo = CursorInfo(position: Point, name: Option<Value>)

  datatype Client = Client(
    elements: map<string, Props>,
    locks: map<ElementId, LockInfo>,
    users: map<string, Props>,
    cursors: map<string, CursorInfo>,
    messages: seq<Props>)

  function Empty(): Client {
    Client(map[], map[], map[], map[], [])
  }

  // ---------------------------------------------------------------- elements

  /** 'element-created' and the local `createElement`: insert or overwrite the
      entry keyed by the element's id. */
  function OnElementCreated(c: Client, element: Props): (r: Client)
    ensures r.elements.Keys == c.elements.Keys + {IdKey(element)}
    ensures r.elements[IdKey(element)] == element
    ensures forall k :: k in c.elements && k != IdKey(element) ==> r.elements[k] == c.elements[k]
    ensures r.(elements := c.elements) == c
  {
    c.(elements := c.elements[IdKey(element) := element])
  }

  /** `prev[id] || {}` */
  function Current(c: Client, id: string): Props {
    if id in c.elements then c.elements[id] else map[]
  }

  /** 'element-updated' and the local `updateElement`: the changes merged over
      the stored element, a missing one counting as empty. */
  function OnElementUpdated(c: Client, id: string, changes: Props): (r: Client)
    ensures r.elements.Keys == c.elements.Keys + {id}
    ensures forall f :: Get(r.elements[id], f) == (if f in changes then Some(changes[f]) else Get(Current(c, id), f))
    ensures forall k :: k in c.elements && k != id ==> r.elements[k] == c.elements[k]
    ensures r.(elements := c.elements) == c
  {
    c.(elements := c.elements[id := Merge(Current(c, id), changes)])
  }

  /** 'element-deleted' and the local `deleteElement`: only that id goes. */
  function OnElementDeleted(c: Client, id: string): (r: Client)
    ensures r.elements.Keys == c.elements.Keys - {id}
    ensures forall k :: k in r.elements ==> r.elements[k] == c.elements[k]
    ensures r.(elements := c.elements) == c
  {
    c.(elements := c.elements - {id})
  }

  // ---------------------------------------------------------------- locks

  /** 'lock-acquired' */
  function OnLockAcquired(c: Client, id: ElementId, userId: SocketId, userName: Option<Value>): (r: Client)
    ensures r.locks.Keys == c.locks.Keys + {id}
    ensures r.locks[id] == LockInfo(userId, userName)
    ensures forall k :: k in c.locks && k != id ==> r.locks[k] == c.locks[k]
    ensures r.(locks := c.locks) == c
  {
    c.(locks := c.locks[id := LockInfo(userId, userName)])
  }

  /** 'lock-released' */
  function OnLockReleased(c: Client, id: ElementId): (r: Client)
    ensures r.locks.Keys == c.locks.Keys - {id}
    ensures forall k :: k in r.locks ==> r.locks[k] == c.locks[k]
    ensures r.(locks := c.locks) == c
  {
    c.(locks := c.locks - {id})
  }

  /** 'current-locks': the payload replaces the whole map; a null payload empties it. */
  function OnCurrentLocks(c: Client, payload: Option<map<ElementId, LockInfo>>): (r: Client)
    ensures payload.None? ==> |r.locks| == 0
    ensures payload.Some? ==> r.locks == payload.value
    ensures r.(locks := c.locks) == c
  {
    c.(locks := payload.GetOr(map[]))
  }

  // ---------------------------------------------------------------- users and cursors

  /** The users map `existing-users` builds: each record under its id, a later
      record with the same id replacing an earlier one. */
  function UsersById(list: seq<Props>): (r: map<string, Props>)
    ensures forall k :: k in r <==> exists i :: 0 <= i < |list| && IdKey(list[i]) == k
    ensures forall i :: 0 <= i < |list| && (forall j :: i < j < |list| ==> IdKey(list[j]) != IdKey(list[i])) ==>
      r[IdKey(list[i])] == list[i]
    decreases |list|
  {
    if |list| == 0 then map[]
    else
      var init := list[..|list| - 1];
      var last := list[|list| - 1];
      var m := UsersById(init);
      UsersSnocKeys(list, init, m);
      UsersSnocLatest(list, init, m);
      m[IdKey(last) := last]
  }

  lemma UsersSnocKeys(list: seq<Props>, init: seq<Props>, m: map<string, Props>)
    requires |list| > 0 && init == list[..|list| - 1]
    requires forall k :: k in m <==> exists i :: 0 <= i < |init| && IdKey(init[i]) == k
    ensures var r := m[IdKey(list[|list| - 1]) := list[|list| - 1]];
      forall k :: k in r <==> exists i :: 0 <= i < |list| && IdKey(list[i]) == k
  {
    var last := list[|list| - 1];
    var r := m[IdKey(last) := last];
    forall k ensures k in r <==> exists i :: 0 <= i < |list| && IdKey(list[i]) == k {
      if k in m && k != IdKey(last) {
        var i :| 0 <= i < |init| && IdKey(init[i]) == k;
        assert IdKey(list[i]) == k;
      }
    }
  }

  lemma UsersSnocLatest(list: seq<Props>, init: seq<Props>, m: map<string, Props>)
    requires |list| > 0 && init == list[..|list| - 1]
    requires forall k :: k in m <==> exists i :: 0 <= i < |init| && IdKey(init[i]) == k
    requires forall i :: 0 <= i < |init| && (forall j :: i < j < |init| ==> IdKey(init[j]) != IdKey(init[i])) ==>
      m[IdKey(init[i])] == init[i]
    ensures var r := m[IdKey(list[|list| - 1]) := list[|list| - 1]];
      forall i :: 0 <= i < |list| && (forall j :: i < j < |list| ==> IdKey(list[j]) != IdKey(list[i])) ==>
        r[IdKey(list[i])] == list[i]
  {
    var last := list[|list| - 1];
    var r := m[IdKey(last) := last];
    forall i | 0 <= i < |list| && (forall j :: i < j < |list| ==> IdKey(list[j]) != IdKey(list[i]))
      ensures r[IdKey(list[i])] == list[i]
    {
      if i < |list| - 1 {
        assert IdKey(last) != IdKey(list[i]);
        assert forall j :: i < j < |init| ==> IdKey(init[j]) != IdKey(init[i]);
      }
    }
  }

  /** 'existing-users': the users map is rebuilt from the list. */
  function OnExistingUsers(c: Client, list: seq<Props>): (r: Client)
    ensures forall k :: k in r.users <==> exists i :: 0 <= i < |list| && IdKey(list[i]) == k
    ensures r.(users := c.users) == c
  {
    c.(users := UsersById(list))
  }

  /** 'user-joined' */
  function OnUserJoined(c: Client, user: Props): (r: Client)
    ensures r.users.Keys == c.users.Keys + {IdKey(user)} && r.users[IdKey(user)] == user
    ensures forall k :: k in c.users && k != IdKey(user) ==> r.users[k] == c.users[k]
    ensures r.(users := c.users) == c
  {
    c.(users := c.users[IdKey(user) := user])
  }

  /** 'user-left': the id leaves both the users and the cursors. */
  function OnUserLeft(c: Client, userId: string): (r: Client)
    ensures r.users.Keys == c.users.Keys - {userId}
    ensures r.cursors.Keys == c.cursors.Keys - {userId}
    ensures forall k :: k in r.users ==> r.users[k] == c.users[k]
    ensures forall k :: k in r.cursors ==> r.cursors[k] == c.cursors[k]
    ensures r.(users := c.users, cursors := c.cursors) == c
  {
    c.(users := c.users - {userId}, cursors := c.cursors - {userId})
  }

  /** 'cursor-update' */
  function OnCursorUpdate(c: Client, userId: string, position: Point, name: Option<Value>): (r: Client)
    ensures r.cursors.Keys == c.cursors.Keys + {userId}
    ensures r.cursors[userId] == CursorInfo(position, name)
    ensures forall k :: k in c.cursors && k != userId ==> r.cursors[k] == c.cursors[k]
    ensures r.(cursors := c.cursors) == c
  {
    c.(cursors := c.cursors[userId := CursorInfo(position, name)])
  }

  /** 'receive_message': appended, so the log keeps arrival order. */
  function OnReceiveMessage(c: Client, m: Props): (r: Client)
    ensures |r.messages| == |c.messages| + 1
    ensures r.messages[..|c.messages|] == c.messages && r.messages[|c.messages|] == m
    ensures r.(messages := c.messages) == c
  {
    c.(messages := c.messages + [m])
  }

  /** One server message, as the hook's listeners handle it; `lock-failed` is only logged. */
  function Apply(c: Client, msg: Msg): (r: Client)
    ensures msg.LockFailed? ==> r == c
  {
    match msg
    case ExistingUsers(users) => OnExistingUsers(c, users)
    case UserJoined(user) => OnUserJoined(c, user)
    case CurrentLocks(locks) => OnCurrentLocks(c, Some(locks))
    case CursorUpdate(userId, name, position) => OnCursorUpdate(c, userId, position, name)
    case ElementCreated(element) => OnElementCreated(c, element)
    case LockAcquired(e, userId, userName) => OnLockAcquired(c, e, userId, userName)
    case LockFailed(_, _, _) => c
    case ElementUpdated(e, changes) => OnElementUpdated(c, e, changes)
    case ElementDeleted(e) => OnElementDeleted(c, e)
    case LockReleased(e) => OnLockReleased(c, e)
    case ReceiveMessage(m) => OnReceiveMessage(c, m)
    case UserLeft(userId) => OnUserLeft(c, userId)
  }

  /** The messages a client receives, applied in order. */
  function ApplyAll(c: Client, msgs: seq<Msg>): (r: Client)
    ensures (forall i :: 0 <= i < |msgs| ==> msgs[i].LockFailed?) ==> r == c
    decreases |msgs|
  {
    if |msgs| == 0 then c else ApplyAll(Apply(c, msgs[0]), msgs[1..])
  }

  // ---------------------------------------------------------------- emitters

  /** What the hook sends to the server. */
  datatype Outgoing =
    | SendCreate(element: Props)
    | SendUpdate(elementId: ElementId, changes: Props)
    | SendDelete(elementId: ElementId)
    | SendRequestLock(elementId: ElementId)
    | SendReleaseLock(elementId: ElementId)
    | SendChat(message: Props)

  /** The server event an outgoing message becomes for socket `sid`, with the
      outcome of the write the server performs. */
  function AsEvent(sid: SocketId, o: Outgoing, persisted: bool): (ev: Event)
    ensures ev.sid == sid
    ensures o.SendCreate? <==> ev.CreateElement?
    ensures o.SendUpdate? <==> ev.UpdateElement?
    ensures o.SendDelete? <==> ev.DeleteElement?
    ensures o.SendRequestLock? <==> ev.RequestLock?
    ensures o.SendReleaseLock? <==> ev.ReleaseLock?
    ensures o.SendChat? <==> ev.SendMessage?
    ensures o.SendCreate? ==> ev.element == o.element && ev.persisted == persisted
    ensures (o.SendUpdate? || o.SendDelete? || o.SendRequestLock? || o.SendReleaseLock?) ==> ev.elementId == o.elementId
    ensures o.SendUpdate? ==> ev.changes == o.changes && ev.persisted == persisted
    ensures o.SendDelete? ==> ev.persisted == persisted
    ensures o.SendChat? ==> ev.message == Some(o.message)
  {
    match o
    case SendCreate(el) => CreateElement(sid, el, persisted)
    case SendUpdate(e, ch) => UpdateElement(sid, e, ch, persisted)
    case SendDelete(e) => DeleteElement(sid, e, persisted)
    case SendRequestLock(e) => RequestLock(sid, e)
    case SendReleaseLock(e) => ReleaseLock(sid, e)
    case SendChat(m) => SendMessage(sid, Some(m))
  }

  /** `createElement`: the element appears locally at once and goes to the server. */
  function CreateLocal(c: Client, element: Props): (r: (Client, Outgoing))
    ensures r.0.elements.Keys == c.elements.Keys + {IdKey(element)}
    ensures r.0.elements[IdKey(element)] == element
    ensures r.1 == SendCreate(element)
  {
    (OnElementCreated(c, element), SendCreate(element))
  }

  /** `updateElement`: the local merge, and the changes sent unmodified. */
  function UpdateLocal(c: Client, id: ElementId, changes: Props): (r: (Client, Outgoing))
    ensures id in r.0.elements
    ensures forall f :: Get(r.0.elements[id], f) == (if f in changes then Some(changes[f]) else Get(Current(c, id), f))
    ensures r.1 == SendUpdate(id, changes)
  {
    (OnElementUpdated(c, id, changes), SendUpdate(id, changes))
  }

  /** `deleteElement` */
  function DeleteLocal(c: Client, id: ElementId): (r: (Client, Outgoing))
    ensures r.0.elements.Keys == c.elements.Keys - {id}
    ensures r.1 == SendDelete(id)
  {
    (OnElementDeleted(c, id), SendDelete(id))
  }

  /** `sendMessage`: sent only with a socket, a user and content that is not
      blank; the payload keeps the content untrimmed. `Date.now()` is read
      twice: `stamp` for the timestamp, then `idStamp` for the id. A user without a name gives a payload without
      `userName`, as an undefined property does not survive serialisation. */
  function ChatPayload(content: string, user: Props, documentId: DocId, stamp: int, idStamp: int): (m: Props)
    ensures m.Keys == {"documentId", "content", "timestamp", "id"} + (if "name" in user then {"userName"} else {})
    ensures m["documentId"] == Str(documentId) && m["content"] == Str(content) && m["timestamp"] == Num(stamp)
    ensures m["id"].Str? && |m["id"].s| > 4 && m["id"].s[..4] == "msg-" && Text.ParseInteger(m["id"].s[4..]) == Some(idStamp)
    ensures "name" in user ==> m["userName"] == user["name"]
  {
    Text.IntegerRoundTrip(idStamp);
    assert ("msg-" + Text.IntToDecimal(idStamp))[4..] == Text.IntToDecimal(idStamp);
    var base := map["documentId" := Str(documentId), "content" := Str(content),
                    "timestamp" := Num(stamp), "id" := Str("msg-" + Text.IntToDecimal(idStamp))];
    if "name" in user then base["userName" := user["name"]] else base
  }

  function SendChatMessage(hasSocket: bool, content: string, myUser: Option<Props>, documentId: DocId, stamp: int, idStamp: int)
    : (r: Option<Outgoing>)
    ensures r.Some? <==> hasSocket && myUser.Some? && !Text.Blank(content)
    ensures r.Some? ==> r.value == SendChat(ChatPayload(content, myUser.value, documentId, stamp, idStamp))
  {
    Text.TrimEmptyIffBlank(content);
    if hasSocket && Text.Trim(content) != "" && myUser.Some? then
      Some(SendChat(ChatPayload(content, myUser.value, documentId, stamp, idStamp)))
    else None
  }
}

=== FILE: session.dfy ===
/** The realtime session coordinator (`handleSocket` in socketHandler.js) as one
    event-driven state machine. Each socket event is a step from a state to a new
    state plus the messages emitted, each addressed to the sender alone, to the
    sender's room without the sender, or to the whole room.

    The state is the lock table (`activeLocks`), the presence lists
    (`usersInRooms`), and for every live socket its `socket.data` and the
    transport rooms it has joined. Document persistence is an abstract call:
    the events that persist carry its outcome, and a failed write emits nothing. */
module Session {
  import opened Base
  import opened Json
  import opened LockTable

  type DocId = string

  /** `socket.data`: the joined room ("" while nothing truthy was joined) and the user payload. */
  datatype SocketData = SocketData(room: DocId, user: Option<Props>)

  /** A live socket: its data and the transport rooms it is a member of. */
  datatype Conn = Conn(data: SocketData, rooms: set<DocId>)

  /** An entry of `usersInRooms[documentId]`: a join payload stamped with the socket id. */
  datatype Presence = Presence(sid: SocketId, user: Option<Props>)

  datatype State = State(
    conns: map<SocketId, Conn>,
    locks: Table,
    presence: map<DocId, seq<Presence>>)

  /** What `current-locks`, `lock-acquired` and the client lock map record per element. */
  datatype LockInfo = LockInfo(userId: SocketId, userName: Option<Value>)

  datatype Msg =
    | ExistingUsers(users: seq<Props>)
    | UserJoined(user: Props)
    | CurrentLocks(locks: map<ElementId, LockInfo>)
    | CursorUpdate(userId: SocketId, name: Option<Value>, position: Point)
    | ElementCreated(element: Props)
    | LockAcquired(elementId: ElementId, userId: SocketId, userName: Option<Value>)
    | LockFailed(elementId: ElementId, lockedBy: SocketId, lockedByName: Option<Value>)
    | ElementUpdated(elementId: ElementId, changes: Props)
    | ElementDeleted(elementId: ElementId)
    | LockReleased(elementId: ElementId)
    | ReceiveMessage(message: Props)
    | UserLeft(userId: SocketId)

  /** `socket.emit` / `socket.to(room).emit` / `io.in(room).emit`. */
  datatype Target =
    | ToSocket(sid: SocketId)
    | RoomOthers(room: DocId, except: SocketId)
    | RoomAll(room: DocId)

  datatype Emission = Emission(target: Target, msg: Msg)

  /** The socket events; `persisted` is the outcome of the document write the handler awaits. */
  datatype Event =
    | Connect(sid: SocketId)
    | JoinRoom(sid: SocketId, documentId: DocId, user: Option<Props>)
    | CursorMove(sid: SocketId, position: Point)
    | CreateElement(sid: SocketId, element: Props, persisted: bool)
    | RequestLock(sid: SocketId, elementId: ElementId)
    | UpdateElement(sid: SocketId, elementId: ElementId, changes: Props, persisted: bool)
    | DeleteElement(sid: SocketId, elementId: ElementId, persisted: bool)
    | ReleaseLock(sid: SocketId, elementId: ElementId)
    | SendMessage(sid: SocketId, message: Option<Props>)
    | Disconnect(sid: SocketId)

  datatype Outcome = Outcome(state: State, out: seq<Emission>)

  function Initial(): State {
    State(map[], [], map[])
  }

  // ---------------------------------------------------------------- presence

  /** `{ ...user, id: socket.id }` */
  function Stamped(p: Presence): Props {
    p.user.GetOr(map[])["id" := Str(p.sid)]
  }

  function StampAll(ps: seq<Presence>): (r: seq<Props>)
    ensures |r| == |ps| && forall i :: 0 <= i < |ps| ==> r[i] == Stamped(ps[i])
  {
    seq(|ps|, i requires 0 <= i < |ps| => Stamped(ps[i]))
  }

  /** `ownerInfo.name` */
  function NameOf(p: Presence): Option<Value> {
    Get(Stamped(p), "name")
  }

  /** `list.find(u => u.id === sid)` */
  function Find(list: seq<Presence>, sid: SocketId): (r: Option<Presence>)
    ensures r.None? <==> forall i :: 0 <= i < |list| ==> list[i].sid != sid
    ensures r.Some? ==> r.value in list && r.value.sid == sid
    decreases |list|
  {
    if |list| == 0 then None
    else if list[0].sid == sid then Some(list[0])
    else
      var r := Find(list[1..], sid);
      assert r.None? ==> forall i :: 0 <= i < |list| ==> list[i].sid != sid by {
        if r.None? {
          forall i | 0 <= i < |list| ensures list[i].sid != sid {
            if i > 0 { assert list[i] == list[1..][i - 1]; }
          }
        }
      }
      r
  }

  /** `list.filter(u => u.id !== sid)` */
  function Without(list: seq<Presence>, sid: SocketId): (r: seq<Presence>)
    ensures forall p :: p in r <==> p in list && p.sid != sid
    ensures |r| <= |list|
    ensures SidsDistinct(list) ==> SidsDistinct(r)
    decreases |list|
  {
    if |list| == 0 then []
    else
      var rest := Without(list[1..], sid);
      if list[0].sid == sid then rest
      else
        var r := [list[0]] + rest;
        assert SidsDistinct(list) ==> SidsDistinct(r) by {
          if SidsDistinct(list) {
            PresenceConsDistinct(list, rest);
          }
        }
        r
  }

  /** The first presence can stay in front of a distinct sublist of the others. */
  lemma PresenceConsDistinct(list: seq<Presence>, rest: seq<Presence>)
    requires |list| > 0 && SidsDistinct(list) && SidsDistinct(rest)
    requires forall p :: p in rest ==> p in list[1..]
    ensures SidsDistinct([list[0]] + rest)
  {
    var r := [list[0]] + rest;
    forall i, j | 0 <= i < j < |r| ensures r[i].sid != r[j].sid {
      assert r[j] == rest[j - 1];
      if i > 0 {
        assert r[i] == rest[i - 1];
      } else {
        assert r[j] in list[1..];
        var k :| 0 <= k < |list[1..]| && list[1..][k] == r[j];
        assert list[k + 1] == r[j];
      }
    }
  }

  /** `usersInRooms[room] || []` */
  function Members(s: State, room: DocId): seq<Presence> {
    if room in s.presence then s.presence[room] else []
  }

  /** No socket is listed twice in one room. */
  predicate SidsDistinct(list: seq<Presence>) {
    forall i, j :: 0 <= i < j < |list| ==> list[i].sid != list[j].sid
  }

  const Unknown: Option<Value> := Some(Str("Unknown User"))

  /** `info ? info.name : 'Unknown User'` */
  function NameOrUnknown(list: seq<Presence>, sid: SocketId): Option<Value> {
    match Find(list, sid)
    case Some(p) => NameOf(p)
    case None => Unknown
  }

  /** The `current-locks` payload: every lock whose owner is listed in the room,
      with the owner's name. */
  function RoomLocks(t: Table, list: seq<Presence>): (r: map<ElementId, LockInfo>)
    requires KeysDistinct(t)
    ensures forall e :: e in r <==> Lookup(t, e).Some? && Find(list, Lookup(t, e).value).Some?
    ensures forall e :: e in r ==>
      r[e] == LockInfo(Lookup(t, e).value, NameOf(Find(list, Lookup(t, e).value).value))
    decreases |t|
  {
    if |t| == 0 then map[]
    else
      var x := t[0];
      assert KeysDistinct(t[1..]);
      var m := RoomLocks(t[1..], list);
      assert Lookup(t[1..], x.element).None?;
      match Find(list, x.owner)
      case Some(p) => m[x.element := LockInfo(x.owner, NameOf(p))]
      case None => m
  }

  // ---------------------------------------------------------------- invariant

  /** A socket whose `socket.data.room` is truthy is in that transport room and
      listed in that room's presence. */
  predicate Joined(s: State, sid: SocketId)
    requires sid in s.conns
  {
    var room := s.conns[sid].data.room;
    room in s.conns[sid].rooms && room in s.presence && Find(s.presence[room], sid).Some?
  }

  /** The coordinator's invariant: the lock table is a map (so each element has
      at most one owner), every owner is a live socket, joined sockets are
      listed, and nobody is listed twice in one room. */
  predicate Valid(s: State) {
    && KeysDistinct(s.locks)
    && OwnersWithin(s.locks, s.conns.Keys)
    && (forall sid :: sid in s.conns && s.conns[sid].data.room != "" ==> Joined(s, sid))
    && (forall d :: d in s.presence ==> SidsDistinct(s.presence[d]))
  }

  lemma InitialValid()
    ensures Valid(Initial())
  {
  }

  // ---------------------------------------------------------------- addressing

  /** The live sockets an emission reaches. */
  function Recipients(s: State, t: Target): set<SocketId> {
    match t
    case ToSocket(sid) => if sid in s.conns then {sid} else {}
    case RoomOthers(room, except) =>
      set sid | sid in s.conns && room in s.conns[sid].rooms && sid != except
    case RoomAll(room) => set sid | sid in s.conns && room in s.conns[sid].rooms
  }

  // ---------------------------------------------------------------- handlers

  /** 'join-room' */
  function Join(s: State, sid: SocketId, documentId: DocId, user: Option<Props>): (r: Outcome)
    requires sid in s.conns && KeysDistinct(s.locks)
    ensures sid in r.state.conns && r.state.conns[sid].data == SocketData(documentId, user)
    ensures r.state.conns[sid].rooms == s.conns[sid].rooms + {documentId}
    ensures forall o :: o in s.conns && o != sid ==> o in r.state.conns && r.state.conns[o] == s.conns[o]
    ensures r.state.conns.Keys == s.conns.Keys && r.state.locks == s.locks
    ensures forall d :: d != documentId ==> Members(r.state, d) == Members(s, d)
    ensures documentId in r.state.presence
    ensures Find(Members(s, documentId), sid).Some? ==>
      r.state.presence[documentId] == Members(s, documentId) && |r.out| == 1
    ensures Find(Members(s, documentId), sid).None? ==>
      && r.state.presence[documentId] == Members(s, documentId) + [Presence(sid, user)]
      && |r.out| == 3
      && r.out[0].target == ToSocket(sid)
      && r.out[0].msg.ExistingUsers?
      && |r.out[0].msg.users| == |Members(s, documentId)| + 1
      && r.out[0].msg.users[..|Members(s, documentId)|] == StampAll(Members(s, documentId))
      && r.out[0].msg.users[|Members(s, documentId)|..] == [Stamped(Presence(sid, user))]
      && r.out[1] == Emission(RoomOthers(documentId, sid), UserJoined(Stamped(Presence(sid, user))))
    ensures r.out[|r.out| - 1] ==
      Emission(ToSocket(sid), CurrentLocks(RoomLocks(s.locks, r.state.presence[documentId])))
  {
    var c := s.conns[sid];
    var conns := s.conns[sid := Conn(SocketData(documentId, user), c.rooms + {documentId})];
    var list := Members(s, documentId);
    var first := Find(list, sid).None?;
    var list' := if first then list + [Presence(sid, user)] else list;
    var s' := s.(conns := conns, presence := s.presence[documentId := list']);
    var greet := if first then
        [ Emission(ToSocket(sid), ExistingUsers(StampAll(list'))),
          Emission(RoomOthers(documentId, sid), UserJoined(Stamped(Presence(sid, user)))) ]
      else [];
    Outcome(s', greet + [Emission(ToSocket(sid), CurrentLocks(RoomLocks(s.locks, list')))])
  }

  /** 'cursor-move' */
  function Cursor(s: State, sid: SocketId, position: Point): (r: Outcome)
    requires sid in s.conns
    ensures r.state == s
    ensures var d := s.conns[sid].data;
      r.out == if d.room != "" && d.user.Some?
               then [Emission(RoomOthers(d.room, sid), CursorUpdate(sid, Get(d.user.value, "name"), position))]
               else []
  {
    var d := s.conns[sid].data;
    if d.room == "" || d.user.None? then Outcome(s, [])
    else Outcome(s, [Emission(RoomOthers(d.room, sid), CursorUpdate(sid, Get(d.user.value, "name"), position))])
  }

  /** 'create-element': persisted, then echoed to the whole room including the sender. */
  function Create(s: State, sid: SocketId, element: Props, persisted: bool): (r: Outcome)
    requires sid in s.conns
    ensures r.state == s
    ensures |r.out| <= 1
    ensures |r.out| == 1 <==> s.conns[sid].data.room != "" && persisted
    ensures |r.out| == 1 ==> r.out[0] == Emission(RoomAll(s.conns[sid].data.room), ElementCreated(element))
  {
    var room := s.conns[sid].data.room;
    if room == "" || !persisted then Outcome(s, [])
    else Outcome(s, [Emission(RoomAll(room), ElementCreated(element))])
  }

  /** 'request-lock': granted only when the element has no entry at all,
      even one the requester owns. */
  function Request(s: State, sid: SocketId, e: ElementId): (r: Outcome)
    requires sid in s.conns && KeysDistinct(s.locks)
    ensures r.state.conns == s.conns && r.state.presence == s.presence
    ensures KeysDistinct(r.state.locks)
    ensures s.conns[sid].data.room == "" ==> r == Outcome(s, [])
    ensures s.conns[sid].data.room != "" && Lookup(s.locks, e).None? ==>
      && Lookup(r.state.locks, e) == Some(sid)
      && (forall e' :: e' != e ==> Lookup(r.state.locks, e') == Lookup(s.locks, e'))
      && r.out == [Emission(RoomAll(s.conns[sid].data.room),
                            LockAcquired(e, sid, NameOrUnknown(Members(s, s.conns[sid].data.room), sid)))]
    ensures s.conns[sid].data.room != "" && Lookup(s.locks, e).Some? ==>
      && r.state == s
      && r.out == [Emission(ToSocket(sid),
                            LockFailed(e, Lookup(s.locks, e).value,
                                       NameOrUnknown(Members(s, s.conns[sid].data.room), Lookup(s.locks, e).value)))]
  {
    var room := s.conns[sid].data.room;
    if room == "" then Outcome(s, [])
    else
      var list := Members(s, room);
      match Lookup(s.locks, e)
      case None =>
        Outcome(s.(locks := Insert(s.locks, e, sid)),
                [Emission(RoomAll(room), LockAcquired(e, sid, NameOrUnknown(list, sid)))])
      case Some(owner) =>
        Outcome(s, [Emission(ToSocket(sid), LockFailed(e, owner, NameOrUnknown(list, owner)))])
  }

  /** The lock check `update-element` and `delete-element` share. */
  predicate LockedByOther(s: State, sid: SocketId, e: ElementId) {
    Lookup(s.locks, e).Some? && Lookup(s.locks, e).value != sid
  }

  /** 'update-element': dropped while another socket holds the lock; otherwise
      persisted and relayed to the rest of the room. */
  function Update(s: State, sid: SocketId, e: ElementId, changes: Props, persisted: bool): (r: Outcome)
    requires sid in s.conns
    ensures r.state == s
    ensures |r.out| <= 1
    ensures |r.out| == 1 <==> s.conns[sid].data.room != "" && !LockedByOther(s, sid, e) && persisted
    ensures |r.out| == 1 ==> r.out[0] == Emission(RoomOthers(s.conns[sid].data.room, sid), ElementUpdated(e, changes))
  {
    var room := s.conns[sid].data.room;
    if room == "" || LockedByOther(s, sid, e) || !persisted then Outcome(s, [])
    else Outcome(s, [Emission(RoomOthers(room, sid), ElementUpdated(e, changes))])
  }

  /** 'delete-element': like update, and a successful delete also clears the lock. */
  function Remove(s: State, sid: SocketId, e: ElementId, persisted: bool): (r: Outcome)
    requires sid in s.conns && KeysDistinct(s.locks)
    ensures r.state.conns == s.conns && r.state.presence == s.presence
    ensures KeysDistinct(r.state.locks)
    ensures forall x :: x in r.state.locks ==> x in s.locks
    ensures |r.out| <= 1
    ensures |r.out| == 0 ==> r.state == s
    ensures |r.out| == 1 <==> s.conns[sid].data.room != "" && !LockedByOther(s, sid, e) && persisted
    ensures |r.out| == 1 ==>
      && r.out[0] == Emission(RoomOthers(s.conns[sid].data.room, sid), ElementDeleted(e))
      && Lookup(r.state.locks, e).None?
      && forall e' :: e' != e ==> Lookup(r.state.locks, e') == Lookup(s.locks, e')
  {
    var room := s.conns[sid].data.room;
    if room == "" || LockedByOther(s, sid, e) || !persisted then Outcome(s, [])
    else Outcome(s.(locks := Delete(s.locks, e)), [Emission(RoomOthers(room, sid), ElementDeleted(e))])
  }

  /** 'release-lock': only the owner's release has any effect. */
  function Release(s: State, sid: SocketId, e: ElementId): (r: Outcome)
    requires sid in s.conns && KeysDistinct(s.locks)
    ensures r.state.conns == s.conns && r.state.presence == s.presence
    ensures KeysDistinct(r.state.locks)
    ensures forall x :: x in r.state.locks ==> x in s.locks
    ensures !(s.conns[sid].data.room != "" && Lookup(s.locks, e) == Some(sid)) ==> r == Outcome(s, [])
    ensures s.conns[sid].data.room != "" && Lookup(s.locks, e) == Some(sid) ==>
      && Lookup(r.state.locks, e).None?
      && (forall e' :: e' != e ==> Lookup(r.state.locks, e') == Lookup(s.locks, e'))
      && r.out == [Emission(RoomOthers(s.conns[sid].data.room, sid), LockReleased(e))]
  {
    var room := s.conns[sid].data.room;
    if room != "" && Lookup(s.locks, e) == Some(sid) then
      Outcome(s.(locks := Delete(s.locks, e)), [Emission(RoomOthers(room, sid), LockReleased(e))])
    else Outcome(s, [])
  }

  /** The room a chat message names, as the transport reads it. */
  function MessageRoom(m: Props): DocId {
    KeyString(Get(m, "documentId"))
  }

  /** 'send_message': relayed to whatever room the payload names; the sender
      need not have joined it. */
  function Chat(s: State, sid: SocketId, message: Option<Props>): (r: Outcome)
    ensures r.state == s
    ensures message.None? || !TruthyField(message.value, "documentId") ==> r.out == []
    ensures message.Some? && TruthyField(message.value, "documentId") ==>
      r.out == [Emission(RoomAll(MessageRoom(message.value)), ReceiveMessage(message.value))]
  {
    match message
    case None => Outcome(s, [])
    case Some(m) =>
      if TruthyField(m, "documentId") then Outcome(s, [Emission(RoomAll(MessageRoom(m)), ReceiveMessage(m))])
      else Outcome(s, [])
  }

  /** One `lock-released` to the whole room per released element. */
  function ReleaseNotices(room: DocId, released: seq<ElementId>): (r: seq<Emission>)
    ensures |r| == |released|
    ensures forall i :: 0 <= i < |r| ==> r[i] == Emission(RoomAll(room), LockReleased(released[i]))
  {
    seq(|released|, i requires 0 <= i < |released| => Emission(RoomAll(room), LockReleased(released[i])))
  }

  /** Whether a disconnect announces `user-left`: the socket joined a truthy
      room with a user payload and that room has a presence list. */
  predicate Announces(s: State, sid: SocketId)
    requires sid in s.conns
  {
    var d := s.conns[sid].data;
    d.room != "" && d.user.Some? && d.room in s.presence
  }

  /** What a disconnect emits: `user-left` to the others when announced, then,
      when the socket had a room, one `lock-released` per released element. */
  function Departure(room: DocId, sid: SocketId, announce: bool, released: seq<ElementId>): (r: seq<Emission>)
    ensures forall em :: em in r ==>
      em == Emission(RoomOthers(room, sid), UserLeft(sid))
      || (em.target == RoomAll(room) && em.msg.LockReleased?)
    ensures forall e :: Emission(RoomAll(room), LockReleased(e)) in r <==> room != "" && e in released
    ensures |r| == (if announce then 1 else 0) + (if room != "" then |released| else 0)
    ensures announce ==> r[0] == Emission(RoomOthers(room, sid), UserLeft(sid))
  {
    var left := if announce then [Emission(RoomOthers(room, sid), UserLeft(sid))] else [];
    var notices := if room != "" then ReleaseNotices(room, released) else [];
    var out := left + notices;
    assert forall e :: Emission(RoomAll(room), LockReleased(e)) in out <==> room != "" && e in released by {
      forall e ensures Emission(RoomAll(room), LockReleased(e)) in out <==> room != "" && e in released {
        if Emission(RoomAll(room), LockReleased(e)) in out {
          assert Emission(RoomAll(room), LockReleased(e)) !in left;
          var i :| 0 <= i < |notices| && notices[i] == Emission(RoomAll(room), LockReleased(e));
        }
        if room != "" && e in released {
          var i :| 0 <= i < |released| && released[i] == e;
          assert out[|left| + i] == notices[i];
        }
      }
    }
    assert forall em :: em in out ==> em in left || em in notices;
    out
  }

  /** 'disconnect': the socket leaves the transport, its presence entry in its
      current room goes, and every lock it holds is released. */
  function Leave(s: State, sid: SocketId): (r: Outcome)
    requires sid in s.conns && KeysDistinct(s.locks)
    ensures r.state.conns == s.conns - {sid}
    ensures KeysDistinct(r.state.locks)
    ensures forall x :: x in r.state.locks ==> x in s.locks && x.owner != sid
    ensures forall e ::
      Lookup(r.state.locks, e) == (if Lookup(s.locks, e) == Some(sid) then None else Lookup(s.locks, e))
    ensures var d := s.conns[sid].data;
      && (Announces(s, sid) ==> r.state.presence == s.presence[d.room := Without(s.presence[d.room], sid)])
      && (!Announces(s, sid) ==> r.state.presence == s.presence)
      && r.out == Departure(d.room, sid, Announces(s, sid), ReleaseAll(s.locks, sid).1)
  {
    var d := s.conns[sid].data;
    var announce := Announces(s, sid);
    var presence := if announce then s.presence[d.room := Without(s.presence[d.room], sid)] else s.presence;
    var rel := ReleaseAll(s.locks, sid);
    Outcome(State(s.conns - {sid}, rel.0, presence), Departure(d.room, sid, announce, rel.1))
  }

  /** A new connection: no room, no user. */
  function Open(s: State, sid: SocketId): (r: Outcome)
    ensures sid in r.state.conns
    ensures sid !in s.conns ==> r.state == s.(conns := s.conns[sid := Conn(SocketData("", None), {})])
    ensures sid in s.conns ==> r.state == s
    ensures r.out == []
  {
    if sid in s.conns then Outcome(s, [])
    else Outcome(s.(conns := s.conns[sid := Conn(SocketData("", None), {})]), [])
  }

  /** One event. The transport only delivers events of live sockets, so an event
      naming any other socket changes nothing. */
  function Step(s: State, ev: Event): Outcome
    requires KeysDistinct(s.locks)
  {
    if ev.Connect? then Open(s, ev.sid)
    else if ev.sid !in s.conns then Outcome(s, [])
    else match ev
      case JoinRoom(sid, d, user) => Join(s, sid, d, user)
      case CursorMove(sid, p) => Cursor(s, sid, p)
      case CreateElement(sid, el, ok) => Create(s, sid, el, ok)
      case RequestLock(sid, e) => Request(s, sid, e)
      case UpdateElement(sid, e, ch, ok) => Update(s, sid, e, ch, ok)
      case DeleteElement(sid, e, ok) => Remove(s, sid, e, ok)
      case ReleaseLock(sid, e) => Release(s, sid, e)
      case SendMessage(sid, m) => Chat(s, sid, m)
      case Disconnect(sid) => Leave(s, sid)
  }
}

=== FILE: session_await.dfy ===
/** The `update-element` and `delete-element` handlers of socketHandler.js read
    `socket.data.room` and check the lock, then await the document write, and
    only then relay (and, for a delete, clear the lock). `Session.Step` runs
    each handler as one step; here the two halves are separate, so that other
    events can run during the await. The captured room is the one read before
    the await. */
module SessionAwait {
  import opened Base
  import opened Json
  import opened LockTable
  import opened Session

  /** The synchronous half both handlers share: the room captured by
      `const { room } = socket.data`, None when the handler returns early. */
  function Checked(s: State, sid: SocketId, e: ElementId): (room: Option<DocId>)
    requires sid in s.conns
    ensures room.None? <==> s.conns[sid].data.room == "" || LockedByOther(s, sid, e)
    ensures room.Some? ==> room.value == s.conns[sid].data.room && room.value != ""
  {
    var room := s.conns[sid].data.room;
    if room == "" || LockedByOther(s, sid, e) then None else Some(room)
  }

  /** After the awaited update: relayed to the captured room whatever the
      lock table now says. */
  function UpdateCompleted(s: State, sid: SocketId, e: ElementId, changes: Props, room: DocId, persisted: bool): (r: Outcome)
    ensures r.state == s
    ensures persisted <==> r.out == [Emission(RoomOthers(room, sid), ElementUpdated(e, changes))]
    ensures !persisted ==> r.out == []
  {
    if persisted then Outcome(s, [Emission(RoomOthers(room, sid), ElementUpdated(e, changes))])
    else Outcome(s, [])
  }

  /** After the awaited delete, as written: `activeLocks.delete(elementId)`
      whoever holds the lock by now, then `element-deleted` to the captured room. */
  function RemoveCompleted(s: State, sid: SocketId, e: ElementId, room: DocId, persisted: bool): (r: Outcome)
    requires KeysDistinct(s.locks)
    ensures r.state.conns == s.conns && r.state.presence == s.presence
    ensures KeysDistinct(r.state.locks)
    ensures !persisted ==> r == Outcome(s, [])
    ensures persisted ==>
      && Lookup(r.state.locks, e).None?
      && (forall x :: x != e ==> Lookup(r.state.locks, x) == Lookup(s.locks, x))
      && r.out == [Emission(RoomOthers(room, sid), ElementDeleted(e))]
  {
    if persisted then Outcome(s.(locks := Delete(s.locks, e)), [Emission(RoomOthers(room, sid), ElementDeleted(e))])
    else Outcome(s, [])
  }

  /** The delete's completion as evidently intended: it clears the lock only
      while the deleting socket is the one holding it. */
  function RemoveCompletedCorrected(s: State, sid: SocketId, e: ElementId, room: DocId, persisted: bool): (r: Outcome)
    requires KeysDistinct(s.locks)
    ensures r.state.conns == s.conns && r.state.presence == s.presence
    ensures KeysDistinct(r.state.locks)
    ensures !persisted ==> r == Outcome(s, [])
    ensures persisted ==>
      && (Lookup(s.locks, e) == Some(sid) ==> Lookup(r.state.locks, e).None?)
      && (Lookup(s.locks, e) != Some(sid) ==> r.state.locks == s.locks)
      && (forall x :: x != e ==> Lookup(r.state.locks, x) == Lookup(s.locks, x))
      && r.out == [Emission(RoomOthers(room, sid), ElementDeleted(e))]
  {
    if !persisted then Outcome(s, [])
    else
      var locks := if Lookup(s.locks, e) == Some(sid) then Delete(s.locks, e) else s.locks;
      Outcome(s.(locks := locks), [Emission(RoomOthers(room, sid), ElementDeleted(e))])
  }

  /** With nothing run during the await, check then completion is the one-step
      handler of `Session`, for update and for both versions of delete. */
  lemma AtomicWhenUninterrupted(s: State, sid: SocketId, e: ElementId, changes: Props, persisted: bool)
    requires sid in s.conns && KeysDistinct(s.locks)
    ensures Checked(s, sid, e).None? ==>
      Update(s, sid, e, changes, persisted) == Outcome(s, []) && Remove(s, sid, e, persisted) == Outcome(s, [])
    ensures Checked(s, sid, e).Some? ==>
      var room := Checked(s, sid, e).value;
      && Update(s, sid, e, changes, persisted) == UpdateCompleted(s, sid, e, changes, room, persisted)
      && Remove(s, sid, e, persisted) == RemoveCompleted(s, sid, e, room, persisted)
      && Remove(s, sid, e, persisted) == RemoveCompletedCorrected(s, sid, e, room, persisted)
  {
  }

  /** The race as written: socket `a` passes the check on an unlocked element,
      `b` is granted its lock during `a`'s await, and `a`'s completion then
      erases `b`'s lock without any `lock-released`, while every client that
      heard `lock-acquired` keeps showing it. */
  lemma DeleteRaceErasesLock(s: State, a: SocketId, b: SocketId, e: ElementId)
    requires a in s.conns && b in s.conns && a != b && KeysDistinct(s.locks)
    requires s.conns[a].data.room != "" && s.conns[b].data.room != ""
    requires Lookup(s.locks, e).None?
    ensures Checked(s, a, e).Some?
    ensures var granted := Request(s, b, e);
      && Lookup(granted.state.locks, e) == Some(b)
      && granted.out[0].msg == LockAcquired(e, b, NameOrUnknown(Members(s, s.conns[b].data.room), b))
      && var done := RemoveCompleted(granted.state, a, e, Checked(s, a, e).value, true);
         && Lookup(done.state.locks, e).None?
         && forall em :: em in done.out ==> !em.msg.LockReleased?
  {
  }

  /** Corrected, the same interleaving leaves `b`'s lock in place, and no
      completion removes a lock another socket holds. */
  lemma CorrectedDeleteKeepsForeignLock(s: State, a: SocketId, b: SocketId, e: ElementId)
    requires a in s.conns && b in s.conns && a != b && KeysDistinct(s.locks)
    requires s.conns[a].data.room != "" && s.conns[b].data.room != ""
    requires Lookup(s.locks, e).None?
    ensures Checked(s, a, e).Some?
    ensures var granted := Request(s, b, e);
      var done := RemoveCompletedCorrected(granted.state, a, e, Checked(s, a, e).value, true);
      Lookup(done.state.locks, e) == Some(b)
  {
  }

  /** Corrected, every lock a completion removes was the deleter's own. */
  lemma CorrectedRemovesOnlyOwnLock(s: State, sid: SocketId, e: ElementId, room: DocId, persisted: bool, x: ElementId)
    requires KeysDistinct(s.locks)
    ensures var r := RemoveCompletedCorrected(s, sid, e, room, persisted);
      Lookup(r.state.locks, x) != Lookup(s.locks, x) ==> x == e && Lookup(s.locks, x) == Some(sid)
  {
  }

  /** The update race: `a` passes the check on an unlocked element, `b` is
      granted its lock during the await, and `a`'s changes still reach the
      room, although `b` now holds the lock. */
  lemma UpdateRaceRelaysUnderForeignLock(s: State, a: SocketId, b: SocketId, e: ElementId, changes: Props)
    requires a in s.conns && b in s.conns && a != b && KeysDistinct(s.locks)
    requires s.conns[a].data.room != "" && s.conns[b].data.room != ""
    requires Lookup(s.locks, e).None?
    ensures Checked(s, a, e).Some?
    ensures var granted := Request(s, b, e);
      && LockedByOther(granted.state, a, e)
      && UpdateCompleted(granted.state, a, e, changes, Checked(s, a, e).value, true).out
         == [Emission(RoomOthers(s.conns[a].data.room, a), ElementUpdated(e, changes))]
  {
  }
}

=== FILE: session_props.dfy ===
/** Properties of the session coordinator that relate several steps, or a step
    and the invariant. */
module SessionProps {
  import opened Base
  import opened Json
  import opened LockTable
  import opened Session

  // ---------------------------------------------------------------- invariant

  lemma FindAppendKeeps(list: seq<Presence>, p: Presence, o: SocketId)
    requires Find(list, o).Some?
    ensures Find(list + [p], o).Some?
  {
    var i :| 0 <= i < |list| && list[i].sid == o;
    assert (list + [p])[i].sid == o;
  }

  lemma JoinKeepsValid(s: State, sid: SocketId, d: DocId, user: Option<Props>)
    requires Valid(s) && sid in s.conns
    ensures Valid(Join(s, sid, d, user).state)
  {
    var s' := Join(s, sid, d, user).state;
    var list := Members(s, d);
    assert OwnersWithin(s'.locks, s'.conns.Keys);
    if Find(list, sid).None? {
      assert SidsDistinct(list) by {
        assert d in s.presence ==> SidsDistinct(s.presence[d]);
      }
      AppendFresh(list, Presence(sid, user));
      JoinedAfterAppend(s, s', sid, d, user);
      forall e | e in s'.presence ensures SidsDistinct(s'.presence[e]) {
        if e != d {
          assert s'.presence[e] == Members(s, e);
        }
      }
    } else {
      assert s'.presence[d] == list;
      assert Joined(s', sid);
    }
  }

  /** A presence whose socket is not yet listed keeps the list free of repeats. */
  lemma AppendFresh(list: seq<Presence>, p: Presence)
    requires SidsDistinct(list) && Find(list, p.sid).None?
    ensures SidsDistinct(list + [p]) && Find(list + [p], p.sid).Some?
  {
    var list' := list + [p];
    forall i, j | 0 <= i < j < |list'| ensures list'[i].sid != list'[j].sid {
      if j == |list| { assert list'[i] == list[i]; }
    }
    assert list'[|list|].sid == p.sid;
  }

  lemma JoinedAfterAppend(s: State, s': State, sid: SocketId, d: DocId, user: Option<Props>)
    requires Valid(s) && sid in s.conns
    requires s'.conns.Keys == s.conns.Keys && sid in s'.conns && s'.conns[sid].data == SocketData(d, user)
    requires s'.conns[sid].rooms == s.conns[sid].rooms + {d}
    requires forall o :: o in s.conns && o != sid ==> s'.conns[o] == s.conns[o]
    requires forall e :: e != d ==> Members(s', e) == Members(s, e)
    requires d in s'.presence && s'.presence[d] == Members(s, d) + [Presence(sid, user)]
    ensures forall o :: o in s'.conns && s'.conns[o].data.room != "" ==> Joined(s', o)
  {
    var list := Members(s, d);
    forall o | o in s'.conns && s'.conns[o].data.room != "" ensures Joined(s', o) {
      if o == sid {
        assert (list + [Presence(sid, user)])[|list|].sid == sid;
      } else if s.conns[o].data.room == d {
        FindAppendKeeps(list, Presence(sid, user), o);
      } else {
        assert Joined(s, o);
        assert Members(s', s.conns[o].data.room) == Members(s, s.conns[o].data.room);
      }
    }
  }

  lemma LeaveKeepsValid(s: State, sid: SocketId)
    requires Valid(s) && sid in s.conns
    ensures Valid(Leave(s, sid).state)
  {
    var s' := Leave(s, sid).state;
    assert OwnersWithin(s'.locks, s'.conns.Keys) by {
      forall i | 0 <= i < |s'.locks| ensures s'.locks[i].owner in s'.conns.Keys {
        assert s'.locks[i] in s'.locks;
      }
    }
    forall o | o in s'.conns && s'.conns[o].data.room != "" ensures Joined(s', o) {
      assert Joined(s, o);
      var room := s.conns[o].data.room;
      var p := Find(s.presence[room], o).value;
      if room in s'.presence && s'.presence[room] != s.presence[room] {
        assert p in Without(s.presence[room], sid);
      }
    }
  }

  lemma RequestKeepsValid(s: State, sid: SocketId, e: ElementId)
    requires Valid(s) && sid in s.conns
    ensures Valid(Request(s, sid, e).state)
  {
  }

  lemma ShrinkKeepsValid(s: State, s': State)
    requires Valid(s)
    requires s'.conns == s.conns && s'.presence == s.presence && KeysDistinct(s'.locks)
    requires forall x :: x in s'.locks ==> x in s.locks
    ensures Valid(s')
  {
    forall i | 0 <= i < |s'.locks| ensures s'.locks[i].owner in s'.conns.Keys {
      assert s'.locks[i] in s'.locks;
    }
  }

  /** Every step keeps the invariant: in particular no element ever has two
      owners and every owner is a live socket. */
  lemma StepKeepsValid(s: State, ev: Event)
    requires Valid(s)
    ensures Valid(Step(s, ev).state)
  {
    if !ev.Connect? && ev.sid in s.conns {
      match ev
      case JoinRoom(sid, d, user) => JoinKeepsValid(s, sid, d, user);
      case RequestLock(sid, e) => RequestKeepsValid(s, sid, e);
      case DeleteElement(sid, e, ok) => ShrinkKeepsValid(s, Remove(s, sid, e, ok).state);
      case ReleaseLock(sid, e) => ShrinkKeepsValid(s, Release(s, sid, e).state);
      case Disconnect(sid) => LeaveKeepsValid(s, sid);
      case _ =>
    }
  }

  /** The invariant holds after any sequence of events from the start. */
  function Run(s: State, evs: seq<Event>): (r: State)
    requires Valid(s)
    ensures Valid(r)
    decreases |evs|
  {
    if |evs| == 0 then s
    else
      StepKeepsValid(s, evs[0]);
      Run(Step(s, evs[0]).state, evs[1..])
  }

  // ---------------------------------------------------------------- addressing

  /** Who each message is addressed to: the whole room, the room without the
      event's sender, or the sender alone. */
  predicate Addressed(em: Emission, ev: Event) {
    match em.msg
    case ElementCreated(_) => em.target.RoomAll?
    case LockAcquired(_, _, _) => em.target.RoomAll?
    case ReceiveMessage(_) => em.target.RoomAll?
    case ElementUpdated(_, _) => em.target.RoomOthers? && em.target.except == ev.sid
    case ElementDeleted(_) => em.target.RoomOthers? && em.target.except == ev.sid
    case CursorUpdate(_, _, _) => em.target.RoomOthers? && em.target.except == ev.sid
    case UserJoined(_) => em.target.RoomOthers? && em.target.except == ev.sid
    case UserLeft(_) => em.target.RoomOthers? && em.target.except == ev.sid
    case LockReleased(_) =>
      if ev.Disconnect? then em.target.RoomAll?
      else em.target.RoomOthers? && em.target.except == ev.sid
    case LockFailed(_, _, _) => em.target == ToSocket(ev.sid)
    case ExistingUsers(_) => em.target == ToSocket(ev.sid)
    case CurrentLocks(_) => em.target == ToSocket(ev.sid)
  }

  /** Every message a step emits goes to the audience its kind calls for; the
      relays of a sender's own edits never reach the sender. */
  lemma StepAddressing(s: State, ev: Event)
    requires Valid(s)
    ensures forall em :: em in Step(s, ev).out ==> Addressed(em, ev)
    ensures forall em :: em in Step(s, ev).out && em.target.RoomOthers? ==>
      ev.sid !in Recipients(Step(s, ev).state, em.target)
  {
    var r := Step(s, ev);
    StepAddressed(s, ev);
    OthersExcludeSender(r.state, r.out, ev);
  }

  lemma StepAddressed(s: State, ev: Event)
    requires Valid(s)
    ensures forall em :: em in Step(s, ev).out ==> Addressed(em, ev)
  {
    var r := Step(s, ev);
    if !ev.Connect? && ev.sid in s.conns {
      match ev
      case Disconnect(sid) =>
        var d := s.conns[sid].data;
        LeaveAddressing(d.room, sid, Announces(s, sid), ReleaseAll(s.locks, sid).1);
      case JoinRoom(sid, room, user) => JoinAddressing(s, sid, room, user);
      case RequestLock(sid, e) => SingleAddressing(r.out, ev);
      case CursorMove(sid, p) => SingleAddressing(r.out, ev);
      case CreateElement(sid, el, ok) => SingleAddressing(r.out, ev);
      case UpdateElement(sid, e, ch, ok) => SingleAddressing(r.out, ev);
      case DeleteElement(sid, e, ok) => SingleAddressing(r.out, ev);
      case ReleaseLock(sid, e) => SingleAddressing(r.out, ev);
      case SendMessage(sid, m) => SingleAddressing(r.out, ev);
    }
  }

  lemma SingleAddressing(out: seq<Emission>, ev: Event)
    requires |out| <= 1 && (|out| == 1 ==> Addressed(out[0], ev))
    ensures forall em :: em in out ==> Addressed(em, ev)
  {
  }

  lemma OthersExcludeSender(s: State, out: seq<Emission>, ev: Event)
    requires forall em :: em in out ==> Addressed(em, ev)
    ensures forall em :: em in out && em.target.RoomOthers? ==> ev.sid !in Recipients(s, em.target)
  {
    forall em | em in out && em.target.RoomOthers? ensures ev.sid !in Recipients(s, em.target) {
      assert Addressed(em, ev);
      assert em.target.except == ev.sid;
    }
  }

  lemma JoinAddressing(s: State, sid: SocketId, room: DocId, user: Option<Props>)
    requires sid in s.conns && KeysDistinct(s.locks)
    ensures forall em :: em in Join(s, sid, room, user).out ==> Addressed(em, JoinRoom(sid, room, user))
  {
    var out := Join(s, sid, room, user).out;
    forall em | em in out ensures Addressed(em, JoinRoom(sid, room, user)) {
      var i :| 0 <= i < |out| && out[i] == em;
    }
  }

  lemma LeaveAddressing(room: DocId, sid: SocketId, announce: bool, released: seq<ElementId>)
    ensures forall em :: em in Departure(room, sid, announce, released) ==> Addressed(em, Disconnect(sid))
  {
    forall em | em in Departure(room, sid, announce, released) ensures Addressed(em, Disconnect(sid)) {
      if em != Emission(RoomOthers(room, sid), UserLeft(sid)) {
        assert em.msg.LockReleased?;
      }
    }
  }

  /** A joined sender is in its own room, so whole-room messages (the echo of
      `element-created`, `lock-acquired`) reach it too. */
  lemma RoomAllReachesJoinedSender(s: State, ev: Event)
    requires Valid(s) && !ev.Connect? && !ev.Disconnect? && !ev.JoinRoom?
    requires ev.sid in s.conns && s.conns[ev.sid].data.room != ""
    ensures forall em :: em in Step(s, ev).out && em.target == RoomAll(s.conns[ev.sid].data.room) ==>
      ev.sid in Recipients(Step(s, ev).state, em.target)
  {
    assert Joined(s, ev.sid);
  }

  // ---------------------------------------------------------------- locking

  /** Asking again for a lock one already holds is refused, and only the
      requester hears about it. */
  lemma ReRequestDenied(s: State, sid: SocketId, e: ElementId)
    requires Valid(s) && sid in s.conns && s.conns[sid].data.room != ""
    ensures var s1 := Step(s, RequestLock(sid, e)).state;
      var r2 := Step(s1, RequestLock(sid, e));
      && r2.state == s1
      && |r2.out| == 1 && r2.out[0].target == ToSocket(sid) && r2.out[0].msg.LockFailed?
  {
    var s1 := Step(s, RequestLock(sid, e)).state;
    StepKeepsValid(s, RequestLock(sid, e));
    assert Lookup(s1.locks, e).Some?;
  }

  /** Of two sockets asking for the same element one after the other, at most
      one is granted it, and exactly one when it was free. */
  lemma MutualExclusion(s: State, a: SocketId, b: SocketId, e: ElementId)
    requires Valid(s) && a in s.conns && b in s.conns && a != b
    requires s.conns[a].data.room != "" && s.conns[b].data.room != ""
    ensures var r1 := Step(s, RequestLock(a, e));
      var r2 := Step(r1.state, RequestLock(b, e));
      && !(r1.out[0].msg.LockAcquired? && r2.out[0].msg.LockAcquired?)
      && (Lookup(s.locks, e).None? <==> r1.out[0].msg.LockAcquired? || r2.out[0].msg.LockAcquired?)
      && Lookup(r2.state.locks, e) == (if Lookup(s.locks, e).None? then Some(a) else Lookup(s.locks, e))
  {
    StepKeepsValid(s, RequestLock(a, e));
  }

  /** While another socket holds the lock, update and delete from anyone else
      change nothing and emit nothing, whatever the store would have answered. */
  lemma ForeignLockDropsEdits(s: State, sid: SocketId, e: ElementId, changes: Props, ok: bool)
    requires Valid(s) && sid in s.conns
    requires Lookup(s.locks, e).Some? && Lookup(s.locks, e).value != sid
    ensures Step(s, UpdateElement(sid, e, changes, ok)) == Outcome(s, [])
    ensures Step(s, DeleteElement(sid, e, ok)) == Outcome(s, [])
  {
  }

  /** Releasing a lock one does not own changes nothing and emits nothing. */
  lemma ReleaseByNonOwnerIsSilent(s: State, sid: SocketId, e: ElementId)
    requires Valid(s) && sid in s.conns && Lookup(s.locks, e) != Some(sid)
    ensures Step(s, ReleaseLock(sid, e)) == Outcome(s, [])
  {
  }

  // ---------------------------------------------------------------- disconnect

  /** The element ids a socket owns. */
  function OwnedBy(t: Table, sid: SocketId): set<ElementId> {
    set i | 0 <= i < |t| && t[i].owner == sid :: t[i].element
  }

  lemma {:induction false} DistinctCard<T>(xs: seq<T>)
    requires forall i, j :: 0 <= i < j < |xs| ==> xs[i] != xs[j]
    ensures |set x | x in xs| == |xs|
    decreases |xs|
  {
    if |xs| > 0 {
      var tail := xs[1..];
      assert forall k :: 0 <= k < |tail| ==> tail[k] == xs[k + 1];
      assert xs[0] !in tail;
      DistinctCard(tail);
      assert (set x | x in xs) == (set x | x in tail) + {xs[0]};
    }
  }

  /** The ids `releaseAllLocksForSocket` reports are exactly the socket's locks, once each. */
  lemma ReleasedAreOwned(t: Table, sid: SocketId)
    requires KeysDistinct(t)
    ensures OwnedBy(t, sid) == set x | x in ReleaseAll(t, sid).1
    ensures |ReleaseAll(t, sid).1| == |OwnedBy(t, sid)|
  {
    var rel := ReleaseAll(t, sid).1;
    forall x | x in rel ensures x in OwnedBy(t, sid) {
      var k :| 0 <= k < |t| && t[k] == Entry(x, sid);
    }
    forall x | x in OwnedBy(t, sid) ensures x in rel {
      var k :| 0 <= k < |t| && t[k].owner == sid && t[k].element == x;
      LookupUnique(t, k);
    }
    DistinctCard(rel);
  }

  /** After a socket holding N locks disconnects none of them remain, and a
      socket with a room emits exactly N `lock-released` besides the optional
      `user-left`; none of it reaches the departed socket. */
  lemma DisconnectReleasesAll(s: State, sid: SocketId)
    requires Valid(s) && sid in s.conns
    ensures var r := Step(s, Disconnect(sid));
      var room := s.conns[sid].data.room;
      && sid !in r.state.conns
      && (forall e :: Lookup(r.state.locks, e) != Some(sid))
      && (forall e :: e in OwnedBy(s.locks, sid) ==> Lookup(r.state.locks, e).None?)
      && |r.out| == (if Announces(s, sid) then 1 else 0) + (if room != "" then |OwnedBy(s.locks, sid)| else 0)
      && (forall em :: em in r.out ==> sid !in Recipients(r.state, em.target))
  {
    LeaveStep(s, sid);
    var r := Leave(s, sid);
    ReleasedAreOwned(s.locks, sid);
    forall e | e in OwnedBy(s.locks, sid) ensures Lookup(r.state.locks, e).None? {
      var k :| 0 <= k < |s.locks| && s.locks[k].owner == sid && s.locks[k].element == e;
      LookupUnique(s.locks, k);
    }
    DepartedUnreached(r.state, sid, r.out);
  }

  /** Nothing addressed to live sockets reaches one that is gone. */
  lemma DepartedUnreached(s: State, sid: SocketId, out: seq<Emission>)
    requires sid !in s.conns
    ensures forall em :: em in out ==> sid !in Recipients(s, em.target)
  {
  }

  // ---------------------------------------------------------------- quirks kept as written

  /** Joining a second room moves `socket.data.room` but leaves the entry in the
      first room's list, and disconnecting does not remove it either. */
  lemma SecondJoinLeavesStaleEntry(s: State, sid: SocketId, d1: DocId, d2: DocId, user: Props)
    requires Valid(s) && sid in s.conns && d1 != "" && d2 != "" && d1 != d2
    ensures var s1 := Step(s, JoinRoom(sid, d1, Some(user))).state;
      var s2 := Step(s1, JoinRoom(sid, d2, Some(user))).state;
      var s3 := Step(s2, Disconnect(sid)).state;
      && Find(Members(s2, d1), sid).Some?
      && s2.conns[sid].data.room == d2
      && sid !in s3.conns
      && Find(Members(s3, d1), sid).Some?
      && Find(Members(s3, d2), sid).None?
  {
    JoinStep(s, sid, d1, Some(user));
    var s1 := Join(s, sid, d1, Some(user)).state;
    JoinStep(s1, sid, d2, Some(user));
    var s2 := Join(s1, sid, d2, Some(user)).state;
    LeaveStep(s2, sid);
    JoinTwiceThenLeave(s, sid, d1, d2, user);
  }

  lemma JoinStep(s: State, sid: SocketId, d: DocId, user: Option<Props>)
    requires sid in s.conns && KeysDistinct(s.locks)
    ensures Step(s, JoinRoom(sid, d, user)) == Join(s, sid, d, user)
  {
  }

  lemma LeaveStep(s: State, sid: SocketId)
    requires sid in s.conns && KeysDistinct(s.locks)
    ensures Step(s, Disconnect(sid)) == Leave(s, sid)
  {
  }

  lemma JoinTwiceThenLeave(s: State, sid: SocketId, d1: DocId, d2: DocId, user: Props)
    requires sid in s.conns && KeysDistinct(s.locks) && d2 != "" && d1 != d2
    ensures var s1 := Join(s, sid, d1, Some(user)).state;
      var s2 := Join(s1, sid, d2, Some(user)).state;
      var s3 := Leave(s2, sid).state;
      && Find(Members(s2, d1), sid).Some?
      && s2.conns[sid].data.room == d2
      && sid !in s3.conns
      && Find(Members(s3, d1), sid).Some?
      && Find(Members(s3, d2), sid).None?
  {
    var s1 := Join(s, sid, d1, Some(user)).state;
    JoinLists(s, sid, d1, Some(user));
    var s2 := Join(s1, sid, d2, Some(user)).state;
    JoinLists(s1, sid, d2, Some(user));
    assert Members(s2, d1) == Members(s1, d1);
    assert Announces(s2, sid);
    LeaveDelists(s2, sid);
  }

  /** After a join the joiner is listed in the room it joined. */
  lemma JoinLists(s: State, sid: SocketId, d: DocId, user: Option<Props>)
    requires sid in s.conns && KeysDistinct(s.locks)
    ensures Find(Members(Join(s, sid, d, user).state, d), sid).Some?
  {
    var list := Members(s, d);
    if Find(list, sid).None? {
      var list' := list + [Presence(sid, user)];
      assert list'[|list|].sid == sid;
    }
  }

  /** A disconnect that announces itself removes the socket from its current
      room's list and from no other. */
  lemma LeaveDelists(s: State, sid: SocketId)
    requires sid in s.conns && KeysDistinct(s.locks) && Announces(s, sid)
    ensures var room := s.conns[sid].data.room;
      && Find(Members(Leave(s, sid).state, room), sid).None?
      && forall d :: d != room ==> Members(Leave(s, sid).state, d) == Members(s, d)
  {
    var room := s.conns[sid].data.room;
    var list := Without(s.presence[room], sid);
    assert Members(Leave(s, sid).state, room) == list;
  }

  /** `send_message` is not gated on having joined: a socket that never joined
      anything still reaches every member of the room its payload names. */
  lemma ChatIgnoresMembership(s: State, sid: SocketId, m: Props, room: string)
    requires Valid(s) && sid in s.conns && s.conns[sid].data.room == ""
    requires "documentId" in m && m["documentId"] == Str(room) && room != ""
    ensures Step(s, SendMessage(sid, Some(m))).out == [Emission(RoomAll(room), ReceiveMessage(m))]
  {
  }

  /** A lock holder that re-joins with an empty document id becomes unjoined;
      its disconnect still frees the lock but tells nobody. */
  lemma EmptyRejoinSilencesRelease(s: State, sid: SocketId, e: ElementId, user: Props)
    requires Valid(s) && sid in s.conns && Lookup(s.locks, e) == Some(sid)
    ensures var s1 := Step(s, JoinRoom(sid, "", Some(user))).state;
      var r := Step(s1, Disconnect(sid));
      && Lookup(s1.locks, e) == Some(sid)
      && Lookup(r.state.locks, e).None?
      && r.out == []
  {
    JoinStep(s, sid, "", Some(user));
    var s1 := Join(s, sid, "", Some(user)).state;
    LeaveStep(s1, sid);
    assert !Announces(s1, sid);
    assert |Leave(s1, sid).out| == 0;
  }
}

=== FILE: stroke_path.dfy ===
/** `getSvgPathFromStroke` in Whiteboard.jsx: a brush stroke's points as SVG
    path data, a move to the first point and a line to each later one. */
module StrokePath {
  import opened Base
  import opened Json
  import opened Text

  /** `${p.x} ${p.y}` */
  function PointText(p: Point): string {
    IntToDecimal(p.x) + " " + IntToDecimal(p.y)
  }

  /** The ` L x y` commands for the points after the first. */
  function Segments(points: seq<Point>): string
    decreases |points|
  {
    if |points| == 0 then "" else " L " + PointText(points[0]) + Segments(points[1..])
  }

  /** An absent or empty point list gives the empty path. */
  function SvgPath(points: Option<seq<Point>>): (d: string)
    ensures d == "" <==> points.None? || |points.value| == 0
    ensures d != "" ==> |d| >= 2 && d[..2] == "M "
  {
    if points.None? || |points.value| == 0 then ""
    else
      var d := "M " + PointText(points.value[0]) + Segments(points.value[1..]);
      assert d[..2] == "M ";
      d
  }

  // ---------------------------------------------------------------- reading a path back

  /** The words of a path: `M x0 y0 L x1 y1 ...`. */
  function PathTokens(points: seq<Point>): (t: seq<string>)
    requires |points| >= 1
  {
    ["M", IntToDecimal(points[0].x), IntToDecimal(points[0].y)] + SegmentTokens(points[1..])
  }

  function SegmentTokens(points: seq<Point>): (t: seq<string>)
    ensures |t| == 3 * |points|
    decreases |points|
  {
    if |points| == 0 then []
    else ["L", IntToDecimal(points[0].x), IntToDecimal(points[0].y)] + SegmentTokens(points[1..])
  }

  /** Reads the path data `getSvgPathFromStroke` writes. */
  function ParsePath(d: string): Option<seq<Point>> {
    if d == "" then Some([])
    else
      var t := Split(d);
      if |t| >= 3 && t[0] == "M" && ParseInteger(t[1]).Some? && ParseInteger(t[2]).Some? then
        match ParseSegments(t[3..])
        case Some(rest) => Some([Point(ParseInteger(t[1]).value, ParseInteger(t[2]).value)] + rest)
        case None => None
      else None
  }

  function ParseSegments(t: seq<string>): Option<seq<Point>>
    decreases |t|
  {
    if |t| == 0 then Some([])
    else if |t| >= 3 && t[0] == "L" && ParseInteger(t[1]).Some? && ParseInteger(t[2]).Some? then
      match ParseSegments(t[3..])
      case Some(rest) => Some([Point(ParseInteger(t[1]).value, ParseInteger(t[2]).value)] + rest)
      case None => None
    else None
  }

  lemma {:induction false} JoinSpacedAppend(a: seq<string>, b: seq<string>)
    requires |a| >= 1 && |b| >= 1
    ensures JoinSpaced(a + b) == JoinSpaced(a) + " " + JoinSpaced(b)
    decreases |a|
  {
    if |a| == 1 {
      assert (a + b)[1..] == b;
    } else {
      assert (a + b)[1..] == a[1..] + b;
      JoinSpacedAppend(a[1..], b);
    }
  }

  lemma JoinThree(a: string, b: string, c: string)
    ensures JoinSpaced([a, b, c]) == a + " " + b + " " + c
  {
    assert [a, b, c][1..] == [b, c];
    assert [b, c][1..] == [c];
    assert JoinSpaced([b, c]) == b + " " + c;
    assert a + " " + (b + " " + c) == a + " " + b + " " + c;
  }

  lemma {:induction false} SegmentsAreTokens(points: seq<Point>)
    ensures Segments(points) == if |points| == 0 then "" else " " + JoinSpaced(SegmentTokens(points))
    decreases |points|
  {
    if |points| > 0 {
      var p := points[0];
      var x, y := IntToDecimal(p.x), IntToDecimal(p.y);
      var head := ["L", x, y];
      var rest := points[1..];
      assert SegmentTokens(points) == head + SegmentTokens(rest);
      JoinThree("L", x, y);
      SegmentsAreTokens(rest);
      if |rest| > 0 {
        JoinSpacedAppend(head, SegmentTokens(rest));
        Regroup(x, y, JoinSpaced(SegmentTokens(rest)));
      } else {
        assert SegmentTokens(points) == head;
        Regroup(x, y, "");
      }
    }
  }

  lemma Regroup(x: string, y: string, j: string)
    ensures " L " + (x + " " + y) + (if j == "" then "" else " " + j)
         == " " + (if j == "" then "L" + " " + x + " " + y else "L" + " " + x + " " + y + " " + j)
  {
  }

  /** The path text is its words joined by single spaces. */
  lemma PathIsTokens(points: seq<Point>)
    requires |points| >= 1
    ensures SvgPath(Some(points)) == JoinSpaced(PathTokens(points))
  {
    var p := points[0];
    var x, y := IntToDecimal(p.x), IntToDecimal(p.y);
    var head := ["M", x, y];
    var rest := points[1..];
    assert SvgPath(Some(points)) == "M " + PointText(p) + Segments(rest);
    JoinThree("M", x, y);
    SegmentsAreTokens(rest);
    if |rest| > 0 {
      JoinSpacedAppend(head, SegmentTokens(rest));
      MoveRegroup(x, y, JoinSpaced(SegmentTokens(rest)));
    } else {
      assert PathTokens(points) == head;
      assert "M " + (x + " " + y) + "" == "M" + " " + x + " " + y;
    }
  }

  lemma MoveRegroup(x: string, y: string, j: string)
    ensures "M " + (x + " " + y) + (" " + j) == "M" + " " + x + " " + y + " " + j
  {
  }

  lemma DecimalNoSpace(n: int)
    ensures NoSpace(IntToDecimal(n))
  {
  }

  lemma {:induction false} ParseSegmentTokens(points: seq<Point>)
    ensures ParseSegments(SegmentTokens(points)) == Some(points)
    decreases |points|
  {
    if |points| > 0 {
      var t := SegmentTokens(points);
      IntegerRoundTrip(points[0].x);
      IntegerRoundTrip(points[0].y);
      assert t[3..] == SegmentTokens(points[1..]);
      ParseSegmentTokens(points[1..]);
      assert [points[0]] + points[1..] == points;
    }
  }

  /** Reading a rendered path gives back the points, in order. */
  lemma PathRoundTrip(points: seq<Point>)
    ensures ParsePath(SvgPath(Some(points))) == Some(points)
  {
    if |points| > 0 {
      var t := PathTokens(points);
      PathIsTokens(points);
      forall k | 0 <= k < |t| ensures NoSpace(t[k]) {
        if k >= 3 {
          SegmentTokensNoSpace(points[1..], k - 3);
        }
      }
      SplitJoin(t);
      IntegerRoundTrip(points[0].x);
      IntegerRoundTrip(points[0].y);
      assert t[3..] == SegmentTokens(points[1..]);
      ParseSegmentTokens(points[1..]);
      assert [points[0]] + points[1..] == points;
    }
  }

  lemma {:induction false} SegmentTokensNoSpace(points: seq<Point>, k: int)
    requires 0 <= k < 3 * |points|
    ensures NoSpace(SegmentTokens(points)[k])
    decreases |points|
  {
    if k >= 3 {
      SegmentTokensNoSpace(points[1..], k - 3);
    }
  }
}

=== FILE: templates.dfy ===
/** The template gallery (TemplatePage.jsx): a fixed catalogue searched by a
    case-insensitive substring of name or description, the matches grouped by
    category in order of appearance, a featured carousel of the recommended
    and new templates, status badges, and the board a selected template opens. */
module Templates {
  import opened Base
  import opened Text

  datatype Template = Template(id: string, name: string, description: string, category: Option<string>, status: Option<string>)

  /** The gallery's catalogue (icons left out). */
  const Catalogue: seq<Template> := [
    Template("moodboard", "Mood Board / Vision", "Gather images, color palettes, and design inspiration.", Some("Design"), Some("Recommended")),
    Template("wireframe", "Website Wireframe", "Low-fidelity layout for user interface design concepts.", Some("Design"), Some("New")),
    Template("uxtest", "UX Test Flow", "Map out user journey and testing feedback loops.", Some("Design"), None),
    Template("designsystem", "Design System Checklist", "Outline components and design tokens to be documented.", Some("Design"), Some("Pro")),
    Template("travel", "Travel Planner", "Itinerary, packing lists, and local research for your trip.", Some("Personal"), Some("New")),
    Template("visionboard", "Personal Vision Board", "Visualizing and setting long-term personal goals.", Some("Personal"), None),
    Template("budget", "Household Budget", "Track monthly expenses and savings goals visually.", Some("Personal"), None),
    Template("contentcal", "Content Calendar", "Plan social media and blog posts across weekly schedule.", Some("Marketing"), Some("Recommended")),
    Template("customerjourney", "Customer Journey Map", "Identify touchpoints and pain points in the customer lifecycle.", Some("Marketing"), Some("Pro")),
    Template("onboarding", "Employee Onboarding Flow", "Checklist and resources for new hire integration.", Some("HR/EDU"), None),
    Template("lessonplan", "Lesson Planning Board", "Structure class activities, goals, and resources visually.", Some("HR/EDU"), Some("New"))
  ]

  // ---------------------------------------------------------------- search

  /** The search test: the lower-cased term inside the lower-cased name or description. */
  predicate Matches(t: Template, term: string) {
    Includes(ToLower(t.name), ToLower(term)) || Includes(ToLower(t.description), ToLower(term))
  }

  /** The templates that match, in catalogue order. */
  function Filter(ts: seq<Template>, term: string): (r: seq<Template>)
    ensures |r| <= |ts|
    ensures forall t :: t in r <==> t in ts && Matches(t, term)
    decreases |ts|
  {
    if |ts| == 0 then []
    else
      var init := Filter(ts[..|ts| - 1], term);
      var last := ts[|ts| - 1];
      assert ts == ts[..|ts| - 1] + [last];
      if Matches(last, term) then init + [last] else init
  }

  /** The search keeps catalogue order: the matches of a concatenation are
      the matches of each part, in turn. With the membership clause this
      fixes `Filter` entirely. */
  lemma {:induction false} FilterAppend(a: seq<Template>, b: seq<Template>, term: string)
    ensures Filter(a + b, term) == Filter(a, term) + Filter(b, term)
    decreases |b|
  {
    if |b| > 0 {
      var init, last := b[..|b| - 1], b[|b| - 1];
      assert b == init + [last];
      assert a + b == (a + init) + [last];
      FilterAppend(a, init, term);
      FilterSnoc(a + init, last, term);
      FilterSnoc(init, last, term);
      var tail := if Matches(last, term) then [last] else [];
      ConcatAssoc(Filter(a, term), Filter(init, term), tail);
      assert Filter(a + b, term) == (Filter(a, term) + Filter(init, term)) + tail;
      assert Filter(b, term) == Filter(init, term) + tail;
    } else {
      assert a + b == a;
    }
  }

  /** Unfolds `Filter` once at the back. */
  lemma FilterSnoc(ts: seq<Template>, t: Template, term: string)
    ensures Filter(ts + [t], term) == Filter(ts, term) + if Matches(t, term) then [t] else []
  {
    var s := ts + [t];
    assert s[..|s| - 1] == ts && s[|s| - 1] == t;
  }

  /** Searching and then taking a category equals taking the category and
      then searching: within a group the matches keep catalogue order. */
  lemma {:induction false} FilterOfCategory(ts: seq<Template>, term: string, c: string)
    ensures OfCategory(Filter(ts, term), c) == Filter(OfCategory(ts, c), term)
    decreases |ts|
  {
    if |ts| > 0 {
      var init, last := ts[..|ts| - 1], ts[|ts| - 1];
      FilterOfCategory(init, term, c);
      var f := Filter(init, term);
      var oc := OfCategory(init, c);
      if Matches(last, term) {
        assert (f + [last])[..|f|] == f;
      }
      if CategoryOf(last) == c {
        assert (oc + [last])[..|oc|] == oc;
      }
    }
  }

  lemma LowerIdempotent(s: string)
    ensures ToLower(ToLower(s)) == ToLower(s)
  {
  }

  /** The search ignores the case of the term. */
  lemma SearchIgnoresCase(t: Template, term: string)
    ensures Matches(t, term) <==> Matches(t, ToLower(term))
  {
    LowerIdempotent(term);
  }

  /** An empty term matches every template. */
  lemma EmptyTermMatches(t: Template)
    ensures Matches(t, "")
  {
    assert ToLower("") == "";
    assert OccursAt(ToLower(t.name), "", 0);
  }

  lemma {:induction false} EmptyTermKeepsAll(ts: seq<Template>)
    ensures Filter(ts, "") == ts
    decreases |ts|
  {
    if |ts| > 0 {
      EmptyTermKeepsAll(ts[..|ts| - 1]);
      EmptyTermMatches(ts[|ts| - 1]);
      assert ts == ts[..|ts| - 1] + [ts[|ts| - 1]];
    }
  }

  // ---------------------------------------------------------------- grouping

  /** `template.category || 'Other'` */
  function CategoryOf(t: Template): (c: string)
    ensures c != ""
    ensures t.category.None? || t.category.value == "" ==> c == "Other"
  {
    if t.category.Some? && t.category.value != "" then t.category.value else "Other"
  }

  /** Reference: the templates of one category, in order. */
  function OfCategory(ts: seq<Template>, c: string): seq<Template>
    decreases |ts|
  {
    if |ts| == 0 then []
    else
      var init := OfCategory(ts[..|ts| - 1], c);
      if CategoryOf(ts[|ts| - 1]) == c then init + [ts[|ts| - 1]] else init
  }

  predicate HasCategory(ts: seq<Template>, c: string) {
    exists j :: 0 <= j < |ts| && CategoryOf(ts[j]) == c
  }

  datatype Group = Group(category: string, items: seq<Template>)

  function Find(gs: seq<Group>, c: string): (r: Option<nat>)
    ensures r.Some? ==> r.value < |gs| && gs[r.value].category == c
    ensures r.None? ==> forall i :: 0 <= i < |gs| ==> gs[i].category != c
    decreases |gs|
  {
    if |gs| == 0 then None
    else if gs[|gs| - 1].category == c then Some(|gs| - 1)
    else Find(gs[..|gs| - 1], c)
  }

  /** One step of the `reduce`: the template joins its category's group,
      which is opened at the end when it is new. */
  function AddTo(gs: seq<Group>, t: Template): (r: seq<Group>)
    ensures |r| == |gs| || |r| == |gs| + 1
  {
    var c := CategoryOf(t);
    match Find(gs, c)
    case Some(i) => gs[i := Group(c, gs[i].items + [t])]
    case None => gs + [Group(c, [t])]
  }

  /** The `reduce` over the filtered templates, in `Object.entries` order. */
  function GroupByCategory(ts: seq<Template>): seq<Group>
    decreases |ts|
  {
    if |ts| == 0 then [] else AddTo(GroupByCategory(ts[..|ts| - 1]), ts[|ts| - 1])
  }

  /** Each category once, its group exactly its templates in order, and
      every category present among the templates has a group. */
  ghost predicate Grouping(gs: seq<Group>, ts: seq<Template>) {
    CategoriesDistinct(gs) && GroupsExact(gs, ts) && CategoriesCovered(gs, ts)
  }

  predicate CategoriesDistinct(gs: seq<Group>) {
    forall i, j :: 0 <= i < j < |gs| ==> gs[i].category != gs[j].category
  }

  predicate GroupsExact(gs: seq<Group>, ts: seq<Template>) {
    forall i :: 0 <= i < |gs| ==> gs[i].items == OfCategory(ts, gs[i].category) && gs[i].items != []
  }

  ghost predicate CategoriesCovered(gs: seq<Group>, ts: seq<Template>) {
    forall c :: HasCategory(ts, c) ==> exists i :: 0 <= i < |gs| && gs[i].category == c
  }

  lemma {:induction false} OfCategoryAbsent(ts: seq<Template>, c: string)
    requires !HasCategory(ts, c)
    ensures OfCategory(ts, c) == []
    decreases |ts|
  {
    if |ts| > 0 {
      var init := ts[..|ts| - 1];
      OfCategoryAbsent(init, c);
      assert CategoryOf(ts[|ts| - 1]) != c;
    }
  }

  lemma AddToPreserves(gs: seq<Group>, ts: seq<Template>, t: Template)
    requires Grouping(gs, ts)
    ensures Grouping(AddTo(gs, t), ts + [t])
  {
    OfCategorySnoc(ts, t);
    AddToDistinct(gs, t);
    AddToExact(gs, ts, t);
    AddToCovers(gs, ts, t);
  }

  /** Appending a template extends its own category's list only. */
  lemma OfCategorySnoc(ts: seq<Template>, t: Template)
    ensures forall d :: OfCategory(ts + [t], d) == if d == CategoryOf(t) then OfCategory(ts, d) + [t] else OfCategory(ts, d)
  {
    assert (ts + [t])[..|ts|] == ts;
  }

  lemma AddToDistinct(gs: seq<Group>, t: Template)
    requires CategoriesDistinct(gs)
    ensures CategoriesDistinct(AddTo(gs, t))
  {
  }

  lemma AddToExact(gs: seq<Group>, ts: seq<Template>, t: Template)
    requires CategoriesDistinct(gs) && GroupsExact(gs, ts) && CategoriesCovered(gs, ts)
    requires forall d :: OfCategory(ts + [t], d) == if d == CategoryOf(t) then OfCategory(ts, d) + [t] else OfCategory(ts, d)
    ensures GroupsExact(AddTo(gs, t), ts + [t])
  {
    var c := CategoryOf(t);
    if Find(gs, c).None? {
      assert !HasCategory(ts, c);
      OfCategoryAbsent(ts, c);
    }
  }

  lemma AddToCovers(gs: seq<Group>, ts: seq<Template>, t: Template)
    requires CategoriesCovered(gs, ts)
    ensures CategoriesCovered(AddTo(gs, t), ts + [t])
  {
    var c := CategoryOf(t);
    var ts' := ts + [t];
    var r := AddTo(gs, t);
    forall d | HasCategory(ts', d) ensures exists i :: 0 <= i < |r| && r[i].category == d {
      var j :| 0 <= j < |ts'| && CategoryOf(ts'[j]) == d;
      if d != c {
        assert ts[j] == ts'[j];
        assert HasCategory(ts, d);
        var i :| 0 <= i < |gs| && gs[i].category == d;
        assert r[i].category == d;
      } else {
        assert r[Find(gs, c).GetOr(|gs|)].category == d;
      }
    }
  }

  lemma {:induction false} GroupingHolds(ts: seq<Template>)
    ensures Grouping(GroupByCategory(ts), ts)
    decreases |ts|
  {
    if |ts| > 0 {
      var init := ts[..|ts| - 1];
      GroupingHolds(init);
      AddToPreserves(GroupByCategory(init), init, ts[|ts| - 1]);
      assert init + [ts[|ts| - 1]] == ts;
    }
  }

  /** Every group belongs to a category that occurs. */
  lemma GroupsOccur(ts: seq<Template>, i: nat)
    requires i < |GroupByCategory(ts)|
    ensures HasCategory(ts, GroupByCategory(ts)[i].category)
  {
    var gs := GroupByCategory(ts);
    GroupingHolds(ts);
    if !HasCategory(ts, gs[i].category) {
      OfCategoryAbsent(ts, gs[i].category);
    }
  }

  /** There are no groups exactly when nothing matched. */
  lemma NoGroupsIffEmpty(ts: seq<Template>)
    ensures GroupByCategory(ts) == [] <==> ts == []
  {
    if ts != [] {
      GroupingHolds(ts);
      assert HasCategory(ts, CategoryOf(ts[0]));
    }
  }

  // ---------------------------------------------------------------- what the page shows

  /** The groups the page renders for a search term. */
  function Gallery(term: string): seq<Group> {
    GroupByCategory(Filter(Catalogue, term))
  }

  /** `renderCarousel` returns nothing for an empty list under an empty term. */
  predicate CarouselShown(list: seq<Template>, term: string) {
    |list| != 0 || term != ""
  }

  /** The "No templates found" message: no groups under a non-empty term. */
  predicate NoResults(groups: seq<Group>, term: string) {
    |groups| == 0 && term != ""
  }

  /** The message appears exactly when a non-empty term matches nothing. */
  lemma NoResultsIff(term: string)
    ensures NoResults(Gallery(term), term) <==> term != "" && forall t :: t in Catalogue ==> !Matches(t, term)
  {
    var f := Filter(Catalogue, term);
    NoGroupsIffEmpty(f);
    if f != [] {
      assert f[0] in f;
    }
  }

  /** Under an empty term every template is shown, grouped by its category. */
  lemma EmptyTermShowsAll()
    ensures forall g :: g in Gallery("") ==> g.items == OfCategory(Catalogue, g.category)
  {
    EmptyTermKeepsAll(Catalogue);
    GroupingHolds(Catalogue);
  }

  /** The groups the page shows for any term: each category's templates in
      catalogue order, narrowed to those the term matches. */
  lemma GalleryKeepsCatalogueOrder(term: string)
    ensures forall g :: g in Gallery(term) ==> g.items == Filter(OfCategory(Catalogue, g.category), term)
  {
    var f := Filter(Catalogue, term);
    GroupingHolds(f);
    forall g | g in Gallery(term) ensures g.items == Filter(OfCategory(Catalogue, g.category), term) {
      FilterOfCategory(Catalogue, term, g.category);
    }
  }

  /** The featured carousel: the recommended and new templates, whatever the term. */
  function Featured(ts: seq<Template>): (r: seq<Template>)
    ensures forall t :: t in r <==> t in ts && (t.status == Some("Recommended") || t.status == Some("New"))
    decreases |ts|
  {
    if |ts| == 0 then []
    else
      var init := Featured(ts[..|ts| - 1]);
      var last := ts[|ts| - 1];
      assert ts == ts[..|ts| - 1] + [last];
      if last.status == Some("Recommended") || last.status == Some("New") then init + [last] else init
  }

  /** The carousel keeps catalogue order: featuring distributes over concatenation. */
  lemma {:induction false} FeaturedAppend(a: seq<Template>, b: seq<Template>)
    ensures Featured(a + b) == Featured(a) + Featured(b)
    decreases |b|
  {
    if |b| > 0 {
      var init, last := b[..|b| - 1], b[|b| - 1];
      assert b == init + [last];
      assert a + b == (a + init) + [last];
      FeaturedAppend(a, init);
      FeaturedSnoc(a + init, last);
      FeaturedSnoc(init, last);
      var tail := if last.status == Some("Recommended") || last.status == Some("New") then [last] else [];
      ConcatAssoc(Featured(a), Featured(init), tail);
      assert Featured(a + b) == (Featured(a) + Featured(init)) + tail;
      assert Featured(b) == Featured(init) + tail;
    } else {
      assert a + b == a;
    }
  }

  /** Unfolds `Featured` once at the back. */
  lemma FeaturedSnoc(ts: seq<Template>, t: Template)
    ensures Featured(ts + [t]) == Featured(ts) + if t.status == Some("Recommended") || t.status == Some("New") then [t] else []
  {
    var s := ts + [t];
    assert s[..|s| - 1] == ts && s[|s| - 1] == t;
  }

  datatype Badge = Badge(background: string, color: string)

  /** `getStatusStyle`: a badge for the three known statuses, `{}` (None) otherwise. */
  function StatusStyle(status: Option<string>): (b: Option<Badge>)
    ensures b.Some? <==> status in {Some("New"), Some("Pro"), Some("Recommended")}
    ensures b.Some? ==> (b.value.color == "#fff" <==> status == Some("New"))
  {
    match status
    case Some("New") => Some(Badge("#18A0FB", "#fff"))
    case Some("Pro") => Some(Badge("#FFD166", "#000"))
    case Some("Recommended") => Some(Badge("#06D6A0", "#000"))
    case _ => None
  }

  /** Every featured template wears a badge. */
  lemma FeaturedHaveBadges(ts: seq<Template>, t: Template)
    requires t in Featured(ts)
    ensures StatusStyle(t.status).Some?
  {
  }

  /** The featured carousel never disappears: the catalogue has featured
      templates and the carousel ignores the search term. */
  lemma FeaturedAlwaysShown(term: string)
    ensures CarouselShown(Featured(Catalogue), term)
  {
    assert Catalogue[0] in Catalogue;
    assert Catalogue[0] in Featured(Catalogue);
  }

  /** `handleCreateBoard`: with a selected template, the new board's path
      carrying the template's id; nothing without one. */
  function CreateBoard(selected: Option<Template>, now: nat): (path: Option<string>)
    ensures path.None? <==> selected.None?
    ensures path.Some? ==> path.value == "/document/new-" + NatToDecimal(now) + "?template=" + selected.value.id
  {
    match selected
    case None => None
    case Some(t) => Some("/document/new-" + NatToDecimal(now) + "?template=" + t.id)
  }
}

=== FILE: text.dfy ===
/** String helpers the JavaScript runtime provides: number rendering and
    parsing in base 10 and 16, `String.prototype.trim`, ASCII case mapping,
    `includes`, and splitting on spaces. */
module Text {
  import opened Base

  // ---------------------------------------------------------------- decimal

  predicate IsDecimalDigit(c: char) {
    '0' <= c <= '9'
  }

  predicate AllDecimal(s: string) {
    forall i :: 0 <= i < |s| ==> IsDecimalDigit(s[i])
  }

  function DecimalDigit(d: nat): (c: char)
    requires d < 10
    ensures IsDecimalDigit(c) && c as int - '0' as int == d
  {
    ('0' as int + d) as char
  }

  /** `n.toString()` for a natural number: most significant digit first, no leading zeros. */
  function NatToDecimal(n: nat): (s: string)
    ensures |s| >= 1 && AllDecimal(s)
    ensures s[0] == '0' ==> n == 0
    decreases n
  {
    if n < 10 then [DecimalDigit(n)]
    else NatToDecimal(n / 10) + [DecimalDigit(n % 10)]
  }

  /** The number a string of decimal digits denotes. */
  function DecimalValue(s: string): nat
    requires AllDecimal(s)
    decreases |s|
  {
    if |s| == 0 then 0
    else DecimalValue(s[..|s| - 1]) * 10 + (s[|s| - 1] as int - '0' as int)
  }

  lemma {:induction false} DecimalRoundTrip(n: nat)
    ensures DecimalValue(NatToDecimal(n)) == n
    decreases n
  {
    if n >= 10 {
      var s := NatToDecimal(n);
      assert s[..|s| - 1] == NatToDecimal(n / 10);
      DecimalRoundTrip(n / 10);
    }
  }

  /** `n.toString()` for an integer. */
  function IntToDecimal(n: int): (s: string)
    ensures |s| >= 1
    ensures forall i :: 0 <= i < |s| ==> s[i] == '-' || IsDecimalDigit(s[i])
  {
    if n < 0 then "-" + NatToDecimal(-n) else NatToDecimal(n)
  }

  /** Reads an optional minus sign followed by decimal digits. */
  function ParseInteger(s: string): Option<int> {
    if |s| >= 2 && s[0] == '-' && AllDecimal(s[1..]) then Some(-(DecimalValue(s[1..]) as int))
    else if |s| >= 1 && AllDecimal(s) then Some(DecimalValue(s))
    else None
  }

  lemma IntegerRoundTrip(n: int)
    ensures ParseInteger(IntToDecimal(n)) == Some(n)
  {
    var s := IntToDecimal(n);
    if n < 0 {
      assert s[1..] == NatToDecimal(-n);
      DecimalRoundTrip(-n);
    } else {
      DecimalRoundTrip(n);
    }
  }

  // ---------------------------------------------------------------- hexadecimal

  predicate IsHexDigit(c: char) {
    '0' <= c <= '9' || 'a' <= c <= 'f' || 'A' <= c <= 'F'
  }

  predicate IsLowerHexDigit(c: char) {
    '0' <= c <= '9' || 'a' <= c <= 'f'
  }

  predicate AllHex(s: string) {
    forall i :: 0 <= i < |s| ==> IsHexDigit(s[i])
  }

  predicate AllLowerHex(s: string) {
    forall i :: 0 <= i < |s| ==> IsLowerHexDigit(s[i])
  }

  function HexDigitValue(c: char): (d: nat)
    requires IsHexDigit(c)
    ensures d < 16
  {
    if '0' <= c <= '9' then c as int - '0' as int
    else if 'a' <= c <= 'f' then c as int - 'a' as int + 10
    else c as int - 'A' as int + 10
  }

  /** The lower-case digit `Number.prototype.toString(16)` writes for `d`. */
  function HexDigit(d: nat): (c: char)
    requires d < 16
    ensures IsLowerHexDigit(c) && HexDigitValue(c) == d
  {
    if d < 10 then ('0' as int + d) as char else ('a' as int + d - 10) as char
  }

  /** The number a string of hexadecimal digits denotes. */
  function HexValue(s: string): nat
    requires AllHex(s)
    decreases |s|
  {
    if |s| == 0 then 0
    else HexValue(s[..|s| - 1]) * 16 + HexDigitValue(s[|s| - 1])
  }

  function Pow16(k: nat): (r: nat)
    ensures r >= 1
  {
    if k == 0 then 1 else 16 * Pow16(k - 1)
  }

  lemma AllHexAppend(a: string, b: string)
    requires AllHex(a) && AllHex(b)
    ensures AllHex(a + b)
  {
    forall i | 0 <= i < |a + b| ensures IsHexDigit((a + b)[i]) {
      if i < |a| { assert (a + b)[i] == a[i]; } else { assert (a + b)[i] == b[i - |a|]; }
    }
  }

  /** One step of reading: the last digit is the low digit. */
  lemma HexValueSnoc(s: string)
    requires AllHex(s) && |s| > 0
    ensures AllHex(s[..|s| - 1])
    ensures HexValue(s) == HexValue(s[..|s| - 1]) * 16 + HexDigitValue(s[|s| - 1])
  {
  }

  lemma ShiftArith(x: int, p: int, y: int, d: int)
    ensures (x * p + y) * 16 + d == x * (16 * p) + (y * 16 + d)
  {
    assert (x * p) * 16 == x * (16 * p);
  }

  /** Reading a concatenation: the left part is shifted by the right part's width. */
  lemma {:induction false} HexValueAppend(a: string, b: string)
    requires AllHex(a) && AllHex(b)
    ensures AllHex(a + b)
    ensures HexValue(a + b) == HexValue(a) * Pow16(|b|) + HexValue(b)
    decreases |b|
  {
    AllHexAppend(a, b);
    if |b| > 0 {
      var b' := b[..|b| - 1];
      var ab := a + b;
      assert ab[..|ab| - 1] == a + b';
      assert ab[|ab| - 1] == b[|b| - 1];
      HexValueSnoc(b);
      HexValueSnoc(ab);
      HexValueAppend(a, b');
      ShiftArith(HexValue(a), Pow16(|b'|), HexValue(b'), HexDigitValue(b[|b| - 1]));
    } else {
      assert a + b == a;
    }
  }

  /** `n.toString(16)`: lower-case digits, most significant first. */
  function NatToHex(n: nat): (s: string)
    ensures |s| >= 1 && AllLowerHex(s)
    ensures n < 16 <==> |s| == 1
    ensures 16 <= n < 256 ==> |s| == 2
    decreases n
  {
    if n < 16 then [HexDigit(n)] else NatToHex(n / 16) + [HexDigit(n % 16)]
  }

  lemma LowerHexIsHex(s: string)
    requires AllLowerHex(s)
    ensures AllHex(s)
  {
  }

  lemma {:induction false} HexRoundTrip(n: nat)
    ensures AllHex(NatToHex(n)) && HexValue(NatToHex(n)) == n
    decreases n
  {
    LowerHexIsHex(NatToHex(n));
    if n >= 16 {
      var s := NatToHex(n);
      assert s[..|s| - 1] == NatToHex(n / 16);
      HexRoundTrip(n / 16);
    }
  }

  /** `('00' + v.toString(16)).substr(-2)`: a byte as exactly two lower-case digits. */
  function HexByte(v: nat): (s: string)
    requires v < 256
    ensures |s| == 2 && AllLowerHex(s)
  {
    var t := "00" + NatToHex(v);
    t[|t| - 2..]
  }

  /** The two digits read back as the byte they were written from. */
  lemma HexByteValue(v: nat)
    requires v < 256
    ensures AllHex(HexByte(v)) && HexValue(HexByte(v)) == v
  {
    var h := NatToHex(v);
    HexRoundTrip(v);
    var s := HexByte(v);
    LowerHexIsHex(s);
    if v < 16 {
      assert s == ['0'] + h;
      HexValueAppend(['0'], h);
    } else {
      assert s == h;
    }
  }

  // ---------------------------------------------------------------- whitespace

  /** The characters `String.prototype.trim` removes: WhiteSpace and LineTerminator. */
  predicate IsWhitespace(c: char) {
    c == '\t' || c == '\n' || c == '\U{000B}' || c == '\U{000C}' || c == '\r' || c == ' '
    || c == '\U{00A0}' || c == '\U{1680}' || ('\U{2000}' <= c <= '\U{200A}')
    || c == '\U{2028}' || c == '\U{2029}' || c == '\U{202F}' || c == '\U{205F}'
    || c == '\U{3000}' || c == '\U{FEFF}'
  }

  predicate Blank(s: string) {
    forall i :: 0 <= i < |s| ==> IsWhitespace(s[i])
  }

  /** `s.trimStart()` */
  function TrimStart(s: string): (r: string)
    ensures |r| <= |s| && r == s[|s| - |r|..]
    ensures |r| > 0 ==> !IsWhitespace(r[0])
    decreases |s|
  {
    if |s| > 0 && IsWhitespace(s[0]) then TrimStart(s[1..]) else s
  }

  /** `s.trimEnd()` */
  function TrimEnd(s: string): (r: string)
    ensures |r| <= |s| && r == s[..|r|]
    ensures |r| > 0 ==> !IsWhitespace(r[|r| - 1])
    decreases |s|
  {
    if |s| > 0 && IsWhitespace(s[|s| - 1]) then TrimEnd(s[..|s| - 1]) else s
  }

  /** `s.trim()` */
  function Trim(s: string): string {
    TrimEnd(TrimStart(s))
  }

  lemma {:induction false} TrimStartBlank(s: string)
    ensures TrimStart(s) == "" <==> Blank(s)
    decreases |s|
  {
    if |s| > 0 && IsWhitespace(s[0]) {
      TrimStartBlank(s[1..]);
      assert Blank(s) <==> Blank(s[1..]) by {
        if Blank(s[1..]) {
          forall i | 0 <= i < |s| ensures IsWhitespace(s[i]) {
            if i > 0 { assert s[i] == s[1..][i - 1]; }
          }
        }
      }
    }
  }

  /** `s.trim()` is empty exactly when every character of `s` is whitespace. */
  lemma TrimEmptyIffBlank(s: string)
    ensures Trim(s) == "" <==> Blank(s)
  {
    TrimStartBlank(s);
    var t := TrimStart(s);
    if |t| > 0 {
      assert !IsWhitespace(t[0]);
      assert TrimEnd(t) != "" by {
        var e := TrimEnd(t);
        if e == "" {
          TrimEndOfNonBlank(t);
        }
      }
    }
  }

  lemma {:induction false} TrimEndOfNonBlank(s: string)
    requires |s| > 0 && !IsWhitespace(s[0])
    ensures TrimEnd(s) != ""
    decreases |s|
  {
    if IsWhitespace(s[|s| - 1]) {
      TrimEndOfNonBlank(s[..|s| - 1]);
    }
  }

  // ---------------------------------------------------------------- case

  function LowerChar(c: char): char {
    if 'A' <= c <= 'Z' then (c as int + 32) as char else c
  }

  function UpperChar(c: char): char {
    if 'a' <= c <= 'z' then (c as int - 32) as char else c
  }

  /** `s.toLowerCase()`, character by character. */
  function ToLower(s: string): (r: string)
    ensures |r| == |s|
    ensures forall i :: 0 <= i < |s| ==> r[i] == LowerChar(s[i])
  {
    seq(|s|, i requires 0 <= i < |s| => LowerChar(s[i]))
  }

  // ---------------------------------------------------------------- search

  /** `sub` occurs in `s` starting at index `i`. */
  predicate OccursAt(s: string, sub: string, i: int) {
    0 <= i && i + |sub| <= |s| && s[i..i + |sub|] == sub
  }

  /** `s.includes(sub)`, computed by scanning from the left. */
  function Includes(s: string, sub: string): (r: bool)
    ensures r <==> exists i :: OccursAt(s, sub, i)
    decreases |s|
  {
    if |sub| > |s| then false
    else if sub <= s then (assert OccursAt(s, sub, 0); true)
    else if |s| == 0 then false
    else
      var rest := Includes(s[1..], sub);
      assert rest ==> exists i :: OccursAt(s, sub, i) by {
        if rest {
          var j :| OccursAt(s[1..], sub, j);
          assert s[1..][j..j + |sub|] == s[j + 1..j + 1 + |sub|];
          assert OccursAt(s, sub, j + 1);
        }
      }
      assert (exists i :: OccursAt(s, sub, i)) ==> rest by {
        if exists i :: OccursAt(s, sub, i) {
          var i :| OccursAt(s, sub, i);
          assert OccursAt(s, sub, 0) ==> sub <= s;
          assert s[1..][i - 1..i - 1 + |sub|] == s[i..i + |sub|];
          assert OccursAt(s[1..], sub, i - 1);
        }
      }
      rest
  }

  // ---------------------------------------------------------------- words

  predicate NoSpace(t: string) {
    forall i :: 0 <= i < |t| ==> t[i] != ' '
  }

  /** `s.split(" ")` */
  function Split(s: string): (r: seq<string>)
    ensures |r| >= 1
    decreases |s|
  {
    if |s| == 0 then [""]
    else
      var rest := Split(s[1..]);
      if s[0] == ' ' then [""] + rest else [[s[0]] + rest[0]] + rest[1..]
  }

  /** `tokens.join(" ")` */
  function JoinSpaced(tokens: seq<string>): string
    decreases |tokens|
  {
    if |tokens| == 0 then ""
    else if |tokens| == 1 then tokens[0]
    else tokens[0] + " " + JoinSpaced(tokens[1..])
  }

  lemma {:induction false} SplitNoSpacePrefix(t: string, s: string)
    requires NoSpace(t)
    ensures Split(t + s) == [t + Split(s)[0]] + Split(s)[1..]
    decreases |t|
  {
    if |t| > 0 {
      assert (t + s)[1..] == t[1..] + s;
      SplitNoSpacePrefix(t[1..], s);
      assert [t[0]] + (t[1..] + Split(s)[0]) == t + Split(s)[0];
    } else {
      assert t + s == s;
      assert t + Split(s)[0] == Split(s)[0];
      assert Split(s) == [Split(s)[0]] + Split(s)[1..];
    }
  }

  /** Splitting undoes joining when no token holds a space. */
  lemma {:induction false} SplitJoin(tokens: seq<string>)
    requires |tokens| >= 1
    requires forall k :: 0 <= k < |tokens| ==> NoSpace(tokens[k])
    ensures Split(JoinSpaced(tokens)) == tokens
    decreases |tokens|
  {
    var t := tokens[0];
    if |tokens| == 1 {
      SplitNoSpacePrefix(t, "");
      assert t + "" == t;
    } else {
      var rest := JoinSpaced(tokens[1..]);
      SplitJoin(tokens[1..]);
      assert t + " " + rest == t + (" " + rest);
      SplitNoSpacePrefix(t, " " + rest);
      assert (" " + rest)[1..] == rest;
      assert Split(" " + rest) == [""] + tokens[1..];
      assert t + "" == t;
      assert [t] + tokens[1..] == tokens;
    }
  }

  // ---------------------------------------------------------------- UTF-16

  /** The UTF-16 code units of one character: itself, or a surrogate pair
      above the Basic Multilingual Plane. */
  function CodeUnits(c: char): (u: seq<int>)
    ensures 1 <= |u| <= 2 && forall i :: 0 <= i < |u| ==> 0 <= u[i] < 0x1_0000
    ensures (c as int) < 0x1_0000 ==> u == [c as int]
  {
    var v := c as int;
    if v < 0x1_0000 then [v]
    else [0xD800 + (v - 0x1_0000) / 0x400, 0xDC00 + (v - 0x1_0000) % 0x400]
  }

  /** A string as JavaScript sees it: `s.length`, `s[i]` and `s.charCodeAt(i)`
      are about these units. */
  function Utf16(s: string): (u: seq<int>)
    ensures |u| >= |s|
    ensures forall i :: 0 <= i < |u| ==> 0 <= u[i] < 0x1_0000
    decreases |s|
  {
    if |s| == 0 then [] else CodeUnits(s[0]) + Utf16(s[1..])
  }

  predicate Bmp(s: string) {
    forall i :: 0 <= i < |s| ==> (s[i] as int) < 0x1_0000
  }

  /** Below U+10000 every character is one unit. */
  lemma {:induction false} Utf16OfBmp(s: string)
    requires Bmp(s)
    ensures |Utf16(s)| == |s| && forall i :: 0 <= i < |s| ==> Utf16(s)[i] == s[i] as int
    decreases |s|
  {
    if |s| > 0 {
      Utf16OfBmp(s[1..]);
      forall i | 0 < i < |s| ensures Utf16(s)[i] == s[i] as int {
        assert s[i] == s[1..][i - 1];
      }
    }
  }

  lemma {:induction false} Utf16Append(a: string, b: string)
    ensures Utf16(a + b) == Utf16(a) + Utf16(b)
    decreases |a|
  {
    if |a| > 0 {
      assert (a + b)[0] == a[0];
      assert (a + b)[1..] == a[1..] + b;
      Utf16Append(a[1..], b);
    } else {
      assert a + b == b;
    }
  }

  // ---------------------------------------------------------------- parseInt(s, 16)

  predicate IsHexUnit(u: int) {
    '0' as int <= u <= '9' as int || 'a' as int <= u <= 'f' as int || 'A' as int <= u <= 'F' as int
  }

  function HexUnitValue(u: int): (d: nat)
    requires IsHexUnit(u)
    ensures d < 16
  {
    if u <= '9' as int then u - '0' as int
    else if u >= 'a' as int then u - 'a' as int + 10
    else u - 'A' as int + 10
  }

  predicate AllHexUnits(u: seq<int>) {
    forall i :: 0 <= i < |u| ==> IsHexUnit(u[i])
  }

  function HexUnitsValue(u: seq<int>): nat
    requires AllHexUnits(u)
    decreases |u|
  {
    if |u| == 0 then 0 else HexUnitsValue(u[..|u| - 1]) * 16 + HexUnitValue(u[|u| - 1])
  }

  /** A unit `parseInt` skips before the number. */
  predicate IsWhitespaceUnit(u: int) {
    (0 <= u < 0xD800 || 0xE000 <= u < 0x1_0000) && IsWhitespace(u as char)
  }

  function DropWhitespace(u: seq<int>): (r: seq<int>)
    ensures |r| <= |u| && r == u[|u| - |r|..]
    ensures |r| > 0 ==> !IsWhitespaceUnit(r[0])
    ensures forall i :: 0 <= i < |u| - |r| ==> IsWhitespaceUnit(u[i])
    decreases |u|
  {
    if |u| > 0 && IsWhitespaceUnit(u[0]) then
      var r := DropWhitespace(u[1..]);
      assert forall i :: 1 <= i < |u| - |r| ==> u[i] == u[1..][i - 1];
      r
    else u
  }

  /** The longest prefix made of hexadecimal digits. */
  function HexPrefix(u: seq<int>): (r: seq<int>)
    ensures r <= u && AllHexUnits(r)
    ensures |r| < |u| ==> !IsHexUnit(u[|r|])
    decreases |u|
  {
    if |u| > 0 && IsHexUnit(u[0]) then
      var r := [u[0]] + HexPrefix(u[1..]);
      assert forall i :: 1 <= i < |r| ==> r[i] == HexPrefix(u[1..])[i - 1];
      r
    else []
  }

  /** `parseInt(s, 16)` on the units of `s`, None standing for NaN: leading
      whitespace, an optional sign, an optional `0x`/`0X`, then the longest run
      of hexadecimal digits, of which there must be at least one. */
  function ParseIntHex(u: seq<int>): Option<int> {
    var t := DropWhitespace(u);
    var neg := |t| > 0 && t[0] == '-' as int;
    var t1 := if |t| > 0 && (t[0] == '-' as int || t[0] == '+' as int) then t[1..] else t;
    var t2 := if |t1| >= 2 && t1[0] == '0' as int && (t1[1] == 'x' as int || t1[1] == 'X' as int) then t1[2..] else t1;
    var digits := HexPrefix(t2);
    if |digits| == 0 then None
    else if neg then Some(-(HexUnitsValue(digits) as int))
    else Some(HexUnitsValue(digits))
  }

  /** A plain run of hexadecimal digits parses to the number it denotes. */
  lemma ParseIntHexOfDigits(u: seq<int>)
    requires |u| > 0 && AllHexUnits(u)
    ensures ParseIntHex(u) == Some(HexUnitsValue(u))
  {
    HexNotWhitespace(u[0]);
    var t := DropWhitespace(u);
    assert t == u;
    assert t[0] != '-' as int && t[0] != '+' as int;
    assert !(|t| >= 2 && t[0] == '0' as int && (t[1] == 'x' as int || t[1] == 'X' as int)) by {
      if |t| >= 2 { assert IsHexUnit(t[1]); }
    }
    HexPrefixOfDigits(u);
  }

  lemma HexNotWhitespace(u: int)
    requires IsHexUnit(u)
    ensures !IsWhitespaceUnit(u)
  {
    var c := u as char;
    assert '0' <= c <= '9' || 'a' <= c <= 'f' || 'A' <= c <= 'F';
  }

  lemma {:induction false} HexPrefixOfDigits(u: seq<int>)
    requires AllHexUnits(u)
    ensures HexPrefix(u) == u
    decreases |u|
  {
    if |u| > 0 {
      HexPrefixOfDigits(u[1..]);
      assert [u[0]] + u[1..] == u;
    }
  }

  lemma HexUnitOfDigit(c: char)
    requires IsHexDigit(c)
    ensures IsHexUnit(c as int) && HexUnitValue(c as int) == HexDigitValue(c)
  {
  }

  /** The units of a string of hexadecimal digits denote the same number as its characters. */
  lemma HexUnitsOfHex(s: string)
    requires AllHex(s)
    ensures Bmp(s) && AllHexUnits(Utf16(s)) && HexUnitsValue(Utf16(s)) == HexValue(s)
  {
    HexDigitsAreUnits(s);
    HexUnitsMatchDigits(Utf16(s), s);
  }

  /** Units that are the digits' code points carry the digits' value. */
  lemma {:induction false} HexUnitsMatchDigits(u: seq<int>, s: string)
    requires AllHex(s) && |u| == |s| && forall i :: 0 <= i < |s| ==> u[i] == s[i] as int
    ensures AllHexUnits(u) && HexUnitsValue(u) == HexValue(s)
    decreases |s|
  {
    forall i | 0 <= i < |u| ensures IsHexUnit(u[i]) {
      HexUnitOfDigit(s[i]);
    }
    if |s| > 0 {
      var n := |s|;
      assert AllHex(s[..n - 1]);
      HexUnitsMatchDigits(u[..n - 1], s[..n - 1]);
      HexUnitOfDigit(s[n - 1]);
    }
  }

  /** Hexadecimal digits are single units, each a hexadecimal unit. */
  lemma HexDigitsAreUnits(s: string)
    requires AllHex(s)
    ensures Bmp(s) && |Utf16(s)| == |s| && AllHexUnits(Utf16(s))
    ensures forall i :: 0 <= i < |s| ==> Utf16(s)[i] == s[i] as int
  {
    assert Bmp(s) by {
      forall i | 0 <= i < |s| ensures (s[i] as int) < 0x1_0000 {
        assert IsHexDigit(s[i]);
      }
    }
    Utf16OfBmp(s);
    var u := Utf16(s);
    forall i | 0 <= i < |u| ensures IsHexUnit(u[i]) {
      HexUnitOfDigit(s[i]);
    }
  }
}
